=== FILE: README.md ===
# zebra easy-OOP runtime in Dafny

A model of the class system at the heart of zebra's `lib/zebra/easyoop.js`,
with proofs of what it promises. The model covers:

- class and interface templates (`make_template`, `Class`, `Interface`) and their ancestor sets `$parents`;
- overloaded methods: a `ProxyMethod` is an arity-keyed table, and calling it dispatches on the argument count, restores the `$caller` slot afterwards, and reports `mnf` "not found" errors;
- cloning tables when a subclass copies its parent's prototype;
- the static `extend` that merges definitions into a class;
- constructor inheritance;
- anonymous-subclass construction (`new C(args..., [functions])`);
- `$super`, per-instance `extend`, `getMethod` and `instanceOf`;
- the readiness gate `ready`/`busy`;
- namespaces and their dotted package paths.

The runtime is one immutable `State` record. It holds:

- the class table, keyed by the template's numeric hash;
- the instance heap;
- the `$caller` slot;
- a log of executed method bodies;
- the set of bodies that throw;
- the id counters.

Every operation is a pure function from a state to an `Out` (the final state plus a value or the error thrown). Errors keep the partial effects the source leaves behind, e.g. definitions merged before a duplicate was met.

User method bodies are opaque. Running one appends a `Run(self, body, caller, argc)` record to the log, and whether it throws is decided by the `failing` set.

The files:

| File | What it holds |
|---|---|
| `wrappers.dfy` | `Option` and `Result` |
| `model.dfy` | the data model and member lookup |
| `dispatch.dfy` | `ProxyMethod` calls, `$clone$`, `mnf` and `getMethod` |
| `classes.dfy` | `make_template` ancestors, `Class`, `Interface` and static `extend` |
| `class_properties.dfy` | properties of merging definitions and of inheritance |
| `construction.dfy` | instance construction, anonymous subclasses and interface call syntax |
| `super.dfy` | `$super` |
| `extend.dfy` | per-instance `extend` |
| `extend_properties.dfy` | properties of per-instance `extend` |
| `capability.dfy` | `instanceOf` |
| `readiness.dfy` | `ready` and `busy` |
| `paths.dfy` | splitting and joining of dotted names |
| `namespaces.dfy` | namespaces and package paths |
| `namespace_properties.dfy` | properties of package paths |

Ids 0 and 1 are the metaclasses `Class` and `Interface`. Id 2 is `$Extended`.

Where the code and its own documentation differ, the model follows the code:

- Per-instance `extend` adds each interface argument to the private class's `$parents` on its own (line 651). It does not add that interface's ancestors, unlike `make_template` (lines 244-249). So an instance is not an `instanceOf` the super-interfaces of an interface it was extended with.
- Anonymous construction returns an object different from `this`. The template allocates `this` first and then builds the result with `new f()` (lines 524, 555). The result is therefore the second object allocated (`Construction.ConstructAnonymous`).
- `getMethod` without `params` returns the entry of least arity. The for-in order over the integer keys of `methods` is ascending.

Some operation functions have no row of their own because the lemmas about them state their properties:

- `Namespaces.Step`, `Namespaces.Walk` and `Namespaces.Require` (the single-name namespace call `f(name)`) are specified by `NamespaceProperties.StepFacts`, the `Walk...` rows and the `Require...` rows;
- `Construction.Construct` (`new C(...)`) is specified by `Construction.ConstructPlain`, `Construction.ConstructAnonymous`, `Construction.ConstructAnonymousParents` and `Construction.ConstructWithoutArgs`;
- `Construction.RunTemplate` is specified by `Construction.TemplateCallsConstructor`;
- `Construction.AnonymousInstance` is specified by the `Construction.AnonymousInstance...` rows;
- `Classes.MergeDefs` is specified by the `ClassProperties.MergeDefs...` and `ClassProperties.MergedDefsInstalled` rows.

## Model

| member | source | states |
|---|---|---|
| Model.Normalize | lib/zebra/easyoop.js:741-742 | A user constructor name (the empty name) and `$` both become the internal constructor name, and no other name is changed. |
| Model.Init | lib/zebra/easyoop.js:323-332 | The start state is well formed: `Class`, `Interface` and `$Extended` exist, no method is running and no instance exists. |
| Model.Lookup | lib/zebra/easyoop.js:609 | `this[n]` finds an instance's own member first. A name it does not hold itself is read from the prototype it was created from, and is missing if that prototype lacks it too. The modelled prototypes hold no `Object.prototype` built-ins (see "Left out"). Only an existing instance has members. |
| Classes.AncestorsFrom | lib/zebra/easyoop.js:236-251 | The parent list is accepted exactly when every entry is a function. Otherwise the first non-function index `j` raises "Undefined parent class or interface [j]". The ancestor set is exactly the union of every entry and that entry's own `$parents`. |
| Classes.Ancestors | lib/zebra/easyoop.js:236-251 | The same for a whole parent list: success iff every entry is a function, and the ancestor set is the union of each entry with its `$parents`. |
| Classes.CopyParent | lib/zebra/easyoop.js:569-584 | A subclass starts with every parent member except constructor tables. Each copied member is equal to the parent's (a clone has the same entries). |
| Classes.TableFor | lib/zebra/easyoop.js:776-802 | A name holding a plain value raises "conflicts to property". Otherwise the table to extend has exactly the callable entries the name held before. |
| Classes.MergeDef | lib/zebra/easyoop.js:738-812 | Adding a definition follows four rules. A plain value under the name is a conflict. An entry at the same arity bound to this class is "Duplicated method". Otherwise the arity now holds the new implementation bound to this class. Every other arity and every other name keep their value. `$clazz` is skipped and `$prototype` installs fields. |
| Classes.InstallFields | lib/zebra/easyoop.js:745-761 | The `$prototype` directive adds exactly the (normalised) names of its fields to the prototype. |
| Classes.InstallFieldsFrame | lib/zebra/easyoop.js:748-760 | A prototype member whose name no field writes is unchanged. |
| Classes.InstallFieldsLastWins | lib/zebra/easyoop.js:748-760 | A field that no later field overwrites is installed: a function bound to the class under that name, or the plain value. |
| Classes.InheritConstructor | lib/zebra/easyoop.js:816-824 | A class without its own constructor takes the parent's non-null constructor member. A class with its own keeps it. A class whose parent has none gets none. |
| Classes.ParentOf | lib/zebra/easyoop.js:519-521 | `$parent` is set exactly when the first parent argument is a class (its `$clazz` is `Class`). |
| Classes.AddClass | lib/zebra/easyoop.js:225 | A new template gets a fresh hash. Every existing class, instance and the log are unchanged. |
| Classes.MakeClass | lib/zebra/easyoop.js:503-824 | Each shape error is raised with no change: no arguments, a last argument that is not an array, or a non-function first argument among several. Past those checks the class is built exactly when every parent argument is a function and the definitions merge. Otherwise the error is "Undefined parent class or interface" at the first non-function, or the merge's own error, again with no change. On success there is a fresh class with metaclass `Class` and the parent `ParentOf` gives. Its `$parents` are exactly the union of the parent arguments and their ancestors. |
| Classes.MakeInterface | lib/zebra/easyoop.js:323-328 | An interface fails exactly when some parent is not a function. A new interface has metaclass `Interface`, no parent and no members. Its ancestors are the union of the arguments and their ancestors. |
| Classes.StaticExtend | lib/zebra/easyoop.js:733-814 | A non-array argument is rejected with no change. Otherwise only the class's prototype changes. It fails exactly when merging its definitions fails, and it keeps the definitions merged before the failure. |
| ClassProperties.MergeDefKeepsSlot | lib/zebra/easyoop.js:804-812 | A definition leaves every other (name, arity) slot as it was. |
| ClassProperties.MergeDefsKeepsSlot | lib/zebra/easyoop.js:738-813 | A definition list that never names a slot leaves that slot as it was. |
| ClassProperties.BoundSlotRejects | lib/zebra/easyoop.js:804-807 | Redefining a slot already bound to the same class is always an error. |
| ClassProperties.DuplicateRejected | lib/zebra/easyoop.js:804-807 | Two definitions with the same name and arity in one list are always an error. |
| ClassProperties.MergedDefsInstalled | lib/zebra/easyoop.js:809-812 | After a successful merge, every definition is callable at its arity, bound to the class under its name. |
| ClassProperties.MergeDefsNameFrame | lib/zebra/easyoop.js:738-813 | A name no definition uses is present afterwards exactly when it was before, with the same member. |
| ClassProperties.ConstructorInherited | lib/zebra/easyoop.js:816-824 | A subclass declaring no constructor starts with a constructor table equal to its parent's, although copying the parent's prototype drops constructor tables. |
| ClassProperties.BuiltProto | lib/zebra/easyoop.js:738-824 | A prototype assembled as `Class` assembles it, from definitions without directives, has every definition callable at its arity and bound to the class. A name is present exactly when the parent had it (constructor tables aside), a definition declares it, or it is the inherited constructor. Every undeclared name holds the parent's member. |
| ClassProperties.MakeClassProto | lib/zebra/easyoop.js:738-824 | The same for the class `Class` returns: its definitions are installed and bound to it, its names are the parent's, the declared ones and the inherited constructor, and undeclared names keep the parent's members. |
| ClassProperties.InheritedMemberKept | lib/zebra/easyoop.js:572-583 | A subclass has every non-constructor member of its parent that it does not redefine, unchanged. |
| Dispatch.DisplayName | lib/zebra/easyoop.js:214-215 | The not-found message shows "constructor" for the internal constructor name and the name itself otherwise. |
| Dispatch.NotFound | lib/zebra/easyoop.js:212-216 | The error names the class's `$name`, the method and the argument count, and changes nothing. |
| Dispatch.Clone | lib/zebra/easyoop.js:365-375 | Cloning a constructor table gives nothing. Any other table gives a table with the same name and exactly the same entries, and other members are unchanged. |
| Dispatch.RunBody | lib/zebra/easyoop.js:346 | Running a body appends exactly one run record. It throws exactly when the body is one that fails. |
| Dispatch.CallTable | lib/zebra/easyoop.js:341-351 | With an entry at the argument count, that entry runs with the caller slot set to it, and the slot is restored afterwards whether or not it throws. Without one, "not found" is raised for the method name and count, and nothing changes. |
| Dispatch.Invoke | lib/zebra/easyoop.js:341-358 | Calling a plain value is an error. A plain function runs as it is. A table dispatches by arity. Only the log changes. |
| Dispatch.CallMember | lib/zebra/easyoop.js:609 | `obj.n(...)` on a missing name is an error. Otherwise the member found by lookup is called. |
| Dispatch.MinKey | lib/zebra/easyoop.js:717-722 | The least key of a non-empty arity set. |
| Dispatch.MinExists | lib/zebra/easyoop.js:717-722 | Every non-empty arity set has a least element. |
| Dispatch.GetMethod | lib/zebra/easyoop.js:710-730 | With `params`, the entry at that arity if there is one. Without `params`, the entry of least arity, or nothing for an empty table. A plain function is returned as it is. Plain values and missing names give nothing. |
| Construction.CollectInterfaces | lib/zebra/easyoop.js:535-540 | Scans backwards from the argument before the array. It collects exactly the maximal run of Interface instances, last first, and stops at the first argument that is not one. |
| Construction.Allocate | lib/zebra/easyoop.js:524 | A new instance gets the next object id. Its class and prototype are the template, it has no own members, and nothing else changes. |
| Construction.CallConstructor | lib/zebra/easyoop.js:566 | A missing or falsy constructor member is skipped. Otherwise it is invoked with all the arguments. Only the log changes. |
| Construction.CallConstructorRuns | lib/zebra/easyoop.js:566 | Running the constructor records at most one run, for this object and this argument count. |
| Construction.AnonymousClassArgs | lib/zebra/easyoop.js:534-543 | The anonymous class is declared with the original class first and the array of functions last. |
| Construction.AnonymousParents | lib/zebra/easyoop.js:534-545 | The anonymous class's ancestors are exactly the original class, its ancestors, and the collected interfaces with their ancestors. |
| Construction.SetName | lib/zebra/easyoop.js:552 | Only the `$name` of that one class changes. |
| Construction.AnonymousClass | lib/zebra/easyoop.js:534-552 | On success there is a fresh class whose `$parent` is the original class and whose `$name` is the original's. Instances are untouched. |
| Construction.AnonymousClassBuilt | lib/zebra/easyoop.js:545 | The declared anonymous class is new, is a class, and has the original class as parent. |
| Construction.AnonymousClassParents | lib/zebra/easyoop.js:534-545 | The anonymous class's `$parents` contain a class exactly when it is the original class, one of its ancestors, or an ancestor of a collected interface. |
| Construction.TemplateCallsConstructor | lib/zebra/easyoop.js:526-566 | Without a trailing function array, the template only calls the constructor: at most one run, for this object with all the arguments, and the object itself is the result. |
| Construction.AnonymousInstanceOk | lib/zebra/easyoop.js:545-562 | A successful anonymous construction declares the class, allocates the object, runs its template on the arguments before the interfaces, and returns that object. |
| Construction.AnonymousInstanceShape | lib/zebra/easyoop.js:545-562 | The returned object is new. Both its `$clazz` and its prototype are the anonymous class. |
| Construction.AnonymousInstanceRuns | lib/zebra/easyoop.js:558 | The anonymous object's constructor runs at most once, with only the arguments preceding the interfaces. |
| Construction.AllocatedRuns | lib/zebra/easyoop.js:524-566 | A freshly allocated object's template records at most one run, for that object with all the arguments. |
| Construction.ConstructPlain | lib/zebra/easyoop.js:523-566 | `new C(args)` without a trailing function array adds exactly one object of class `C` and runs at most its constructor. On success it returns that object. |
| Construction.ConstructAnonymous | lib/zebra/easyoop.js:526-563 | `new C(args..., [functions])` returns an object whose class is a fresh subclass of `C` with `C`'s `$name`, and `C` is among its ancestors. |
| Construction.ConstructAnonymousParents | lib/zebra/easyoop.js:534-545 | The class of that object has exactly `C`, `C`'s ancestors and the trailing interfaces (with their ancestors) as `$parents`. |
| Construction.AnonymousInstanceParents | lib/zebra/easyoop.js:534-562 | The same, stated for the anonymous path directly. |
| Construction.CallInterface | lib/zebra/easyoop.js:324-327 | `I()` with no argument returns nothing. `I(x)` with an `x` that is not a definition array raises "Invalid class definition" and changes nothing. `I(defs)` raises the merge error, changing nothing, when the definitions do not merge. Otherwise it returns normally exactly when the defined constructor is absent, falsy, or runs with no arguments without throwing. On success the result is an object whose class implements `I`. |
| Construction.InterfaceClass | lib/zebra/easyoop.js:500-521 | `Class(I, x)` for an interface `I`: a non-array `x` raises "Invalid class definition". For a definition array, the class is built exactly when the definitions merge into an empty prototype, since an interface is never a parent. That merge is the new class's prototype, and `I` is among its ancestors. |
| Construction.ConstructWithoutArgs | lib/zebra/easyoop.js:523-566 | `new C()` returns normally exactly when `C`'s constructor slot is absent or falsy, or holds a function whose body does not throw, or holds a table whose 0-argument entry exists and does not throw. |
| Construction.CallConstructorWithoutArgs | lib/zebra/easyoop.js:566 | On an instance without own members, `this[CNAME] && this[CNAME].apply(this, [])` returns normally under the same condition, read from the instance's prototype. |
| Super.Chain | lib/zebra/easyoop.js:665-671 | Each class reached by walking `$parent` is a class of the table. |
| Super.FindSuper | lib/zebra/easyoop.js:665-671 | A member found is truthy, holds the arity if it is a table, and is the member of that class under the name. |
| Super.FindSuperNearest | lib/zebra/easyoop.js:665-671 | The found class is the nearest on the `$parent` chain: every class before it does not accept the call. |
| Super.FindSuperExhausted | lib/zebra/easyoop.js:665-672 | When nothing is found, no class on the chain accepts the call. |
| Super.SuperTarget | lib/zebra/easyoop.js:658-664 | A leading function argument replaces the name with its method name and is dropped from the count. Otherwise the caller's name and all arguments are used. |
| Super.Super | lib/zebra/easyoop.js:656-675 | Outside a method it raises "outside of class context". When the chain is exhausted it raises not-found for the name and count. A found table runs its arity entry as caller. A found plain function runs with the caller unchanged. The caller slot is always restored. |
| InstanceExtend.PrivateClassBuilt | lib/zebra/easyoop.js:592 | `Class(c, $Extended, [])` always succeeds with a new class that implements `$Extended`. |
| InstanceExtend.SetClazz | lib/zebra/easyoop.js:594 | Only that instance's `$clazz` changes. |
| InstanceExtend.NewPrivateClass | lib/zebra/easyoop.js:591-593 | The private class is new, carries the old class's `$name` and implements `$Extended`. |
| InstanceExtend.PrivateClassParents | lib/zebra/easyoop.js:592 | The private class's ancestors are exactly the old class, `$Extended` and their ancestors. |
| InstanceExtend.PrivateContribution | lib/zebra/easyoop.js:592 | The two parents passed to the private class contribute exactly the old class, `$Extended` and their ancestors. |
| InstanceExtend.PrivateClassProto | lib/zebra/easyoop.js:592 | The private class's prototype is the old class's copied prototype with its constructor. |
| InstanceExtend.Retarget | lib/zebra/easyoop.js:589-595 | An instance already implementing `$Extended` is left as is. Otherwise a new private class is made and becomes the instance's `$clazz`. The instance's own members and prototype never change, and afterwards it implements `$Extended`. |
| InstanceExtend.MoveToPrivate | lib/zebra/easyoop.js:591-594 | The first `extend` adds exactly one class and changes only the instance's `$clazz`. |
| InstanceExtend.InstanceOfAncestor | lib/zebra/easyoop.js:874-875 | A class in an instance's class's `$parents` is one it is an instance of. |
| InstanceExtend.TableToExtend | lib/zebra/easyoop.js:609-624 | The table to extend is a fresh one for a missing or falsy member. An inherited table is cloned with the same entries. An inherited plain function is wrapped at its arity. An own table is used as it is. Member kinds the code cannot extend are errors. |
| InstanceExtend.AddDef | lib/zebra/easyoop.js:598-641 | A constructor definition runs on the instance and is not stored. Any other definition sets only that instance's own member: that arity holds the new implementation bound to the private class, and every other arity and name is kept. |
| InstanceExtend.AddDefs | lib/zebra/easyoop.js:598-642 | Adding the definitions changes only that instance's own members (and the log). |
| InstanceExtend.GrowParents | lib/zebra/easyoop.js:651 | Only that class's `$parents` grow, by exactly the interface argument. |
| InstanceExtend.AddInterfaces | lib/zebra/easyoop.js:647-652 | The first non-interface argument raises "Invalid argument". On success every argument is an Interface instance and is in `$parents`. Nothing but those arguments is added. |
| InstanceExtend.ParentsGrowth | lib/zebra/easyoop.js:651 | Growing `$parents` keeps the state valid and never revokes an `instanceOf`. |
| InstanceExtend.ExtendInstance | lib/zebra/easyoop.js:588-654 | After `extend` the instance implements `$Extended`. The first call moves it to one new private class and later calls reuse it. Other instances, its prototype and every class prototype are unchanged. On success the result is the instance itself. |
| InstanceExtend.ExtendOwn | lib/zebra/easyoop.js:597-645 | `extend` applies the definitions after retargeting. A definition error is the call's error, and a single array argument is exactly that. |
| InstanceExtendProperties.AddDefInstalls | lib/zebra/easyoop.js:631-640 | A successful definition is callable on the instance at its arity, bound to the private class. |
| InstanceExtendProperties.AddDefsStep | lib/zebra/easyoop.js:598-642 | Definitions are applied front to back and stop at the first error. |
| InstanceExtendProperties.AddDefKeeps | lib/zebra/easyoop.js:631-640 | A definition for another slot keeps every installed slot. |
| InstanceExtendProperties.AddDefsKeeps | lib/zebra/easyoop.js:598-642 | A definition list that never targets a slot keeps it. |
| InstanceExtendProperties.AddDefsInstalled | lib/zebra/easyoop.js:598-642 | Every definition not overridden later in the list is installed after a successful `extend`. |
| InstanceExtendProperties.ExtendSingle | lib/zebra/easyoop.js:597-645 | `extend([f])` is exactly retargeting followed by that one definition. |
| InstanceExtendProperties.AddDefsOne | lib/zebra/easyoop.js:598-642 | A list of one definition acts as that definition. |
| InstanceExtendProperties.ExtendInstalls | lib/zebra/easyoop.js:588-654 | After a successful `extend`, each definition not overridden later is callable on the instance at its arity. |
| InstanceExtendProperties.ExtendKeeps | lib/zebra/easyoop.js:588-654 | `extend` keeps every own slot none of its definitions targets. |
| InstanceExtendProperties.ExtendTwiceCoexist | lib/zebra/easyoop.js:609-640 | Two `extend` calls adding the same name at different arities leave both callable, bound to the same private class. |
| InstanceExtendProperties.ExtendInstallsOne | lib/zebra/easyoop.js:609-640 | `extend([f])` makes `f` callable on the instance at its arity. |
| InstanceExtendProperties.ExtendKeepsOne | lib/zebra/easyoop.js:609-640 | `extend([f])` keeps every other own slot. |
| InstanceExtendProperties.ExtendRunsConstructor | lib/zebra/easyoop.js:602-607 | A constructor definition runs once on the instance and is not stored. |
| InstanceExtendProperties.AddDefCopiesInherited | lib/zebra/easyoop.js:610-612 | Extending an inherited table first clones it, so every other inherited arity stays callable. |
| InstanceExtendProperties.ExtendCopiesInherited | lib/zebra/easyoop.js:610-640 | The same holds through `extend`, and the prototype the table came from is unchanged. |
| InstanceExtendProperties.ExtendInterfaces | lib/zebra/easyoop.js:646-653 | `extend(I...)` either raises "Invalid argument" at an argument that is not an Interface instance, or adds every interface argument to the private class's `$parents`. |
| Capability.InstanceOf | lib/zebra/easyoop.js:867-879 | A null class raises "unknown class". A null or class-less object gives false, and so does an id the runtime does not hold. For an instance the result is true iff its `$clazz` is the class or has it among its `$parents`. For a template the same test runs on its metaclass, so an interface is an `instanceOf` `Interface` and a metaclass is an `instanceOf` nothing. |
| Capability.InstanceOfStable | lib/zebra/easyoop.js:867-879 | The answer for an existing object never changes as the runtime only grows. |
| Capability.InstanceOfNewClass | lib/zebra/easyoop.js:236-251 | An instance of a new class is an instance of `C` exactly when `C` is that class, a parent argument, or an ancestor of one. |
| Capability.InstanceOfClassOf | lib/zebra/easyoop.js:873-875 | For an instance of class `d`, the answer is `C == d` or `C` in `d`'s `$parents`. |
| Capability.CollectInterfacesFrame | lib/zebra/easyoop.js:538 | Collecting interfaces depends only on classes that already existed. |
| Capability.InstanceOfByAncestor | lib/zebra/easyoop.js:874-875 | An ancestor in `$parents` always answers true. |
| Capability.AnonymousInstanceOf | lib/zebra/easyoop.js:526-563 | An anonymous instance is an `instanceOf` the original class and of every collected interface. |
| Readiness.Initial | lib/zebra/easyoop.js:829-830 | The library starts held once, with nothing waiting. |
| Readiness.Busy | lib/zebra/easyoop.js:916 | `busy()` adds one hold, and nothing runs or is dropped. |
| Readiness.ReadyStep | lib/zebra/easyoop.js:899-914 | `ready()` releases one hold and never goes below zero. Callbacks are queued after those waiting. Nothing runs while held. When every callback returns normally, nothing is left waiting once open. |
| Readiness.Drain | lib/zebra/easyoop.js:911-913 | The loop runs waiting callbacks front first, in order, and loses none. Once the gate is open the queue is empty. A held gate is unchanged. |
| Readiness.Ready | lib/zebra/easyoop.js:899-914 | The code as written, including the single-callback shortcut, gives the same result as `ReadyStep`: order is kept, nothing runs while held, and nothing waits while open. |
| Readiness.ReleasesRun | lib/zebra/easyoop.js:899-914 | Releasing fewer holds than are held runs nothing. Releasing all of them runs every waiting callback in acceptance order. |
| Readiness.BusyThenReady | lib/zebra/easyoop.js:899-916 | `busy()` followed by `ready()` is no change. |
| Readiness.RunKeepsOrder | lib/zebra/easyoop.js:899-916 | Over any call sequence the gate stays settled. The callbacks accepted are exactly those offered, in order, and what has run only grows. |
| Paths.Split | lib/zebra/easyoop.js:149 | `name.split('.')` yields at least one segment and no segment contains a dot. |
| Paths.JoinSplit | lib/zebra/easyoop.js:149-150 | Joining the segments with '.' gives back the name. |
| Paths.SplitJoin | lib/zebra/easyoop.js:149-150 | Splitting a join of single segments gives back the segments. |
| Paths.JoinDots | lib/zebra/easyoop.js:150 | The key after `n` segments has exactly `n - 1` dots. |
| Paths.JoinPrefixesDiffer | lib/zebra/easyoop.js:150 | The running key `k` differs at every step of the loop. |
| Namespaces.SetField | lib/zebra/easyoop.js:154-155 | Storing a field changes just that field of that object. Every other object keeps all its fields, no package is added, and the fields a new package starts with are kept. |
| Namespaces.NewPackage | lib/zebra/easyoop.js:110-111 | A new package holds its `$url` field and the names every object inherits from `Object.prototype`, and none of them is a package. |
| Namespaces.EmptySpace | lib/zebra/easyoop.js:126-191 | A new namespace function carries `Import`, `$env` and the built-in names of a function (its own `length`, `name`, `prototype`, and what it inherits), none of them a package. It holds no package yet, and each package it creates starts with the fields of `NewPackage`. |
| Namespaces.Namespace | lib/zebra/easyoop.js:97-108 | A non-string name is rejected. An existing namespace is returned unchanged. A missing one with `dontCreate` raises "doesn't exist". Otherwise it is created empty. A registered namespace is never replaced. |
| NamespaceProperties.StepFacts | lib/zebra/easyoop.js:149-163 | One pass keeps the space valid. A missing segment becomes a new package holding the namespace's initial package fields, registered under the key of the path so far, and that key is the only namespace field written. |
| NamespaceProperties.WalkRootFrame | lib/zebra/easyoop.js:148-163 | Later passes never write a namespace key with fewer dots than the segment index. |
| NamespaceProperties.WalkOutcome | lib/zebra/easyoop.js:148-165 | The walk keeps everything a path can step through. It ends at the package the path reaches, or with a conflict that names a path segment and leaves the path unresolvable. |
| NamespaceProperties.ResolveGrows | lib/zebra/easyoop.js:149-163 | Paths that resolved before still resolve to the same package. |
| NamespaceProperties.WalkResolved | lib/zebra/easyoop.js:149-165 | A path of existing packages is walked with no change. |
| NamespaceProperties.WalkRegisters | lib/zebra/easyoop.js:151-156 | Each segment missing before is registered under the dotted key of its path. |
| NamespaceProperties.RequireOutcome | lib/zebra/easyoop.js:144-165 | A registered package is answered directly. Otherwise the call succeeds exactly when the dotted path resolves afterwards, and answers the package it reaches. Packages made before a conflict stay. |
| NamespaceProperties.RequireRegisters | lib/zebra/easyoop.js:147-165 | After `f("a.b.c")`, each of `a`, `a.b`, `a.b.c` that was missing is registered on `f`. |
| NamespaceProperties.RequireReuses | lib/zebra/easyoop.js:157-161 | An existing package on the path is reused, not recreated. |
| NamespaceProperties.WalkRootLast | lib/zebra/easyoop.js:148-165 | The whole name's key is either left alone or registered with the package returned. |
| NamespaceProperties.BuiltInNameConflicts | lib/zebra/easyoop.js:145-160 | In a fresh namespace, `f("length")`, `f("prototype")` or any other built-in name raises "conflicts with variable" and changes nothing. |
| NamespaceProperties.InheritedNameConflicts | lib/zebra/easyoop.js:149-160 | `f("p.m")` for a new segment `p` and an undotted name `m` that every new package carries (`constructor`, `$url`, ...) creates `p` and then raises the conflict at `m`. |
| NamespaceProperties.RequireIdempotent | lib/zebra/easyoop.js:144-165 | Asking for the same package twice changes nothing the second time and answers the same package. |
| NamespaceProperties.NamespaceAgain | lib/zebra/easyoop.js:97-108 | A second `namespace(name)` after a successful one, whether or not it may create, answers the same name and leaves the registry as it is. |

## Left out

- Built-in prototype members: `extend`, `$super`, `$this`, `properties`, `toString`, `constructor` and `$clazz` are not entries of the modelled prototype maps. Only members from class definitions are.
- Model.Lookup, Classes.TableFor, Classes.StaticExtend, Dispatch.GetMethod, Super.Super and InstanceExtend.ExtendInstance: a class prototype also inherits the `Object.prototype` built-ins. These are the names of `Namespaces.ObjectBuiltIns`, e.g. `valueOf`, `hasOwnProperty`, `isPrototypeOf`, `propertyIsEnumerable`, `toLocaleString`, and `__proto__` with its accessors. The model's prototype maps do not hold them, so for these names the model reads "missing" where the code finds the built-in function. In the code:
  - a static `extend` that defines such a name reads the built-in (line 776), wraps it into the new table at the built-in's own `length` next to the new arity, and stamps `methodName`/`boundTo` on the shared global function (lines 786-796);
  - `getMethod` returns the built-in (lines 713-716);
  - calling the name on an instance runs the built-in;
  - `$super` (line 666) and per-instance `extend` (lines 609-617) see it in the same way.
- Namespaces.EmptySpace and Namespaces.NewPackage: the built-in names are those of sections 15.2.4 and 15.3.4 of ECMAScript 5.1, plus `__proto__` and its accessors. Further names an engine adds to `Object.prototype` or `Function.prototype` are not modelled.
- The one-function `ProxyMethod(name, f)` form (lines 354-363): nothing in the file constructs it, so tables are always arity tables.
- Classes.StaticExtend, Classes.InheritConstructor and ClassProperties.ConstructorInherited: a subclass without its own constructor holds the very table object of its parent (line 823). A later static `extend` of that subclass with a constructor reads that table (line 776), reuses it (line 788) and writes the new arity into it (line 811), so the parent and every class sharing the table change too. The model copies the table as a value, and `StaticExtend` changes only the class it is called on.
- Readiness.ReadyStep, Readiness.Ready and Readiness.RunKeepsOrder: callbacks always return normally. In the code a callback that throws (line 912) stops the loop and the exception leaves `ready()`, so the later callbacks stay queued while the gate is open.
- Aliasing: the code writes `methodName`/`boundTo` back into plain functions shared between prototypes (lines 615-617, 756-757, 792-795, 809-810). Implementations are values here, so no shared function is mutated.
- `eval`-based re-creation of a function already bound to a class (lines 626-629, 770-774): the model always binds a fresh implementation record.
- Function-name extraction through `toString` (lines 197-201): definitions carry their name and arity as given.
- An inherited truthy plain value in per-instance `extend` (lines 613-618): the code wraps it into a table under the key `pv.length`, which is usually `undefined`. The model starts an empty table instead, so no arity slot holds the value.
- `undefined`-valued fields are not distinguished from missing ones.
- Bodies of user methods and constructors are opaque. Running one is recorded in the log, and it neither reads nor changes the class system.
- Classes.MergeDef: the bodies of the `$clazz` (line 765) and `$prototype` (line 747) directives are not run. A `$clazz` directive is skipped without a log entry, and a `$prototype` directive installs the fields its definition lists. Neither can fail, whereas in the code a throwing directive body aborts `Class` or `extend`.
- `$parents` keys are modelled as class ids: a plain function used as a parent adds no id.
- Re-entrant `ready`/`busy` calls made from inside a callback: callbacks are opaque tokens appended to the run log.
- The zero-argument call `f()` (line 127), which only reads `f.$env`, and the array, object and function forms of a namespace call `f(...)` (lines 129-145), which are enumeration in for-in order, copying into `$env`, and a loop of single-name calls.
- Namespaces.Namespace: the registry is a plain object read through `hasOwnProperty` (lines 102, 122) and written by assignment (line 191). The name `__proto__` is therefore never stored as a key, so asking for it again builds a new namespace, or raises "doesn't exist" with `dontCreate`. A namespace named `hasOwnProperty` hides the method every later lookup calls, so later lookups misbehave. The model treats both names as ordinary keys.
- The script-tag `$url` lookup in `Package` (lines 110-120): the field exists but its value is not modelled.
- `URL`, browser sniffing, polyfills, `Class.forName`/`$cache`, `Import` code generation, `complete`, `properties`/`getPropertySetter`/`applyDefProperties` and `isString`/`isNumber`/`isBoolean`: these depend on the DOM, `eval`, regexes, timers or reflection over arbitrary objects.
- `Dummy`, `getMethods` and `$this`: these are thin wrappers over members that are modelled.
- Capability.InstanceOf: an object with a `$clazz` that is not a zebra template gives false. The host-object case where `$clazz` is an unrelated value is not modelled.

=== FILE: capability.dfy ===
/**
  The capability query `instanceOf(obj, clazz)` and what it answers for the
  classes and instances the runtime builds.
 */
module Capability {
  import opened Wrappers
  import opened Model
  import opened Classes
  import opened Construction

  /**
    `instanceOf(obj, clazz)`: a null class is an error; otherwise the answer
    is whether `obj`'s `$clazz` is `clazz` or has it among its ancestors.
   */
  function InstanceOf(st: State, obj: Arg, clazz: Arg): (r: Result<bool, Error>)
    ensures r.Err? <==> clazz.NullArg?
    ensures r.Err? ==> r.error == UnknownClass
    // a null value, a plain value, a plain function or an array has no `$clazz`
    ensures !(obj.ObjArg? || obj.ClassArg?) ==> r.Err? || r == Ok(false)
    // only a template can be found
    ensures !clazz.ClassArg? ==> r.Err? || r == Ok(false)
    ensures obj.ObjArg? && obj.obj in st.objs && clazz.ClassArg? ==>
      var c := st.objs[obj.obj].cls;
      r == Ok(c == clazz.id || (c in st.classes && clazz.id in st.classes[c].parents))
    // a template's `$clazz` is its metaclass (none for the metaclasses themselves)
    ensures obj.ClassArg? && obj.id in st.classes && clazz.ClassArg? ==>
      var m := st.classes[obj.id].meta;
      r == Ok(m.Some? && (m.value == clazz.id || (m.value in st.classes && clazz.id in st.classes[m.value].parents)))
    // an id the runtime does not hold has no `$clazz`
    ensures (obj.ObjArg? && obj.obj !in st.objs) || (obj.ClassArg? && obj.id !in st.classes) ==>
      r.Err? || r == Ok(false)
  {
    if clazz.NullArg? then Err(UnknownClass)
    else Ok(clazz.ClassArg? && IsInstanceOf(st, obj, clazz.id))
  }

  /**
    Creating classes and instances never changes an answer about a class or
    instance that already existed.
   */
  lemma InstanceOfStable(st: State, st': State, a: Arg, clazz: Arg)
    requires Extends(st, st')
    requires a.ObjArg? ==> a.obj in st.objs
    requires a.ClassArg? ==> a.id in st.classes
    requires Valid(st)
    ensures InstanceOf(st', a, clazz) == InstanceOf(st, a, clazz)
  {
    assert ClazzOf(st', a) == ClazzOf(st, a);
    if ClazzOf(st, a).Some? {
      assert ParentsOf(st', ClazzOf(st, a).value) == ParentsOf(st, ClazzOf(st, a).value);
    }
  }

  /**
    An instance of a class built by `Class(pre..., defs)` is an instance of
    exactly that class, of every template listed in `pre` and of each of
    their ancestors.
   */
  lemma {:induction false} InstanceOfNewClass(st: State, args: seq<Arg>, cargs: seq<Arg>, c: ClassId)
    requires Valid(st) && MakeClass(st, args).r.Ok? && !IsAnonymous(cargs)
    ensures var m := MakeClass(st, args);
      var o := Construct(m.st, m.r.value, cargs);
      var pre := args[..|args| - 1];
      o.r.Ok? ==>
        InstanceOf(o.st, ObjArg(o.r.value), ClassArg(c))
        == Ok(c == m.r.value || exists j :: 0 <= j < |pre| && c in Contribution(st, pre[j]))
  {
    var m := MakeClass(st, args);
    var d := m.r.value;
    ConstructPlain(m.st, d, cargs);
    var o := Construct(m.st, d, cargs);
    if o.r.Ok? {
      InstanceOfClassOf(o.st, o.r.value, d, c);
    }
  }

  /** An instance of class `d` is an instance of `c` when `c` is `d` or one of its ancestors. */
  lemma InstanceOfClassOf(st: State, x: ObjId, d: ClassId, c: ClassId)
    requires x in st.objs && st.objs[x].cls == d && d in st.classes
    ensures InstanceOf(st, ObjArg(x), ClassArg(c)) == Ok(c == d || c in st.classes[d].parents)
  {
  }

  /** Every class or instance an argument list refers to exists. */
  predicate ArgsExist(st: State, args: seq<Arg>) {
    forall i :: 0 <= i < |args| ==>
      (args[i].ObjArg? ==> args[i].obj in st.objs) && (args[i].ClassArg? ==> args[i].id in st.classes)
  }

  /** The interfaces collected from existing arguments do not depend on later additions. */
  lemma {:induction false} CollectInterfacesFrame(st: State, st': State, args: seq<Arg>, k: int)
    requires Valid(st) && Extends(st, st') && ArgsExist(st, args)
    requires -1 <= k < |args|
    ensures CollectInterfaces(st', args, k) == CollectInterfaces(st, args, k)
    decreases k + 1
  {
    if k >= 0 {
      InstanceOfStable(st, st', args[k], ClassArg(InterfaceMeta));
      CollectInterfacesFrame(st, st', args, k - 1);
    }
  }

  /** An instance whose class lists `c` among its ancestors is an instance of `c`. */
  lemma InstanceOfByAncestor(st: State, x: ObjId, c: ClassId)
    requires x in st.objs && st.objs[x].cls in st.classes && c in st.classes[st.objs[x].cls].parents
    ensures InstanceOf(st, ObjArg(x), ClassArg(c)) == Ok(true)
  {
  }

  /**
    An instance of an anonymous subclass of `cls` is an instance of `cls`
    and of each interface given right before the definition array.
   */
  lemma AnonymousInstanceOf(st: State, cls: ClassId, args: seq<Arg>, j: nat)
    requires Valid(st) && IsClass(st, cls) && IsAnonymous(args)
    requires ArgsExist(st, args)
    requires CollectInterfaces(st, args, |args| - 2).0 < j < |args| - 1 && args[j].ClassArg?
    ensures var o := Construct(st, cls, args);
      o.r.Ok? ==>
        && InstanceOf(o.st, ObjArg(o.r.value), ClassArg(cls)) == Ok(true)
        && InstanceOf(o.st, ObjArg(o.r.value), args[j]) == Ok(true)
  {
    var o := Construct(st, cls, args);
    if o.r.Ok? {
      ConstructAnonymous(st, cls, args);
      CollectInterfacesFrame(st, Allocate(st, cls).0, args, |args| - 2);
      ConstructAnonymousParents(st, cls, args, args[j].id);
      assert args[j].id in Contribution(st, args[j]);
      InstanceOfByAncestor(o.st, o.r.value, cls);
      InstanceOfByAncestor(o.st, o.r.value, args[j].id);
    }
  }
}

=== FILE: class_properties.dfy ===
/**
  Properties of merging definition arrays (the static `extend`) and of
  constructor inheritance in `Class`.
 */
module ClassProperties {
  import opened Wrappers
  import opened Model
  import opened Classes

  /** The slot a definition targets: its internal name and its arity. */
  function Key(d: Def): (string, nat) {
    (Normalize(d.name), d.arity)
  }

  /** The implementation a definition becomes once merged into class `self`. */
  function Bound(d: Def, self: ClassId): Impl {
    Impl(d.body, d.arity, self, Normalize(d.name))
  }

  /** A successful merge of one definition leaves every other slot as it was. */
  lemma MergeDefKeepsSlot(proto: Proto, self: ClassId, d: Def, n: string, a: nat)
    requires !IsDirective(d.name)
    requires MergeDef(proto, self, d).Ok?
    requires Key(d) != (n, a)
    requires a in Callable(proto, n)
    ensures a in Callable(MergeDef(proto, self, d).value, n)
    ensures Callable(MergeDef(proto, self, d).value, n)[a] == Callable(proto, n)[a]
  {
    var r := MergeDef(proto, self, d).value;
    if Normalize(d.name) != n {
      assert r[n] == proto[n];
    }
  }

  /** Merging a batch without the slot `(n, a)` leaves that slot as it was. */
  lemma {:induction false} MergeDefsKeepsSlot(proto: Proto, self: ClassId, defs: seq<Def>, n: string, a: nat)
    requires NoDirectives(defs)
    requires forall j :: 0 <= j < |defs| ==> Key(defs[j]) != (n, a)
    requires a in Callable(proto, n)
    ensures a in Callable(MergeDefs(proto, self, defs).0, n)
    ensures Callable(MergeDefs(proto, self, defs).0, n)[a] == Callable(proto, n)[a]
    decreases |defs|
  {
    if |defs| > 0 && MergeDef(proto, self, defs[0]).Ok? {
      var p1 := MergeDef(proto, self, defs[0]).value;
      MergeDefKeepsSlot(proto, self, defs[0], n, a);
      assert forall j :: 0 <= j < |defs[1..]| ==> defs[1..][j] == defs[j + 1];
      MergeDefsKeepsSlot(p1, self, defs[1..], n, a);
    }
  }

  /** Once a slot is bound to the class, declaring it again in the batch throws. */
  lemma {:induction false} BoundSlotRejects(proto: Proto, self: ClassId, defs: seq<Def>, n: string, a: nat, j: nat)
    requires NoDirectives(defs)
    requires SlotBound(proto, n, a, self)
    requires j < |defs| && Key(defs[j]) == (n, a)
    ensures MergeDefs(proto, self, defs).1.Some?
    decreases |defs|
  {
    match MergeDef(proto, self, defs[0])
    case Err(_) =>
    case Ok(p1) =>
      if Key(defs[0]) == (n, a) {
        assert false;
      } else {
        MergeDefKeepsSlot(proto, self, defs[0], n, a);
        assert forall k :: 0 <= k < |defs[1..]| ==> defs[1..][k] == defs[k + 1];
        BoundSlotRejects(p1, self, defs[1..], n, a, j - 1);
      }
  }

  /**
    A batch that declares the same (name, arity) twice throws a duplicate
    error (no directive in the batch).
   */
  lemma {:induction false} DuplicateRejected(proto: Proto, self: ClassId, defs: seq<Def>, i: nat, j: nat)
    requires NoDirectives(defs)
    requires i < j < |defs| && Key(defs[i]) == Key(defs[j])
    ensures MergeDefs(proto, self, defs).1.Some?
    decreases |defs|
  {
    match MergeDef(proto, self, defs[0])
    case Err(_) =>
    case Ok(p1) =>
      assert forall k :: 0 <= k < |defs[1..]| ==> defs[1..][k] == defs[k + 1];
      if i == 0 {
        BoundSlotRejects(p1, self, defs[1..], Key(defs[0]).0, defs[0].arity, j - 1);
      } else {
        DuplicateRejected(p1, self, defs[1..], i - 1, j - 1);
      }
  }

  /**
    A batch merged without error has every definition callable at its own
    arity, bound to the class.
   */
  lemma {:induction false} MergedDefsInstalled(proto: Proto, self: ClassId, defs: seq<Def>, i: nat)
    requires NoDirectives(defs)
    requires MergeDefs(proto, self, defs).1.None?
    requires i < |defs|
    ensures defs[i].arity in Callable(MergeDefs(proto, self, defs).0, Normalize(defs[i].name))
    ensures Callable(MergeDefs(proto, self, defs).0, Normalize(defs[i].name))[defs[i].arity] == Bound(defs[i], self)
    decreases |defs|
  {
    var p1 := MergeDef(proto, self, defs[0]).value;
    assert forall k :: 0 <= k < |defs[1..]| ==> defs[1..][k] == defs[k + 1];
    if i == 0 {
      forall k | 0 <= k < |defs[1..]| ensures Key(defs[1..][k]) != Key(defs[0]) {
        if Key(defs[1..][k]) == Key(defs[0]) {
          DuplicateRejected(proto, self, defs, 0, k + 1);
        }
      }
      MergeDefsKeepsSlot(p1, self, defs[1..], Key(defs[0]).0, defs[0].arity);
    } else {
      MergedDefsInstalled(p1, self, defs[1..], i - 1);
    }
  }

  /** No definition of the batch is named `k`. */
  predicate NotDeclared(defs: seq<Def>, k: string) {
    forall j :: 0 <= j < |defs| ==> Normalize(defs[j].name) != k
  }

  /** A batch that never names `k` leaves the member under `k` as it was. */
  lemma {:induction false} MergeDefsNameFrame(proto: Proto, self: ClassId, defs: seq<Def>, k: string)
    requires NoDirectives(defs)
    requires NotDeclared(defs, k)
    ensures k in MergeDefs(proto, self, defs).0 <==> k in proto
    ensures k in proto ==> MergeDefs(proto, self, defs).0[k] == proto[k]
    decreases |defs|
  {
    if |defs| > 0 && MergeDef(proto, self, defs[0]).Ok? {
      assert forall j :: 0 <= j < |defs[1..]| ==> defs[1..][j] == defs[j + 1];
      MergeDefsNameFrame(MergeDef(proto, self, defs[0]).value, self, defs[1..], k);
    }
  }

  /**
    A subclass that declares no constructor starts with its parent's
    constructor table, entry for entry, rather than the empty one
    `CopyParent` would leave.
   */
  lemma ConstructorInherited(st: State, args: seq<Arg>)
    requires Valid(st)
    requires MakeClass(st, args).r.Ok?
    requires ParentOf(st, args[..|args| - 1]).Some?
    requires NoDirectives(args[|args| - 1].defs)
    requires NotDeclared(args[|args| - 1].defs, CNAME)
    requires var p := st.classes[args[0].id].proto; CNAME in p && p[CNAME].Table? && p[CNAME].methodName == CNAME
    ensures var o := MakeClass(st, args);
      CNAME in o.st.classes[o.r.value].proto
      && o.st.classes[o.r.value].proto[CNAME] == st.classes[args[0].id].proto[CNAME]
  {
    var o := MakeClass(st, args);
    MakeClassBuilt(st, args);
    MergeDefsNameFrame(BaseProto(st, args), o.r.value, args[|args| - 1].defs, CNAME);
  }

  /**
    A subclass's inherited members other than the constructor are the
    parent's as long as the subclass does not redeclare them.
   */
  lemma InheritedMemberKept(st: State, args: seq<Arg>, k: string)
    requires Valid(st)
    requires MakeClass(st, args).r.Ok?
    requires ParentOf(st, args[..|args| - 1]).Some?
    requires NoDirectives(args[|args| - 1].defs)
    requires NotDeclared(args[|args| - 1].defs, k)
    requires k != CNAME
    requires var p := st.classes[args[0].id].proto; k in p && !(p[k].Table? && p[k].methodName == CNAME)
    ensures var o := MakeClass(st, args);
      k in o.st.classes[o.r.value].proto && o.st.classes[o.r.value].proto[k] == st.classes[args[0].id].proto[k]
  {
    var o := MakeClass(st, args);
    MakeClassBuilt(st, args);
    assert k in BaseProto(st, args);
    MergeDefsNameFrame(BaseProto(st, args), o.r.value, args[|args| - 1].defs, k);
  }
  /**
    What a prototype built like `Class` builds it holds, given the merge
    succeeded without directives: every definition is callable at its arity,
    bound to the class; a name is present exactly when the parent had it
    (constructor tables aside), a definition declares it, or it is the
    inherited constructor; an undeclared name holds the parent's member.
   */
  lemma BuiltProto(pp: Option<Proto>, id: ClassId, defs: seq<Def>, proto: Proto)
    requires NoDirectives(defs)
    requires var base := if pp.Some? then CopyParent(pp.value) else map[];
      MergeDefs(base, id, defs).1.None? && proto == InheritConstructor(MergeDefs(base, id, defs).0, pp)
    ensures forall i :: 0 <= i < |defs| ==>
      defs[i].arity in Callable(proto, Normalize(defs[i].name))
      && Callable(proto, Normalize(defs[i].name))[defs[i].arity] == Bound(defs[i], id)
    ensures forall k :: k in proto <==>
      || (pp.Some? && k in pp.value && !(pp.value[k].Table? && pp.value[k].methodName == CNAME))
      || !NotDeclared(defs, k)
      || (k == CNAME && pp.Some? && CNAME in pp.value && pp.value[CNAME] != Field(Null))
    ensures forall k :: k in proto && NotDeclared(defs, k) ==>
      pp.Some? && k in pp.value && proto[k] == pp.value[k]
  {
    var base := if pp.Some? then CopyParent(pp.value) else map[];
    var merged := MergeDefs(base, id, defs).0;
    forall i | 0 <= i < |defs|
      ensures defs[i].arity in Callable(proto, Normalize(defs[i].name))
      ensures Callable(proto, Normalize(defs[i].name))[defs[i].arity] == Bound(defs[i], id)
    {
      MergedDefsInstalled(base, id, defs, i);
    }
    forall k
      ensures k in proto <==>
        || (pp.Some? && k in pp.value && !(pp.value[k].Table? && pp.value[k].methodName == CNAME))
        || !NotDeclared(defs, k)
        || (k == CNAME && pp.Some? && CNAME in pp.value && pp.value[CNAME] != Field(Null))
      ensures k in proto && NotDeclared(defs, k) ==> pp.Some? && k in pp.value && proto[k] == pp.value[k]
    {
      if NotDeclared(defs, k) {
        MergeDefsNameFrame(base, id, defs, k);
      } else {
        var j :| 0 <= j < |defs| && Normalize(defs[j].name) == k;
        MergedDefsInstalled(base, id, defs, j);
      }
    }
  }

  /**
    The prototype `Class` builds from definitions without directives:
    every definition callable at its arity and bound to the new class, the
    names present exactly the parent's (constructor tables aside), the
    declared ones and the inherited constructor, and every undeclared name
    holding the parent's member.
   */
  lemma MakeClassProto(st: State, args: seq<Arg>)
    requires Valid(st) && MakeClass(st, args).r.Ok?
    ensures var o := MakeClass(st, args);
      var defs := args[|args| - 1].defs;
      var proto := o.st.classes[o.r.value].proto;
      var pp := ParentProto(st, args);
      NoDirectives(defs) ==>
        && (forall i :: 0 <= i < |defs| ==>
              defs[i].arity in Callable(proto, Normalize(defs[i].name))
              && Callable(proto, Normalize(defs[i].name))[defs[i].arity] == Bound(defs[i], o.r.value))
        && (forall k :: k in proto <==>
              || (pp.Some? && k in pp.value && !(pp.value[k].Table? && pp.value[k].methodName == CNAME))
              || !NotDeclared(defs, k)
              || (k == CNAME && pp.Some? && CNAME in pp.value && pp.value[CNAME] != Field(Null)))
        && (forall k :: k in proto && NotDeclared(defs, k) ==>
              pp.Some? && k in pp.value && proto[k] == pp.value[k])
  {
    var o := MakeClass(st, args);
    MakeClassBuilt(st, args);
    var defs := args[|args| - 1].defs;
    if NoDirectives(defs) {
      BuiltProto(ParentProto(st, args), o.r.value, defs, o.st.classes[o.r.value].proto);
    }
  }
}

=== FILE: classes.dfy ===
/**
  Building classes and interfaces: the ancestor set of `make_template`, the
  copy of the parent's prototype, the static `extend` that merges a
  definition array into a prototype, constructor inheritance, `Class` and
  `Interface`.
 */
module Classes {
  import opened Wrappers
  import opened Model
  import opened Dispatch

  /** Name of the directive that installs plain prototype fields. */
  const PROTOTYPE_DIRECTIVE: string := "$prototype"
  /** Name of the directive that installs static members. */
  const STATIC_DIRECTIVE: string := "$clazz"

  /** What one argument of `make_template` adds to the ancestor set. */
  function Contribution(st: State, a: Arg): set<ClassId> {
    if a.ClassArg? then {a.id} + ParentsOf(st, a.id) else {}
  }

  /**
    The ancestor set `make_template` builds from `p[i..]`: every listed
    template together with its own ancestor set. A null or non-function
    entry throws, naming the first such index.
   */
  function AncestorsFrom(st: State, p: seq<Arg>, i: nat): (r: Result<set<ClassId>, Error>)
    requires i <= |p|
    ensures r.Ok? <==> forall j :: i <= j < |p| ==> IsFunctionArg(p[j])
    ensures r.Err? ==> exists j :: i <= j < |p| && !IsFunctionArg(p[j]) && r.error == UndefinedParent(j)
                                  && forall k :: i <= k < j ==> IsFunctionArg(p[k])
    ensures r.Ok? ==> forall c :: c in r.value <==> exists j :: i <= j < |p| && c in Contribution(st, p[j])
    decreases |p| - i
  {
    if i == |p| then Ok({})
    else if !IsFunctionArg(p[i]) then Err(UndefinedParent(i))
    else
      var rest := AncestorsFrom(st, p, i + 1);
      if rest.Err? then rest
      else
        var r := Contribution(st, p[i]) + rest.value;
        assert forall c :: c in r <==> exists j :: i <= j < |p| && c in Contribution(st, p[j]) by {
          forall c | c in r ensures exists j :: i <= j < |p| && c in Contribution(st, p[j]) {
            if c !in Contribution(st, p[i]) {
              var j :| i + 1 <= j < |p| && c in Contribution(st, p[j]);
            }
          }
        }
        Ok(r)
  }

  /** `make_template`'s ancestor set for the argument list `p`. */
  function Ancestors(st: State, p: seq<Arg>): (r: Result<set<ClassId>, Error>)
    ensures r.Ok? <==> forall j :: 0 <= j < |p| ==> IsFunctionArg(p[j])
    ensures r.Ok? ==> forall c :: c in r.value <==> exists j :: 0 <= j < |p| && c in Contribution(st, p[j])
  {
    AncestorsFrom(st, p, 0)
  }

  /**
    The prototype a subclass starts from: a clone of every parent member
    except the constructor table.
   */
  function CopyParent(pp: Proto): (r: Proto)
    ensures forall k :: k in r <==> k in pp && !(pp[k].Table? && pp[k].methodName == CNAME)
    ensures forall k :: k in r ==> r[k] == pp[k]
  {
    map k | k in pp && Clone(pp[k]).Some? :: Clone(pp[k]).value
  }

  /** The implementations reachable under `n`, keyed by arity. */
  function Callable(proto: Proto, n: string): map<nat, Impl> {
    if n !in proto then map[]
    else match proto[n]
      case Table(_, ms) => ms
      case Func(f) => map[f.arity := f]
      case Field(_) => map[]
  }

  /** Whether `name` is handled as a directive rather than a method. */
  predicate IsDirective(name: string) {
    Normalize(name) == PROTOTYPE_DIRECTIVE || Normalize(name) == STATIC_DIRECTIVE
  }

  /** The prototype slot one `$prototype` field becomes. */
  function FieldMember(self: ClassId, k: string, v: ProtoVal): Member {
    match v
    case PFunc(body, arity) => Func(Impl(body, arity, self, k))
    case PValue(x) => Field(x)
  }

  /**
    The `$prototype` directive: each produced field is written into the
    prototype in order; functions are bound to the class.
   */
  function InstallFields(proto: Proto, self: ClassId, fields: seq<(string, ProtoVal)>): (r: Proto)
    ensures r.Keys == proto.Keys + set i | 0 <= i < |fields| :: Normalize(fields[i].0)
    decreases |fields|
  {
    if |fields| == 0 then proto
    else
      var k := Normalize(fields[0].0);
      var rest := InstallFields(proto[k := FieldMember(self, k, fields[0].1)], self, fields[1..]);
      assert (set i | 0 <= i < |fields| :: Normalize(fields[i].0))
          == {k} + set i | 0 <= i < |fields[1..]| :: Normalize(fields[1..][i].0) by {
        forall i | 0 <= i < |fields|
          ensures Normalize(fields[i].0) in {k} + set i | 0 <= i < |fields[1..]| :: Normalize(fields[1..][i].0)
        {
          if i > 0 {
            assert fields[1..][i - 1] == fields[i];
          }
        }
      }
      rest
  }

  /** A name no produced field carries keeps its member. */
  lemma {:induction false} InstallFieldsFrame(proto: Proto, self: ClassId, fields: seq<(string, ProtoVal)>, k: string)
    requires k in proto
    requires forall i :: 0 <= i < |fields| ==> Normalize(fields[i].0) != k
    ensures InstallFields(proto, self, fields)[k] == proto[k]
    decreases |fields|
  {
    if |fields| > 0 {
      var k0 := Normalize(fields[0].0);
      forall i | 0 <= i < |fields[1..]| ensures Normalize(fields[1..][i].0) != k {
        assert fields[1..][i] == fields[i + 1];
      }
      InstallFieldsFrame(proto[k0 := FieldMember(self, k0, fields[0].1)], self, fields[1..], k);
    }
  }

  /** The last field produced under a name is what the prototype holds. */
  lemma {:induction false} InstallFieldsLastWins(proto: Proto, self: ClassId, fields: seq<(string, ProtoVal)>, i: nat)
    requires i < |fields|
    requires forall j :: i < j < |fields| ==> Normalize(fields[j].0) != Normalize(fields[i].0)
    ensures InstallFields(proto, self, fields)[Normalize(fields[i].0)]
            == FieldMember(self, Normalize(fields[i].0), fields[i].1)
    decreases |fields|
  {
    var k0 := Normalize(fields[0].0);
    var p1 := proto[k0 := FieldMember(self, k0, fields[0].1)];
    if i == 0 {
      forall j | 0 <= j < |fields[1..]| ensures Normalize(fields[1..][j].0) != k0 {
        assert fields[1..][j] == fields[j + 1];
      }
      InstallFieldsFrame(p1, self, fields[1..], k0);
    } else {
      assert fields[1..][i - 1] == fields[i];
      forall j | i - 1 < j < |fields[1..]|
        ensures Normalize(fields[1..][j].0) != Normalize(fields[1..][i - 1].0)
      {
        assert fields[1..][j] == fields[j + 1];
      }
      InstallFieldsLastWins(p1, self, fields[1..], i - 1);
    }
  }

  /**
    The table a new definition named `n` goes into: a fresh one, the existing
    one, or a fresh one wrapping an existing plain function. A plain field
    conflicts.
   */
  function TableFor(proto: Proto, n: string): (r: Result<Member, Error>)
    ensures r.Err? <==> n in proto && proto[n].Field?
    ensures r.Err? ==> r.error == ConflictsToProperty(n)
    ensures r.Ok? ==> r.value.Table? && r.value.methods == Callable(proto, n)
  {
    if n !in proto then Ok(Table(n, map[]))
    else match proto[n]
      case Table(_, _) => Ok(proto[n])
      case Func(f) => Ok(Table(n, map[f.arity := f]))
      case Field(_) => Err(ConflictsToProperty(n))
  }

  /**
    Merging one definition into the prototype of class `self` (one round of
    the static `extend`).
   */
  function MergeDef(proto: Proto, self: ClassId, d: Def): (r: Result<Proto, Error>)
    ensures Normalize(d.name) == STATIC_DIRECTIVE ==> r == Ok(proto)
    ensures Normalize(d.name) == PROTOTYPE_DIRECTIVE ==> r == Ok(InstallFields(proto, self, d.fields))
    ensures !IsDirective(d.name) ==>
      var n := Normalize(d.name);
      var old_ := Callable(proto, n);
      // a name holding a plain field conflicts
      && (n in proto && proto[n].Field? ==> r == Err(ConflictsToProperty(n)))
      // the same class declaring the same arity twice is a duplicate
      && (n in proto && !proto[n].Field? && d.arity in old_ && old_[d.arity].boundTo == self ==>
            r.Err? && r.error.DuplicatedMethod? && r.error.arity == d.arity)
      // otherwise the slot (name, arity) is (re)bound to this class
      && (r.Ok? <==> !(n in proto && proto[n].Field?) && !(d.arity in old_ && old_[d.arity].boundTo == self))
      && (r.Ok? ==> n in r.value && r.value[n].Table?
                    && r.value[n].methods.Keys == old_.Keys + {d.arity}
                    && r.value[n].methods[d.arity] == Impl(d.body, d.arity, self, n))
      // other arities under the same name stay callable
      && (r.Ok? ==> forall a :: a in old_ && a != d.arity ==> r.value[n].methods[a] == old_[a])
      // other names are untouched
      && (r.Ok? ==> forall k :: k != n ==> (k in r.value <==> k in proto) && (k in proto ==> r.value[k] == proto[k]))
  {
    var n := Normalize(d.name);
    if n == PROTOTYPE_DIRECTIVE then Ok(InstallFields(proto, self, d.fields))
    else if n == STATIC_DIRECTIVE then Ok(proto)
    else
      var sw :- TableFor(proto, n);
      if d.arity in sw.methods && sw.methods[d.arity].boundTo == self then
        Err(DuplicatedMethod(sw.methodName, d.arity))
      else
        Ok(proto[n := Table(sw.methodName, sw.methods[d.arity := Impl(d.body, d.arity, self, n)])])
  }

  /**
    The static `extend`: merge the definitions in order; the first error
    stops the merge, leaving the definitions before it installed.
   */
  function MergeDefs(proto: Proto, self: ClassId, defs: seq<Def>): (r: (Proto, Option<Error>))
    decreases |defs|
  {
    if |defs| == 0 then (proto, None)
    else match MergeDef(proto, self, defs[0])
      case Err(e) => (proto, Some(e))
      case Ok(p1) => MergeDefs(p1, self, defs[1..])
  }

  /** Whether the slot `(n, a)` holds an implementation bound to `self`. */
  predicate SlotBound(proto: Proto, n: string, a: nat, self: ClassId) {
    a in Callable(proto, n) && Callable(proto, n)[a].boundTo == self
  }

  /** No definition in the batch is a directive. */
  predicate NoDirectives(defs: seq<Def>) {
    forall i :: 0 <= i < |defs| ==> !IsDirective(defs[i].name)
  }

  /**
    Constructor inheritance: a class that declares no constructor takes its
    parent's non-null constructor member. The member is copied as a value:
    later changes to either class's table are not shared.
   */
  function InheritConstructor(proto: Proto, parentProto: Option<Proto>): (r: Proto)
    ensures CNAME in proto ==> r == proto
    ensures CNAME !in proto && parentProto.Some? && CNAME in parentProto.value
            && parentProto.value[CNAME] != Field(Null) ==>
              r == proto[CNAME := parentProto.value[CNAME]]
    ensures CNAME !in proto
            && !(parentProto.Some? && CNAME in parentProto.value && parentProto.value[CNAME] != Field(Null))
            ==> r == proto
  {
    if parentProto.Some? && CNAME in parentProto.value && parentProto.value[CNAME] != Field(Null)
       && CNAME !in proto
    then proto[CNAME := parentProto.value[CNAME]]
    else proto
  }

  /** The parent `Class` picks from its arguments: the first one, when it is a class. */
  function ParentOf(st: State, pre: seq<Arg>): (r: Option<ClassId>)
    ensures r.Some? <==> |pre| > 0 && pre[0].ClassArg? && ClazzOf(st, pre[0]) == Some(ClassMeta)
    ensures r.Some? ==> r.value == pre[0].id && r.value in st.classes
  {
    if |pre| > 0 && pre[0].ClassArg? && ClazzOf(st, pre[0]) == Some(ClassMeta) then Some(pre[0].id) else None
  }

  /** A class-table update that keeps every existing class and adds `id`. */
  predicate Adds(st: State, st': State, id: ClassId) {
    && id == st.nextClass && st'.nextClass == id + 1 && id in st'.classes
    && st'.classes.Keys == st.classes.Keys + {id}
    && (forall c :: c in st.classes ==> st'.classes[c] == st.classes[c])
    && st'.objs == st.objs && st'.caller == st.caller && st'.log == st.log
    && st'.failing == st.failing && st'.nextObj == st.nextObj
  }

  /** Registers a new class or interface under the next free id. */
  function AddClass(st: State, c: ClassDesc): (r: (State, ClassId))
    requires Valid(st)
    requires c.parent.Some? ==> c.parent.value in st.classes
    requires c.meta.Some? ==> c.meta.value in st.classes
    ensures Adds(st, r.0, r.1) && r.0.classes[r.1] == c && r.1 !in st.classes
    ensures Valid(r.0)
  {
    var id := st.nextClass;
    (st.(classes := st.classes[id := c], nextClass := id + 1), id)
  }

  /** The argument list passes `Class`'s three shape checks: non-empty, an array last, a function first among several. */
  predicate ShapeOk(args: seq<Arg>) {
    |args| > 0 && args[|args| - 1].DefsArg? && !(|args| > 1 && !IsFunctionArg(args[0]))
  }

  /**
    `Class(parent?, interfaces..., definitions)`: validate the arguments,
    build the ancestor set, copy the parent's prototype, merge the
    definitions and inherit the parent's constructor.
   */
  function MakeClass(st: State, args: seq<Arg>): (o: Out<ClassId>)
    requires Valid(st)
    ensures |args| == 0 ==> o == Out(st, Err(NoClassDefinition))
    ensures |args| > 0 && !args[|args| - 1].DefsArg? ==> o == Out(st, Err(InvalidClassDefinition))
    ensures |args| > 1 && args[|args| - 1].DefsArg? && !IsFunctionArg(args[0]) ==> o == Out(st, Err(InvalidParentClass))
    ensures o.r.Err? ==> o.st == st
    ensures o.r.Ok? ==> Adds(st, o.st, o.r.value)
    ensures o.r.Ok? ==>
      var pre := args[..|args| - 1];
      var c := o.st.classes[o.r.value];
      && c.meta == Some(ClassMeta) && c.name.None?
      && c.parent == ParentOf(st, pre)
      && (forall a :: a in c.parents <==> exists j :: 0 <= j < |pre| && a in Contribution(st, pre[j]))
    // past the shape checks, the class is built exactly when every parent is a function and the definitions merge
    ensures ShapeOk(args) ==>
      var pre := args[..|args| - 1];
      var merged := MergeDefs(BaseProto(st, args), st.nextClass, args[|args| - 1].defs);
      && (o.r.Ok? <==> (forall j :: 0 <= j < |pre| ==> IsFunctionArg(pre[j])) && merged.1.None?)
      && ((exists j :: 0 <= j < |pre| && !IsFunctionArg(pre[j])) ==>
            && o.r.Err? && o.r.error.UndefinedParent? && o.r.error.index < |pre|
            && !IsFunctionArg(pre[o.r.error.index])
            && (forall k :: 0 <= k < o.r.error.index ==> IsFunctionArg(pre[k])))
      && ((forall j :: 0 <= j < |pre| ==> IsFunctionArg(pre[j])) && merged.1.Some? ==>
            o.r == Err(merged.1.value))
    ensures Valid(o.st)
  {
    if |args| == 0 then Out(st, Err(NoClassDefinition))
    else if !args[|args| - 1].DefsArg? then Out(st, Err(InvalidClassDefinition))
    else if |args| > 1 && !IsFunctionArg(args[0]) then Out(st, Err(InvalidParentClass))
    else
      var pre := args[..|args| - 1];
      match Ancestors(st, pre)
      case Err(e) => Out(st, Err(e))
      case Ok(ps) =>
        var id := st.nextClass;
        var merged := MergeDefs(BaseProto(st, args), id, args[|args| - 1].defs);
        if merged.1.Some? then Out(st, Err(merged.1.value))
        else
          var added := AddClass(st, ClassDesc(Some(ClassMeta), ParentOf(st, pre), ps,
                                              InheritConstructor(merged.0, ParentProto(st, args)), None));
          Out(added.0, Ok(added.1))
  }

  /** How `Class` assembles the prototype, for the lemmas about its contents. */
  lemma MakeClassBuilt(st: State, args: seq<Arg>)
    requires Valid(st) && MakeClass(st, args).r.Ok?
    ensures args[|args| - 1].DefsArg?
    ensures var o := MakeClass(st, args);
      && MergeDefs(BaseProto(st, args), o.r.value, args[|args| - 1].defs).1.None?
      && o.st.classes[o.r.value].proto
         == InheritConstructor(MergeDefs(BaseProto(st, args), o.r.value, args[|args| - 1].defs).0, ParentProto(st, args))
  {
  }

  /** The parent's prototype, when `Class` was given a parent. */
  function ParentProto(st: State, args: seq<Arg>): Option<Proto>
    requires |args| > 0
  {
    var p := ParentOf(st, args[..|args| - 1]);
    if p.Some? then Some(st.classes[p.value].proto) else None
  }

  /** The prototype a new class starts from before its own definitions are merged. */
  function BaseProto(st: State, args: seq<Arg>): Proto
    requires |args| > 0
  {
    var pp := ParentProto(st, args);
    if pp.Some? then CopyParent(pp.value) else map[]
  }

  /**
    `Interface(parents...)`: a new interface whose ancestor set is built like
    a class's; it has no parent and no members of its own.
   */
  function MakeInterface(st: State, args: seq<Arg>): (o: Out<ClassId>)
    requires Valid(st)
    ensures o.r.Err? <==> exists j :: 0 <= j < |args| && !IsFunctionArg(args[j])
    ensures o.r.Err? ==> o.st == st
    ensures o.r.Ok? ==> Adds(st, o.st, o.r.value)
    ensures o.r.Ok? ==>
      var c := o.st.classes[o.r.value];
      && c.meta == Some(InterfaceMeta) && c.parent.None? && c.proto == map[]
      && (forall a :: a in c.parents <==> exists j :: 0 <= j < |args| && a in Contribution(st, args[j]))
    ensures Valid(o.st)
  {
    match Ancestors(st, args)
    case Err(e) => Out(st, Err(e))
    case Ok(ps) =>
      var added := AddClass(st, ClassDesc(Some(InterfaceMeta), None, ps, map[], None));
      Out(added.0, Ok(added.1))
  }

  /**
    The static `extend` called on an existing class: merge further
    definitions into its prototype; definitions merged before an error stay.
   */
  function StaticExtend(st: State, id: ClassId, arg: Arg): (o: Out<()>)
    requires Valid(st) && id in st.classes
    ensures !arg.DefsArg? ==> o == Out(st, Err(WrongDefinitionFormat))
    ensures o.st.classes.Keys == st.classes.Keys
    ensures forall c :: c in st.classes && c != id ==> o.st.classes[c] == st.classes[c]
    ensures o.st.objs == st.objs && o.st.caller == st.caller
    ensures arg.DefsArg? ==> (o.r.Err? <==> MergeDefs(st.classes[id].proto, id, arg.defs).1.Some?)
    ensures arg.DefsArg? ==> o.st.classes[id].proto == MergeDefs(st.classes[id].proto, id, arg.defs).0
    ensures Valid(o.st)
  {
    if !arg.DefsArg? then Out(st, Err(WrongDefinitionFormat))
    else
      var c := st.classes[id];
      var merged := MergeDefs(c.proto, id, arg.defs);
      var st' := st.(classes := st.classes[id := c.(proto := merged.0)]);
      assert forall k :: k in st'.classes ==> st'.classes[k].parent == st.classes[k].parent;
      assert Valid(st');
      if merged.1.Some? then Out(st', Err(merged.1.value)) else Out(st', Ok(()))
  }
}

=== FILE: construction.dfy ===
/**
  Instance construction: the template function every class runs on `new`,
  with its anonymous-subclass path (a trailing array of functions), and
  calling an interface with a definition array.
 */
module Construction {
  import opened Wrappers
  import opened Model
  import opened Dispatch
  import opened Classes

  /** The calling convention that asks for an anonymous subclass: a trailing non-empty array of functions. */
  predicate IsAnonymous(args: seq<Arg>) {
    |args| > 0 && args[|args| - 1].DefsArg? && |args[|args| - 1].defs| > 0
  }

  /**
    Collecting the interfaces that precede the definition array, walking
    down from index `k`: returns the index where the walk stopped and the
    interfaces in the order they were collected.
   */
  function CollectInterfaces(st: State, args: seq<Arg>, k: int): (r: (int, seq<Arg>))
    requires -1 <= k < |args|
    ensures -1 <= r.0 <= k && |r.1| == k - r.0
    ensures forall i :: 0 <= i < |r.1| ==> r.1[i] == args[k - i]
    ensures forall j :: r.0 < j <= k ==> IsInstanceOf(st, args[j], InterfaceMeta)
    ensures r.0 >= 0 ==> !IsInstanceOf(st, args[r.0], InterfaceMeta)
    decreases k + 1
  {
    if k >= 0 && IsInstanceOf(st, args[k], InterfaceMeta) then
      var rest := CollectInterfaces(st, args, k - 1);
      (rest.0, [args[k]] + rest.1)
    else (k, [])
  }

  /** A fresh instance of `cls` delegating to that class's prototype. */
  function Allocate(st: State, cls: ClassId): (r: (State, ObjId))
    requires Valid(st) && cls in st.classes
    ensures r.1 == st.nextObj && r.1 !in st.objs
    ensures r.0 == st.(objs := st.objs[r.1 := Obj(cls, cls, map[])], nextObj := r.1 + 1)
    ensures Valid(r.0) && Extends(st, r.0)
  {
    var o := st.nextObj;
    (st.(objs := st.objs[o := Obj(cls, cls, map[])], nextObj := o + 1), o)
  }

  /** `this[CNAME] && this[CNAME].apply(this, arguments)`. */
  function CallConstructor(st: State, self: ObjId, argc: nat): (o: Out<()>)
    ensures o.st.caller == st.caller && o.st.classes == st.classes && o.st.objs == st.objs
    ensures OnlyLogGrows(st, o.st)
    ensures var m := Lookup(st, self, CNAME);
      m.None? || !m.value.IsTruthy() ==> o == Out(st, Ok(()))
    ensures var m := Lookup(st, self, CNAME);
      m.Some? && m.value.IsTruthy() ==> o == Invoke(st, self, m.value, argc, CNAME)
  {
    match Lookup(st, self, CNAME)
    case None => Out(st, Ok(()))
    case Some(m) => if m.IsTruthy() then Invoke(st, self, m, argc, CNAME) else Out(st, Ok(()))
  }

  /** Either nothing was run or exactly one body was run on `self` with `argc` arguments. */
  predicate AtMostOneRun(before: seq<Run>, after: seq<Run>, self: ObjId, argc: nat) {
    after == before
    || (|after| == |before| + 1 && after[..|before|] == before
        && after[|before|].self == self && after[|before|].argc == argc)
  }

  /** Calling the constructor runs at most one body, on `self`, with `argc` arguments. */
  lemma CallConstructorRuns(st: State, self: ObjId, argc: nat)
    ensures AtMostOneRun(st.log, CallConstructor(st, self, argc).st.log, self, argc)
  {
    var after := CallConstructor(st, self, argc).st.log;
    if after != st.log {
      assert after[..|st.log|] == st.log;
    }
  }

  /** Every class and instance of `st` is still there, unchanged. */
  predicate Extends(st: State, st': State) {
    && (forall c :: c in st.classes ==> c in st'.classes && st'.classes[c] == st.classes[c])
    && (forall o :: o in st.objs ==> o in st'.objs && st'.objs[o] == st.objs[o])
    && st'.caller == st.caller && st'.failing == st.failing
    && st.nextClass <= st'.nextClass && st.nextObj <= st'.nextObj
  }

  /** Under `Extends`, a given instance and class are as they were. */
  lemma ExtendsKeeps(st: State, st': State, x: ObjId, c: ClassId)
    requires Extends(st, st') && x in st.objs && c in st.classes
    ensures x in st'.objs && st'.objs[x] == st.objs[x] && st'.classes[c] == st.classes[c]
  {
  }

  /** Running bodies keeps the invariant and extends the state. */
  lemma LogGrowthExtends(st: State, st': State)
    requires Valid(st) && OnlyLogGrows(st, st')
    ensures Valid(st') && Extends(st, st')
  {
  }

  /** `Extends` over three steps. */
  lemma ExtendsTrans3(a: State, b: State, c: State, d: State)
    requires Extends(a, b) && Extends(b, c) && Extends(c, d)
    ensures Extends(a, d)
  {
  }

  /** `Extends` is transitive. */
  lemma ExtendsTrans(a: State, b: State, c: State)
    requires Extends(a, b) && Extends(b, c)
    ensures Extends(a, c)
  {
  }

  /** A class template (its `$clazz` is `Class`), as opposed to an interface or a metaclass. */
  predicate IsClass(st: State, cls: ClassId) {
    cls in st.classes && st.classes[cls].meta == Some(ClassMeta)
  }

  /** The arguments `Class` receives for the anonymous subclass. */
  function AnonymousClassArgs(st: State, cls: ClassId, args: seq<Arg>): (r: seq<Arg>)
    requires IsAnonymous(args)
    ensures |r| >= 2 && r[0] == ClassArg(cls) && r[|r| - 1] == args[|args| - 1]
  {
    [ClassArg(cls)] + CollectInterfaces(st, args, |args| - 2).1 + [args[|args| - 1]]
  }

  /** What the anonymous subclass's ancestor set is made of: `cls`, its ancestors and the collected interfaces. */
  lemma AnonymousParents(st: State, cls: ClassId, args: seq<Arg>, a: ClassId)
    requires cls in st.classes && IsAnonymous(args)
    ensures var cargs := AnonymousClassArgs(st, cls, args);
            var pre := cargs[..|cargs| - 1];
            var k := CollectInterfaces(st, args, |args| - 2).0;
            (exists j :: 0 <= j < |pre| && a in Contribution(st, pre[j])) <==>
            (a == cls || a in st.classes[cls].parents
             || exists j :: k < j < |args| - 1 && a in Contribution(st, args[j]))
  {
    var last := |args| - 1;
    var collected := CollectInterfaces(st, args, last - 1);
    var cargs := AnonymousClassArgs(st, cls, args);
    var pre := cargs[..|cargs| - 1];
    assert pre == [ClassArg(cls)] + collected.1;
    forall i | 1 <= i < |pre| ensures pre[i] == args[last - i] {
      assert pre[i] == collected.1[i - 1];
    }
    assert Contribution(st, pre[0]) == {cls} + st.classes[cls].parents;
    ReversedRun(st, pre, args, collected.0, last, a);
  }

  /**
    A class followed by `args[last - 1]` down to `args[k + 1]`: something is
    contributed by one of them exactly when the class or one of those
    arguments contributes it.
   */
  lemma ReversedRun(st: State, pre: seq<Arg>, args: seq<Arg>, k: int, last: int, a: ClassId)
    requires -1 <= k < last <= |args| && |pre| == last - k
    requires forall i :: 1 <= i < |pre| ==> pre[i] == args[last - i]
    ensures (exists j :: 0 <= j < |pre| && a in Contribution(st, pre[j])) <==>
            (a in Contribution(st, pre[0]) || exists j :: k < j < last && a in Contribution(st, args[j]))
  {
    if exists i :: 1 <= i < |pre| && a in Contribution(st, pre[i]) {
      var i :| 1 <= i < |pre| && a in Contribution(st, pre[i]);
      assert args[last - i] == pre[i];
    }
    if exists j :: k < j < last && a in Contribution(st, args[j]) {
      var j :| k < j < last && a in Contribution(st, args[j]);
      assert pre[last - j] == args[j];
    }
  }

  /** `cl.$name = name`: only the display name of `cl` changes. */
  function SetName(st: State, cl: ClassId, name: Option<string>): (r: State)
    requires Valid(st) && cl in st.classes
    ensures Valid(r)
    ensures r.classes.Keys == st.classes.Keys
    ensures r.classes[cl] == st.classes[cl].(name := name)
    ensures forall c :: c in st.classes && c != cl ==> r.classes[c] == st.classes[c]
    ensures r.objs == st.objs && r.caller == st.caller && r.log == st.log
    ensures r.failing == st.failing && r.nextObj == st.nextObj && r.nextClass == st.nextClass
  {
    var r := st.(classes := st.classes[cl := st.classes[cl].(name := name)]);
    ValidAfterClassEdit(st, r);
    r
  }

  /** Adding a class, then changing only that class, extends the state. */
  lemma AddsExtends(st: State, st': State, st'': State, id: ClassId)
    requires Adds(st, st', id) && id !in st.classes
    requires st''.classes.Keys == st'.classes.Keys
    requires forall c :: c in st'.classes && c != id ==> st''.classes[c] == st'.classes[c]
    requires st''.objs == st'.objs && st''.caller == st'.caller && st''.failing == st'.failing
    requires st''.nextObj == st'.nextObj && st''.nextClass == st'.nextClass
    ensures Extends(st, st'')
  {
  }

  /**
    The anonymous subclass the template builds: `Class(cls, interfaces...,
    definitions)` tagged with `cls`'s display name. Also yields the index
    below the collected interfaces.
   */
  function AnonymousClass(st: State, cls: ClassId, args: seq<Arg>): (o: Out<(ClassId, int)>)
    requires Valid(st) && IsClass(st, cls) && IsAnonymous(args)
    ensures Valid(o.st) && Extends(st, o.st)
    ensures o.st.objs == st.objs && o.st.nextObj == st.nextObj
    ensures o.r.Err? ==> o.st == st
    ensures o.r.Ok? ==>
      var cl := o.r.value.0;
      && o.r.value.1 == CollectInterfaces(st, args, |args| - 2).0
      && cl !in st.classes && IsClass(o.st, cl)
      && o.st.classes[cl].parent == Some(cls)
      && o.st.classes[cl].name == st.classes[cls].name
  {
    var k := CollectInterfaces(st, args, |args| - 2).0;
    var built := MakeClass(st, AnonymousClassArgs(st, cls, args));
    if built.r.Err? then Out(st, Err(built.r.error))
    else
      var cl := built.r.value;
      AnonymousClassBuilt(st, cls, args);
      var named := SetName(built.st, cl, st.classes[cls].name);
      AddsExtends(st, built.st, named, cl);
      Out(named, Ok((cl, k)))
  }

  /** The class `Class` builds for the anonymous path is a new class whose `$parent` is `cls`. */
  lemma AnonymousClassBuilt(st: State, cls: ClassId, args: seq<Arg>)
    requires Valid(st) && IsClass(st, cls) && IsAnonymous(args)
    ensures var built := MakeClass(st, AnonymousClassArgs(st, cls, args));
      built.r.Ok? ==>
        && built.r.value !in st.classes && IsClass(built.st, built.r.value)
        && built.st.classes[built.r.value].parent == Some(cls)
  {
    var cargs := AnonymousClassArgs(st, cls, args);
    assert ParentOf(st, cargs[..|cargs| - 1]) == Some(cls);
  }

  /**
    The anonymous subclass's ancestors: `cls`, `cls`'s ancestors and the
    interfaces given right before the definitions, with their ancestors.
   */
  lemma AnonymousClassParents(st: State, cls: ClassId, args: seq<Arg>, a: ClassId)
    requires Valid(st) && IsClass(st, cls) && IsAnonymous(args)
    requires AnonymousClass(st, cls, args).r.Ok?
    ensures var o := AnonymousClass(st, cls, args);
      a in o.st.classes[o.r.value.0].parents <==>
        a == cls || a in st.classes[cls].parents
        || exists j :: o.r.value.1 < j < |args| - 1 && a in Contribution(st, args[j])
  {
    var built := MakeClass(st, AnonymousClassArgs(st, cls, args));
    var cl := built.r.value;
    assert AnonymousClass(st, cls, args).st.classes[cl].parents == built.st.classes[cl].parents;
    AnonymousParents(st, cls, args, a);
  }

  /**
    The template function of class `cls` run on the instance `self`. With a
    trailing array of functions it builds the anonymous subclass and runs
    that subclass's template on a new instance with the arguments before the
    interfaces; that new instance is the result. Otherwise it calls the
    constructor with all the arguments.
   */
  function RunTemplate(st: State, cls: ClassId, self: ObjId, args: seq<Arg>): (o: Out<ObjId>)
    requires Valid(st) && IsClass(st, cls) && self in st.objs
    ensures Valid(o.st) && Extends(st, o.st)
    decreases |args|, 1
  {
    if IsAnonymous(args) then AnonymousInstance(st, cls, args)
    else
      var c := CallConstructor(st, self, |args|);
      LogGrowthExtends(st, c.st);
      Out(c.st, if c.r.Err? then Err(c.r.error) else Ok(self))
  }

  /** The anonymous path of the template: a new instance of the anonymous subclass. */
  function AnonymousInstance(st: State, cls: ClassId, args: seq<Arg>): (o: Out<ObjId>)
    requires Valid(st) && IsClass(st, cls) && IsAnonymous(args)
    ensures Valid(o.st) && Extends(st, o.st)
    decreases |args|, 0
  {
    var anon := AnonymousClass(st, cls, args);
    if anon.r.Err? then Out(anon.st, Err(anon.r.error))
    else
      var cl := anon.r.value.0;
      var k := anon.r.value.1;
      var alloc := Allocate(anon.st, cl);
      var inner := RunTemplate(alloc.0, cl, alloc.1, args[..k + 1]);
      ExtendsTrans3(st, anon.st, alloc.0, inner.st);
      Out(inner.st, if inner.r.Err? then Err(inner.r.error) else Ok(alloc.1))
  }

  /**
    Without a trailing definition array the template only calls the
    constructor: no class or instance is created, the instance itself is the
    result, and at most the constructor's body runs, with every argument.
   */
  lemma TemplateCallsConstructor(st: State, cls: ClassId, self: ObjId, args: seq<Arg>)
    requires Valid(st) && IsClass(st, cls) && self in st.objs && !IsAnonymous(args)
    ensures var o := RunTemplate(st, cls, self, args);
      && o.st.objs == st.objs && o.st.classes == st.classes
      && AtMostOneRun(st.log, o.st.log, self, |args|)
      && (o.r.Ok? ==> o.r.value == self)
  {
    CallConstructorRuns(st, self, |args|);
  }

  /** A successful anonymous path: the new instance after running the subclass's template on it. */
  lemma AnonymousInstanceOk(st: State, cls: ClassId, args: seq<Arg>)
    requires Valid(st) && IsClass(st, cls) && IsAnonymous(args)
    requires AnonymousInstance(st, cls, args).r.Ok?
    ensures var anon := AnonymousClass(st, cls, args);
      && anon.r.Ok?
      && var alloc := Allocate(anon.st, anon.r.value.0);
      && var inner := RunTemplate(alloc.0, anon.r.value.0, alloc.1, args[..anon.r.value.1 + 1]);
      AnonymousInstance(st, cls, args) == Out(inner.st, Ok(alloc.1))
  {
    var anon := AnonymousClass(st, cls, args);
    assert anon.r.Ok?;
    var alloc := Allocate(anon.st, anon.r.value.0);
    var inner := RunTemplate(alloc.0, anon.r.value.0, alloc.1, args[..anon.r.value.1 + 1]);
    assert inner.r.Ok?;
  }

  /**
    The anonymous path yields a new instance whose `$clazz` and prototype are
    the anonymous subclass.
   */
  lemma AnonymousInstanceShape(st: State, cls: ClassId, args: seq<Arg>)
    requires Valid(st) && IsClass(st, cls) && IsAnonymous(args)
    requires AnonymousInstance(st, cls, args).r.Ok?
    ensures var o := AnonymousInstance(st, cls, args);
      var anon := AnonymousClass(st, cls, args);
      && anon.r.Ok?
      && o.r.value == st.nextObj && o.r.value in o.st.objs && o.r.value !in st.objs
      && o.st.objs[o.r.value].cls == anon.r.value.0
      && o.st.objs[o.r.value].protoOf == anon.r.value.0
      && o.st.classes[anon.r.value.0] == anon.st.classes[anon.r.value.0]
  {
    var anon := AnonymousClass(st, cls, args);
    var cl := anon.r.value.0;
    var k := anon.r.value.1;
    var alloc := Allocate(anon.st, cl);
    var inner := RunTemplate(alloc.0, cl, alloc.1, args[..k + 1]);
    AnonymousInstanceOk(st, cls, args);
    ExtendsKeeps(alloc.0, inner.st, alloc.1, cl);
  }

  /**
    On the anonymous path, when the arguments before the interfaces are
    themselves plain, only the anonymous subclass's constructor may run, and
    it sees exactly those arguments.
   */
  lemma AnonymousInstanceRuns(st: State, cls: ClassId, args: seq<Arg>)
    requires Valid(st) && IsClass(st, cls) && IsAnonymous(args)
    requires AnonymousInstance(st, cls, args).r.Ok?
    ensures var o := AnonymousInstance(st, cls, args);
      var anon := AnonymousClass(st, cls, args);
      && anon.r.Ok?
      && (!IsAnonymous(args[..anon.r.value.1 + 1]) ==>
            AtMostOneRun(anon.st.log, o.st.log, o.r.value, anon.r.value.1 + 1))
  {
    var anon := AnonymousClass(st, cls, args);
    var cl := anon.r.value.0;
    var k := anon.r.value.1;
    var alloc := Allocate(anon.st, cl);
    var inner := RunTemplate(alloc.0, cl, alloc.1, args[..k + 1]);
    AnonymousInstanceOk(st, cls, args);
    assert |args[..k + 1]| == k + 1;
    AllocatedRuns(anon.st, cl, args[..k + 1]);
  }

  /** Running a plain template on a fresh instance runs at most its constructor, on that instance. */
  lemma AllocatedRuns(st: State, cls: ClassId, args: seq<Arg>)
    requires Valid(st) && IsClass(st, cls)
    ensures var alloc := Allocate(st, cls);
      !IsAnonymous(args) ==> AtMostOneRun(st.log, RunTemplate(alloc.0, cls, alloc.1, args).st.log, alloc.1, |args|)
  {
    var alloc := Allocate(st, cls);
    if !IsAnonymous(args) {
      TemplateCallsConstructor(alloc.0, cls, alloc.1, args);
    }
  }

  /** `new C(args...)`: allocate `this`, then run `C`'s template on it. */
  function Construct(st: State, cls: ClassId, args: seq<Arg>): (o: Out<ObjId>)
    requires Valid(st) && IsClass(st, cls)
    ensures Valid(o.st) && Extends(st, o.st)
  {
    var alloc := Allocate(st, cls);
    ExtendsTrans(st, alloc.0, RunTemplate(alloc.0, cls, alloc.1, args).st);
    RunTemplate(alloc.0, cls, alloc.1, args)
  }

  /**
    `new C(args)` without a trailing definition array: a new instance of `C`
    whose own member table is empty; nothing else is created and only `C`'s
    constructor may run, with all the arguments.
   */
  lemma ConstructPlain(st: State, cls: ClassId, args: seq<Arg>)
    requires Valid(st) && IsClass(st, cls) && !IsAnonymous(args)
    ensures var o := Construct(st, cls, args);
      && o.st.classes == st.classes
      && o.st.objs == st.objs[st.nextObj := Obj(cls, cls, map[])]
      && AtMostOneRun(st.log, o.st.log, st.nextObj, |args|)
      && (o.r.Ok? ==> o.r.value == st.nextObj)
  {
    var alloc := Allocate(st, cls);
    TemplateCallsConstructor(alloc.0, cls, alloc.1, args);
  }

  /**
    `new C(args..., [defs])`: the result is an instance of a fresh subclass
    of `C` that carries `C`'s display name and whose prototype it uses.
   */
  lemma ConstructAnonymous(st: State, cls: ClassId, args: seq<Arg>)
    requires Valid(st) && IsClass(st, cls) && IsAnonymous(args)
    requires Construct(st, cls, args).r.Ok?
    ensures var o := Construct(st, cls, args);
      && o.r.value == st.nextObj + 1 && o.r.value in o.st.objs
      && var x := o.st.objs[o.r.value];
      && x.cls == x.protoOf
      && x.cls !in st.classes && IsClass(o.st, x.cls)
      && o.st.classes[x.cls].parent == Some(cls)
      && o.st.classes[x.cls].name == st.classes[cls].name
      && cls in o.st.classes[x.cls].parents
  {
    var alloc := Allocate(st, cls);
    ConstructIsAnonymousInstance(st, cls, args);
    var o := AnonymousInstance(alloc.0, cls, args);
    AnonymousInstanceShape(alloc.0, cls, args);
    var anon := AnonymousClass(alloc.0, cls, args);
    var cl := anon.r.value.0;
    assert alloc.0.classes == st.classes;
    assert o.st.classes[cl] == anon.st.classes[cl];
    AnonymousClassParents(alloc.0, cls, args, cls);
    assert o.r.value == st.nextObj + 1;
    assert o.r.value in o.st.objs;
    var x := o.st.objs[o.r.value];
    assert x.cls == cl;
    assert x.cls == x.protoOf;
    assert cl !in st.classes;
    assert IsClass(o.st, cl);
    assert o.st.classes[x.cls].parent == Some(cls);
    assert o.st.classes[x.cls].name == st.classes[cls].name;
    assert cls in o.st.classes[x.cls].parents;
    assert Construct(st, cls, args) == o;
  }

  /** With a trailing definition array, `new C(...)` is the anonymous path on the allocated instance. */
  lemma ConstructIsAnonymousInstance(st: State, cls: ClassId, args: seq<Arg>)
    requires Valid(st) && IsClass(st, cls) && IsAnonymous(args)
    ensures Construct(st, cls, args) == AnonymousInstance(Allocate(st, cls).0, cls, args)
  {
  }

  /** What an argument contributes to an ancestor set depends only on the class table. */
  lemma ContributionFrame(st: State, st': State)
    requires st.classes == st'.classes
    ensures forall x :: Contribution(st, x) == Contribution(st', x)
  {
  }

  /**
    The ancestors of the anonymous subclass `new C(args..., [defs])`
    instantiates: `C`, `C`'s ancestors, and the interfaces collected right
    before the definitions together with their ancestors.
   */
  lemma ConstructAnonymousParents(st: State, cls: ClassId, args: seq<Arg>, a: ClassId)
    requires Valid(st) && IsClass(st, cls) && IsAnonymous(args)
    requires Construct(st, cls, args).r.Ok?
    ensures var o := Construct(st, cls, args);
      var k := CollectInterfaces(Allocate(st, cls).0, args, |args| - 2).0;
      && o.r.value in o.st.objs && o.st.objs[o.r.value].cls in o.st.classes
      && (a in o.st.classes[o.st.objs[o.r.value].cls].parents <==>
            a == cls || a in st.classes[cls].parents
            || exists j :: k < j < |args| - 1 && a in Contribution(st, args[j]))
  {
    var alloc := Allocate(st, cls);
    ConstructIsAnonymousInstance(st, cls, args);
    AnonymousInstanceParents(alloc.0, st, cls, args, a);
  }

  /** Whether a range of arguments contributes `a` depends only on the class table. */
  lemma ContributionRangeFrame(st: State, base: State, args: seq<Arg>, k: int, a: ClassId)
    requires base.classes == st.classes && -1 <= k
    ensures (exists j :: k < j < |args| - 1 && a in Contribution(st, args[j]))
        <==> (exists j :: k < j < |args| - 1 && a in Contribution(base, args[j]))
  {
    ContributionFrame(st, base);
  }

  /**
    The ancestors of the class the anonymous path instantiates, stated over
    any state `base` with the same class table.
   */
  lemma AnonymousInstanceParents(st: State, base: State, cls: ClassId, args: seq<Arg>, a: ClassId)
    requires Valid(st) && IsClass(st, cls) && IsAnonymous(args) && base.classes == st.classes
    ensures var o := AnonymousInstance(st, cls, args);
      var k := CollectInterfaces(st, args, |args| - 2).0;
      o.r.Ok? ==>
        && o.r.value in o.st.objs && o.st.objs[o.r.value].cls in o.st.classes
        && (a in o.st.classes[o.st.objs[o.r.value].cls].parents <==>
              a == cls || a in base.classes[cls].parents
              || exists j :: k < j < |args| - 1 && a in Contribution(base, args[j]))
  {
    ContributionRangeFrame(st, base, args, CollectInterfaces(st, args, |args| - 2).0, a);
    if AnonymousInstance(st, cls, args).r.Ok? {
      AnonymousInstanceShape(st, cls, args);
      AnonymousClassParents(st, cls, args, a);
    }
  }

  /**
    Whether `new` with no arguments returns normally on an instance of a
    class with prototype `p`, when the bodies in `failing` throw: there is no
    truthy constructor, or it is a function whose body does not throw, or an
    overload table whose 0-argument entry exists and does not throw.
   */
  predicate ConstructsWithoutArgs(p: Proto, failing: set<nat>) {
    CNAME !in p ||
    match p[CNAME]
    case Table(_, ms) => 0 in ms && ms[0].body !in failing
    case Func(f) => f.body !in failing
    case Field(v) => !v.Truthy?
  }

  /**
    Calling an interface with arguments: `new (Class(I, arguments[0]))()`;
    without arguments, nothing. The first argument must be a definition
    array; the call then fails exactly when those definitions do not merge
    or the constructor they define throws on being called with no arguments.
   */
  function CallInterface(st: State, iface: ClassId, args: seq<Arg>): (o: Out<Option<ObjId>>)
    requires Valid(st) && iface in st.classes && st.classes[iface].meta == Some(InterfaceMeta)
    ensures Valid(o.st)
    ensures |args| == 0 ==> o == Out(st, Ok(None))
    ensures |args| > 0 && !args[0].DefsArg? ==> o == Out(st, Err(InvalidClassDefinition))
    ensures |args| > 0 && args[0].DefsArg? ==>
      var merged := MergeDefs(map[], st.nextClass, args[0].defs);
      && (merged.1.Some? ==> o == Out(st, Err(merged.1.value)))
      && (merged.1.None? ==> (o.r.Ok? <==> ConstructsWithoutArgs(merged.0, st.failing)))
    ensures |args| > 0 && o.r.Ok? ==>
      && o.r.value.Some? && o.r.value.value in o.st.objs
      && iface in o.st.classes[o.st.objs[o.r.value.value].cls].parents
  {
    if |args| == 0 then Out(st, Ok(None))
    else
      var built := InterfaceClass(st, iface, args[0]);
      if built.r.Err? then Out(built.st, Err(built.r.error))
      else
        var made := Construct(built.st, built.r.value, []);
        ConstructWithoutArgs(built.st, built.r.value);
        ConstructPlain(built.st, built.r.value, []);
        Out(made.st, if made.r.Err? then Err(made.r.error) else Ok(Some(made.r.value)))
  }

  /** `new C()` returns normally exactly when `C`'s prototype lets the constructor run with no arguments. */
  lemma ConstructWithoutArgs(st: State, cls: ClassId)
    requires Valid(st) && IsClass(st, cls)
    ensures Construct(st, cls, []).r.Ok? <==> ConstructsWithoutArgs(st.classes[cls].proto, st.failing)
  {
    var alloc := Allocate(st, cls);
    assert Construct(st, cls, []) == RunTemplate(alloc.0, cls, alloc.1, []);
    assert RunTemplate(alloc.0, cls, alloc.1, []).r.Ok? <==> CallConstructor(alloc.0, alloc.1, 0).r.Ok?;
    CallConstructorWithoutArgs(alloc.0, alloc.1);
  }

  /** On an instance with no own members, the 0-argument constructor call is decided by its prototype. */
  lemma CallConstructorWithoutArgs(st: State, self: ObjId)
    requires self in st.objs && st.objs[self].own == map[] && st.objs[self].protoOf in st.classes
    ensures CallConstructor(st, self, 0).r.Ok?
        <==> ConstructsWithoutArgs(st.classes[st.objs[self].protoOf].proto, st.failing)
  {
    var p := st.classes[st.objs[self].protoOf].proto;
    assert Lookup(st, self, CNAME) == if CNAME in p then Some(p[CNAME]) else None;
    if CNAME in p && p[CNAME].Table? {
      assert CallConstructor(st, self, 0) == CallTable(st, self, p[CNAME], 0);
    }
  }

  /**
    `Class(I, d)` for an interface `I`, the class an interface call builds.
    `d` must be a definition array. There is no parent, so the class is built
    exactly when the definitions merge into an empty prototype; that merge is
    its prototype, and `I` is among its ancestors.
   */
  function InterfaceClass(st: State, iface: ClassId, d: Arg): (o: Out<ClassId>)
    requires Valid(st) && iface in st.classes && st.classes[iface].meta == Some(InterfaceMeta)
    ensures Valid(o.st)
    ensures o.r.Err? ==> o.st == st
    ensures !d.DefsArg? ==> o.r == Err(InvalidClassDefinition)
    ensures d.DefsArg? ==>
      var merged := MergeDefs(map[], st.nextClass, d.defs);
      && (o.r.Ok? <==> merged.1.None?)
      && (merged.1.Some? ==> o.r == Err(merged.1.value))
      && (o.r.Ok? ==> o.r.value in o.st.classes && o.st.classes[o.r.value].proto == merged.0)
    ensures o.r.Ok? ==>
      && IsClass(o.st, o.r.value) && iface in o.st.classes[o.r.value].parents
      && o.st.failing == st.failing
  {
    var args := [ClassArg(iface), d];
    var built := MakeClass(st, args);
    if !d.DefsArg? then built
    else
      assert ParentOf(st, args[..1]).None?;
      assert BaseProto(st, args) == map[] && ParentProto(st, args).None?;
      assert ShapeOk(args) && forall j :: 0 <= j < |args[..1]| ==> IsFunctionArg(args[..1][j]);
      if built.r.Err? then built
      else
        MakeClassBuilt(st, args);
        assert Contribution(st, args[..1][0]) == {iface} + ParentsOf(st, iface);
        built
  }
}

=== FILE: dispatch.dfy ===
/**
  Overload tables (`ProxyMethod`), their cloning, the not-found error (`mnf`),
  calling a member with a given argument count, and the non-executing lookup
  `getMethod`.
 */
module Dispatch {
  import opened Wrappers
  import opened Model

  /** The method name `mnf` reports: the internal constructor name reads "constructor". */
  function DisplayName(name: string): (d: string)
    ensures name == CNAME ==> d == "constructor"
    ensures name != CNAME ==> d == name
  {
    if name == CNAME then "constructor" else name
  }

  /** `mnf`: throw a not-found error naming the class of `self`, the method and the argument count. */
  function NotFound<T>(st: State, self: ObjId, name: string, argc: nat): (o: Out<T>)
    ensures o.st == st
    ensures o.r == Err(MethodNotFound(ClassNameOf(st, self), DisplayName(name), argc))
  {
    Out(st, Err(MethodNotFound(ClassNameOf(st, self), DisplayName(name), argc)))
  }

  /**
    `$clone$`: a fresh table with the same entries, nothing for the
    constructor table. Plain functions and fields have no `$clone$` and are
    shared as they are.
   */
  function Clone(m: Member): (r: Option<Member>)
    ensures r.None? <==> m.Table? && m.methodName == CNAME
    ensures r.Some? && m.Table? ==> r.value.Table? && r.value.methodName == m.methodName
    ensures r.Some? && m.Table? ==> forall k :: k in m.methods <==> k in r.value.methods
    ensures r.Some? && m.Table? ==> forall k :: k in m.methods ==> r.value.methods[k] == m.methods[k]
    ensures r.Some? && !m.Table? ==> r.value == m
  {
    match m
    case Table(n, ms) => if n == CNAME then None else Some(Table(n, map k | k in ms :: ms[k]))
    case _ => Some(m)
  }

  /** Only the run log changed, and only by growing. */
  predicate OnlyLogGrows(st: State, st': State) {
    st' == st.(log := st'.log) && st.log <= st'.log
  }

  /** Runs the opaque body `body` on `self` with `argc` arguments under the current caller slot. */
  function RunBody(st: State, self: ObjId, body: nat, argc: nat): (o: Out<()>)
    ensures o.st == st.(log := st.log + [Run(self, body, st.caller, argc)])
    ensures o.r.Err? <==> body in st.failing
    ensures o.r.Err? ==> o.r.error == BodyThrew(body)
  {
    var st1 := st.(log := st.log + [Run(self, body, st.caller, argc)]);
    if body in st.failing then Out(st1, Err(BodyThrew(body))) else Out(st1, Ok(()))
  }

  /**
    Calling an overload table with `argc` arguments: run the implementation
    stored at that arity with the caller slot set to it, and restore the slot
    on both exits; without one, throw not-found.
   */
  function CallTable(st: State, self: ObjId, t: Member, argc: nat): (o: Out<()>)
    requires t.Table?
    ensures o.st.caller == st.caller && OnlyLogGrows(st, o.st)
    ensures argc in t.methods ==>
      && o.st.log == st.log + [Run(self, t.methods[argc].body, Some(t.methods[argc]), argc)]
      && o.st.classes == st.classes && o.st.objs == st.objs
      && (o.r.Err? <==> t.methods[argc].body in st.failing)
    ensures argc !in t.methods ==>
      o == Out(st, Err(MethodNotFound(ClassNameOf(st, self), DisplayName(t.methodName), argc)))
  {
    if argc in t.methods then
      var nm := t.methods[argc];
      var saved := st.caller;
      var inner := RunBody(st.(caller := Some(nm)), self, nm.body, argc);
      Out(inner.st.(caller := saved), inner.r)
    else
      NotFound(st, self, t.methodName, argc)
  }

  /**
    Invoking a member value found on an object or a prototype: a table
    dispatches on `argc`; a plain function runs without touching the caller
    slot; a field is not callable.
   */
  function Invoke(st: State, self: ObjId, m: Member, argc: nat, name: string): (o: Out<()>)
    ensures o.st.caller == st.caller && OnlyLogGrows(st, o.st)
    ensures o.st.classes == st.classes && o.st.objs == st.objs
    ensures m.Field? ==> o == Out(st, Err(NotAFunction(name)))
    ensures m.Func? ==> o == RunBody(st, self, m.f.body, argc)
  {
    match m
    case Table(_, _) => CallTable(st, self, m, argc)
    case Func(f) => RunBody(st, self, f.body, argc)
    case Field(_) => Out(st, Err(NotAFunction(name)))
  }

  /** `obj.name(...)` with `argc` arguments. */
  function CallMember(st: State, self: ObjId, name: string, argc: nat): (o: Out<()>)
    ensures o.st.caller == st.caller && OnlyLogGrows(st, o.st)
    ensures o.st.classes == st.classes && o.st.objs == st.objs
    ensures Lookup(st, self, name).None? ==> o == Out(st, Err(NotAFunction(name)))
    ensures Lookup(st, self, name).Some? ==> o == Invoke(st, self, Lookup(st, self, name).value, argc, name)
  {
    match Lookup(st, self, name)
    case None => Out(st, Err(NotAFunction(name)))
    case Some(m) => Invoke(st, self, m, argc, name)
  }

  /** `x` is the least element of `s`. */
  predicate IsMin(s: set<nat>, x: nat) {
    x in s && forall j :: j in s ==> x <= j
  }

  /** The least key of a non-empty set of arities (for-in order of integer keys). */
  function MinKey(s: set<nat>): (k: nat)
    requires s != {}
    ensures IsMin(s, k)
  {
    MinExists(s);
    var x :| IsMin(s, x); x
  }

  lemma {:induction false} MinExists(s: set<nat>)
    requires s != {}
    ensures exists x :: IsMin(s, x)
    decreases |s|
  {
    var y :| y in s;
    var rest := s - {y};
    if rest == {} {
      assert s == {y};
      assert IsMin(s, y);
    } else {
      MinExists(rest);
      var z :| IsMin(rest, z);
      var m := if y < z then y else z;
      assert IsMin(s, m) by {
        forall j | j in s ensures m <= j { if j != y { assert j in rest; } }
      }
    }
  }

  /**
    `getMethod(name, params)`: the implementation a call would reach, found
    without executing it. Without `params` it yields the entry of least arity.
   */
  function GetMethod(c: ClassDesc, name: string, params: Option<nat>): (r: Option<Impl>)
    ensures r.Some? ==> Normalize(name) in c.proto && !c.proto[Normalize(name)].Field?
    ensures Normalize(name) in c.proto && c.proto[Normalize(name)].Table? ==>
      var ms := c.proto[Normalize(name)].methods;
      && (params.Some? ==> (r.Some? <==> params.value in ms) && (r.Some? ==> r.value == ms[params.value]))
      && (params.None? ==> (r.Some? <==> ms != map[]) && (r.Some? ==> exists k :: IsMin(ms.Keys, k) && r.value == ms[k]))
    ensures Normalize(name) in c.proto && c.proto[Normalize(name)].Func? ==> r == Some(c.proto[Normalize(name)].f)
  {
    var n := Normalize(name);
    if n !in c.proto then None
    else match c.proto[n]
      case Table(_, ms) =>
        if params.None? then (if ms == map[] then None else Some(ms[MinKey(ms.Keys)]))
        else if params.value in ms then Some(ms[params.value]) else None
      case Func(f) => Some(f)
      case Field(_) => None
  }
}

=== FILE: extend.dfy ===
/**
  Per-instance `extend`: an instance gets a private subclass of its class
  (marked with the `$Extended` interface) the first time, then methods added
  to its own member table, then further interfaces on that subclass.
 */
module InstanceExtend {
  import opened Wrappers
  import opened Model
  import opened Dispatch
  import opened Classes
  import opened Construction

  /** The arguments `Class` receives for an instance's private subclass. */
  function PrivateClassArgs(c: ClassId): seq<Arg> {
    [ClassArg(c), ClassArg(ExtendedId), DefsArg([])]
  }

  /** Building the private subclass cannot fail: both parents are templates and there is nothing to merge. */
  lemma PrivateClassBuilt(st: State, c: ClassId)
    requires Valid(st) && c in st.classes
    ensures var built := MakeClass(st, PrivateClassArgs(c));
      built.r.Ok? && built.r.value !in st.classes && ExtendedId in built.st.classes[built.r.value].parents
  {
    var args := PrivateClassArgs(c);
    var pre := args[..2];
    assert pre == [ClassArg(c), ClassArg(ExtendedId)];
    assert Ancestors(st, pre).Ok?;
    assert Contribution(st, pre[1]) == {ExtendedId} + ParentsOf(st, ExtendedId);
  }

  /** Only the instance `self` changes, and only its `$clazz`. */
  function SetClazz(st: State, self: ObjId, c: ClassId): (r: State)
    requires Valid(st) && self in st.objs && c in st.classes
    ensures Valid(r)
    ensures r.objs == st.objs[self := st.objs[self].(cls := c)]
    ensures r.classes == st.classes && r.caller == st.caller && r.log == st.log
    ensures r.failing == st.failing && r.nextClass == st.nextClass && r.nextObj == st.nextObj
  {
    st.(objs := st.objs[self := st.objs[self].(cls := c)])
  }

  /**
    The private subclass of `old_`: a new class deriving from `old_` and
    `$Extended` that carries `old_`'s display name.
   */
  function NewPrivateClass(st: State, old_: ClassId): (r: (State, ClassId))
    requires Valid(st) && old_ in st.classes
    ensures Valid(r.0) && Adds(st, r.0, r.1) && r.1 !in st.classes
    ensures r.0.classes[r.1].name == st.classes[old_].name
    ensures ExtendedId in r.0.classes[r.1].parents
  {
    PrivateClassBuilt(st, old_);
    var args := PrivateClassArgs(old_);
    var built := MakeClass(st, args);
    (SetName(built.st, built.r.value, st.classes[old_].name), built.r.value)
  }

  /** The private subclass's ancestors are `old_`, `$Extended` and their ancestors. */
  lemma PrivateClassParents(st: State, old_: ClassId, a: ClassId)
    requires Valid(st) && old_ in st.classes
    ensures var r := NewPrivateClass(st, old_);
      a in r.0.classes[r.1].parents <==>
        a == old_ || a == ExtendedId || a in st.classes[old_].parents || a in st.classes[ExtendedId].parents
  {
    PrivateClassBuilt(st, old_);
    PrivateContribution(st, old_, a);
  }

  /** What the two parents of the private subclass contribute to its ancestor set. */
  lemma PrivateContribution(st: State, old_: ClassId, a: ClassId)
    requires Valid(st) && old_ in st.classes
    ensures var pre := PrivateClassArgs(old_)[..2];
      (exists j :: 0 <= j < |pre| && a in Contribution(st, pre[j])) <==>
        a == old_ || a == ExtendedId || a in st.classes[old_].parents || a in st.classes[ExtendedId].parents
  {
    var pre := PrivateClassArgs(old_)[..2];
    assert pre == [ClassArg(old_), ClassArg(ExtendedId)];
    assert (exists j :: 0 <= j < 2 && a in Contribution(st, pre[j]))
        <==> a in Contribution(st, pre[0]) || a in Contribution(st, pre[1]);
  }

  /**
    The private subclass's prototype is what `Class(old_, $Extended, [])`
    builds: the shared base prototype with the inherited constructor.
   */
  lemma PrivateClassProto(st: State, old_: ClassId)
    requires Valid(st) && old_ in st.classes
    ensures var r := NewPrivateClass(st, old_);
      r.0.classes[r.1].proto
      == InheritConstructor(BaseProto(st, PrivateClassArgs(old_)), ParentProto(st, PrivateClassArgs(old_)))
  {
    PrivateClassBuilt(st, old_);
    MakeClassBuilt(st, PrivateClassArgs(old_));
  }

  /**
    The first step of `extend`: an instance that is not yet an instance of
    `$Extended` is moved to its private subclass. Its prototype stays where
    it was; an instance already extended keeps its class.
   */
  function Retarget(st: State, self: ObjId): (r: (State, ClassId))
    requires Valid(st) && self in st.objs
    ensures Valid(r.0) && self in r.0.objs && r.1 == r.0.objs[self].cls
    ensures r.0.objs[self].own == st.objs[self].own && r.0.objs[self].protoOf == st.objs[self].protoOf
    ensures IsInstanceOf(r.0, ObjArg(self), ExtendedId)
    ensures IsInstanceOf(st, ObjArg(self), ExtendedId) ==> r.0 == st && r.1 == st.objs[self].cls
    ensures !IsInstanceOf(st, ObjArg(self), ExtendedId) ==>
      && r.1 == st.nextClass && r.1 !in st.classes && r.0.nextClass == st.nextClass + 1
      && r.0.classes.Keys == st.classes.Keys + {r.1}
      && (forall k :: k in st.classes ==> r.0.classes[k] == st.classes[k])
      && r.0.objs == st.objs[self := st.objs[self].(cls := r.1)]
      && r.0.classes[r.1].name == st.classes[st.objs[self].cls].name
    ensures r.0.caller == st.caller && r.0.log == st.log && r.0.failing == st.failing && r.0.nextObj == st.nextObj
  {
    if IsInstanceOf(st, ObjArg(self), ExtendedId) then (st, st.objs[self].cls)
    else MoveToPrivate(st, self)
  }

  /** Moves `self` to a new private subclass of its class. */
  function MoveToPrivate(st: State, self: ObjId): (r: (State, ClassId))
    requires Valid(st) && self in st.objs
    ensures Valid(r.0) && self in r.0.objs && r.1 == r.0.objs[self].cls
    ensures IsInstanceOf(r.0, ObjArg(self), ExtendedId)
    ensures r.1 == st.nextClass && r.1 !in st.classes && r.0.nextClass == st.nextClass + 1
    ensures r.0.classes.Keys == st.classes.Keys + {r.1}
    ensures forall k :: k in st.classes ==> r.0.classes[k] == st.classes[k]
    ensures r.0.objs == st.objs[self := st.objs[self].(cls := r.1)]
    ensures r.0.classes[r.1].name == st.classes[st.objs[self].cls].name
    ensures r.0.caller == st.caller && r.0.log == st.log && r.0.failing == st.failing && r.0.nextObj == st.nextObj
  {
    var nc := NewPrivateClass(st, st.objs[self].cls);
    var moved := SetClazz(nc.0, self, nc.1);
    InstanceOfAncestor(moved, self, ExtendedId);
    (moved, nc.1)
  }

  /** An instance whose class lists `c` among its ancestors is an instance of `c`. */
  lemma InstanceOfAncestor(st: State, self: ObjId, c: ClassId)
    requires self in st.objs && st.objs[self].cls in st.classes && c in st.classes[st.objs[self].cls].parents
    ensures IsInstanceOf(st, ObjArg(self), c)
  {
  }

  /**
    The table a definition named `n` goes into on instance `self` of class
    `c`: an own table as it is; an inherited table as a clone; an inherited
    plain function wrapped into a new table, rebound to `c`; a fresh table
    when there is no truthy member. An own member that is not a table, and
    the constructor table (which has no clone), cannot take a definition.
   */
  function TableToExtend(st: State, self: ObjId, c: ClassId, n: string): (r: Result<Member, Error>)
    requires self in st.objs
    ensures var pv := Lookup(st, self, n);
      var own := n in st.objs[self].own;
      && (r.Err? <==> pv.Some? && pv.value.IsTruthy()
                      && ((own && !pv.value.Table?) || (!own && pv.value.Table? && pv.value.methodName == CNAME)))
      && (r.Err? ==> r.error == NoMethodTable(n))
      && (r.Ok? ==> r.value.Table?)
      && (r.Ok? && pv.Some? && pv.value.Table? ==> r.value.methods == pv.value.methods)
      && (r.Ok? && pv.Some? && pv.value.Func? ==>
            r.value.methods == map[pv.value.f.arity := pv.value.f.(boundTo := c, methodName := n)])
      && (pv.None? || !pv.value.IsTruthy() ==> r == Ok(Table(n, map[])))
  {
    var pv := Lookup(st, self, n);
    if pv.Some? && pv.value.IsTruthy() then
      if n in st.objs[self].own then
        if pv.value.Table? then Ok(pv.value) else Err(NoMethodTable(n))
      else match pv.value
        case Table(_, ms) =>
          var cl := Clone(pv.value);
          if cl.None? then Err(NoMethodTable(n))
          else
            assert cl.value.methods == ms;
            Ok(cl.value)
        case Func(f) => Ok(Table(n, map[f.arity := f.(boundTo := c, methodName := n)]))
        case Field(_) => Ok(Table(n, map[]))
    else Ok(Table(n, map[]))
  }

  /**
    Only the own members of `self` changed, and bodies may have run:
    classes, other instances and the instance's classes are as they were.
   */
  predicate OwnOnly(st: State, st': State, self: ObjId) {
    && self in st.objs && self in st'.objs
    && st'.classes == st.classes && st'.objs.Keys == st.objs.Keys
    && (forall x :: x in st.objs && x != self ==> st'.objs[x] == st.objs[x])
    && st'.objs[self].cls == st.objs[self].cls && st'.objs[self].protoOf == st.objs[self].protoOf
    && st'.caller == st.caller && st'.failing == st.failing
    && st'.nextClass == st.nextClass && st'.nextObj == st.nextObj
    && st.log <= st'.log
  }

  /** Changing only an instance's own members keeps the invariant. */
  lemma OwnOnlyValid(st: State, st': State, self: ObjId)
    requires Valid(st) && OwnOnly(st, st', self)
    ensures Valid(st')
  {
  }

  /** `OwnOnly` composes. */
  lemma OwnOnlyTrans(st: State, st': State, st'': State, self: ObjId)
    requires OwnOnly(st, st', self) && OwnOnly(st', st'', self)
    ensures OwnOnly(st, st'', self)
  {
  }

  /**
    One definition of an instance `extend`: a constructor is run on the
    instance with no arguments and not stored; any other definition is
    stored in the instance's own table under its name and arity, bound to
    the class `c`, replacing whatever that arity held.
   */
  function AddDef(st: State, self: ObjId, c: ClassId, d: Def): (o: Out<()>)
    requires self in st.objs
    ensures OwnOnly(st, o.st, self)
    ensures Normalize(d.name) == CNAME ==> o == RunBody(st, self, d.body, 0)
    ensures Normalize(d.name) != CNAME ==>
      var n := Normalize(d.name);
      var t := TableToExtend(st, self, c, n);
      && o.st.log == st.log
      && (o.r.Err? <==> t.Err?)
      && (o.r.Err? ==> o.st == st && o.r.error == t.error)
      && (o.r.Ok? ==>
            var own' := o.st.objs[self].own;
            && n in own' && own'[n].Table?
            && own'[n].methods.Keys == t.value.methods.Keys + {d.arity}
            && own'[n].methods[d.arity] == Impl(d.body, d.arity, c, n)
            && (forall a :: a in t.value.methods && a != d.arity ==> own'[n].methods[a] == t.value.methods[a])
            && (forall k :: k != n ==> (k in own' <==> k in st.objs[self].own))
            && (forall k :: k != n && k in own' ==> own'[k] == st.objs[self].own[k]))
  {
    var n := Normalize(d.name);
    if n == CNAME then RunBody(st, self, d.body, 0)
    else match TableToExtend(st, self, c, n)
      case Err(e) => Out(st, Err(e))
      case Ok(t) =>
        var x := st.objs[self];
        var t' := Table(t.methodName, t.methods[d.arity := Impl(d.body, d.arity, c, n)]);
        Out(st.(objs := st.objs[self := x.(own := x.own[n := t'])]), Ok(()))
  }

  /** The definitions of an instance `extend`, in order; the first error stops them. */
  function AddDefs(st: State, self: ObjId, c: ClassId, defs: seq<Def>): (o: Out<()>)
    requires self in st.objs
    ensures OwnOnly(st, o.st, self)
    decreases |defs|
  {
    if |defs| == 0 then Out(st, Ok(()))
    else
      var first := AddDef(st, self, c, defs[0]);
      if first.r.Err? then first
      else
        var rest := AddDefs(first.st, self, c, defs[1..]);
        OwnOnlyTrans(st, first.st, rest.st, self);
        rest
  }

  /** Only the ancestor set of class `c` may have grown; nothing else changed. */
  predicate OnlyParentsGrow(st: State, st': State, c: ClassId) {
    && st'.classes.Keys == st.classes.Keys
    && (forall k :: k in st.classes && k != c ==> st'.classes[k] == st.classes[k])
    && c in st.classes
    && st'.classes[c] == st.classes[c].(parents := st'.classes[c].parents)
    && st.classes[c].parents <= st'.classes[c].parents
    && st'.objs == st.objs && st'.caller == st.caller && st'.log == st.log
    && st'.failing == st.failing && st'.nextClass == st.nextClass && st'.nextObj == st.nextObj
  }

  /** Growing one class's ancestor set keeps the invariant and every `instanceOf` that held. */
  lemma ParentsGrowth(st: State, st': State, c: ClassId, a: Arg, t: ClassId)
    requires Valid(st) && OnlyParentsGrow(st, st', c)
    ensures Valid(st')
    ensures IsInstanceOf(st, a, t) ==> IsInstanceOf(st', a, t)
  {
    ValidAfterClassEdit(st, st');
    ParentsGrowthInstance(st, st', c, a, t);
  }

  /** Growing an ancestor set keeps every positive `instanceOf` answer. */
  lemma ParentsGrowthInstance(st: State, st': State, c: ClassId, a: Arg, t: ClassId)
    requires OnlyParentsGrow(st, st', c)
    ensures IsInstanceOf(st, a, t) ==> IsInstanceOf(st', a, t)
  {
    assert ClazzOf(st', a) == ClazzOf(st, a);
    if ClazzOf(st, a).Some? {
      assert ParentsOf(st, ClazzOf(st, a).value) <= ParentsOf(st', ClazzOf(st, a).value);
    }
  }

  /** `OnlyParentsGrow` composes. */
  lemma ParentsGrowthTrans(st: State, st': State, st'': State, c: ClassId)
    requires OnlyParentsGrow(st, st', c) && OnlyParentsGrow(st', st'', c)
    ensures OnlyParentsGrow(st, st'', c)
  {
  }

  /** `c.$parents[a] = true` for a template `a`. */
  function GrowParents(st: State, c: ClassId, a: Arg): (r: State)
    requires Valid(st) && c in st.classes
    ensures OnlyParentsGrow(st, r, c)
    ensures forall x :: x in r.classes[c].parents <==> x in st.classes[c].parents || a == ClassArg(x)
  {
    var cd := st.classes[c];
    var added := if a.ClassArg? then cd.parents + {a.id} else cd.parents;
    st.(classes := st.classes[c := cd.(parents := added)])
  }

  /** Every argument of `args[i..l]` is an instance of `Interface`. */
  predicate AllInterfaces(st: State, args: seq<Arg>, i: nat, l: nat)
    requires i <= l <= |args|
  {
    forall j :: i <= j < l ==> IsInstanceOf(st, args[j], InterfaceMeta)
  }

  /** Every template in `args[i..l]` is among the ancestors of `c`. */
  predicate AllAdded(st: State, c: ClassId, args: seq<Arg>, i: nat, l: nat)
    requires i <= l <= |args| && c in st.classes
  {
    forall j :: i <= j < l && args[j].ClassArg? ==> args[j].id in st.classes[c].parents
  }

  /** Extending both facts from `args[i+1..l]` to `args[i..l]`. */
  lemma AllInterfacesStep(st: State, c: ClassId, args: seq<Arg>, i: nat, l: nat)
    requires i < l <= |args| && c in st.classes
    requires AllInterfaces(st, args, i + 1, l) && AllAdded(st, c, args, i + 1, l)
    requires IsInstanceOf(st, args[i], InterfaceMeta)
    requires args[i].ClassArg? ==> args[i].id in st.classes[c].parents
    ensures AllInterfaces(st, args, i, l) && AllAdded(st, c, args, i, l)
  {
  }

  /**
    The interface arguments `args[i..l]` of an instance `extend`: each must
    be an instance of `Interface` and is added, by itself, to the ancestor
    set of class `c`; the first other argument throws, naming its index.
   */
  function AddInterfaces(st: State, c: ClassId, args: seq<Arg>, i: nat, l: nat): (o: Out<()>)
    requires Valid(st) && c in st.classes && i <= l <= |args|
    ensures Valid(o.st) && OnlyParentsGrow(st, o.st, c)
    ensures o.r.Err? ==> exists j :: i <= j < l && o.r.error == InvalidArgument(j)
                                   && !IsInstanceOf(o.st, args[j], InterfaceMeta)
    ensures o.r.Ok? ==> AllInterfaces(o.st, args, i, l) && AllAdded(o.st, c, args, i, l)
    ensures forall a :: a in o.st.classes[c].parents ==>
      a in st.classes[c].parents || exists j :: i <= j < l && args[j] == ClassArg(a)
    decreases l - i
  {
    if i == l then Out(st, Ok(()))
    else if !IsInstanceOf(st, args[i], InterfaceMeta) then Out(st, Err(InvalidArgument(i)))
    else
      var st1 := GrowParents(st, c, args[i]);
      ParentsGrowth(st, st1, c, args[i], InterfaceMeta);
      var rest := AddInterfaces(st1, c, args, i + 1, l);
      ParentsGrowthTrans(st, st1, rest.st, c);
      ParentsGrowth(st1, rest.st, c, args[i], InterfaceMeta);
      if rest.r.Ok? then
        AllInterfacesStep(rest.st, c, args, i, l);
        rest
      else rest
  }

  /**
    What an instance `extend` may change: other instances stay as they were,
    no instance changes its prototype, and no existing class changes its
    prototype.
   */
  predicate Frame(st: State, st': State, self: ObjId) {
    && self in st.objs && self in st'.objs
    && st'.objs.Keys == st.objs.Keys
    && (forall x :: x in st.objs && x != self ==> st'.objs[x] == st.objs[x])
    && st'.objs[self].protoOf == st.objs[self].protoOf
    && (forall k :: k in st.classes ==> k in st'.classes && st'.classes[k].proto == st.classes[k].proto)
    && st'.caller == st.caller
  }

  /** `Frame` composes. */
  lemma FrameTrans(st: State, st': State, st'': State, self: ObjId)
    requires Frame(st, st', self) && Frame(st', st'', self)
    ensures Frame(st, st'', self)
  {
  }

  /** Moving an instance to its private subclass stays within the frame. */
  lemma MoveFrame(st: State, self: ObjId)
    requires Valid(st) && self in st.objs
    ensures Frame(st, MoveToPrivate(st, self).0, self)
  {
    var r := MoveToPrivate(st, self);
    ClassChangeFrame(st, r.0, self, r.1);
  }

  /** Changing only the `$clazz` of `self` and adding classes stays within the frame. */
  lemma ClassChangeFrame(st: State, st': State, self: ObjId, c: ClassId)
    requires self in st.objs && st'.objs == st.objs[self := st.objs[self].(cls := c)]
    requires st.classes.Keys <= st'.classes.Keys
    requires forall k :: k in st.classes ==> st'.classes[k] == st.classes[k]
    requires st'.caller == st.caller
    ensures Frame(st, st', self)
  {
  }

  /** Retargeting stays within the frame. */
  lemma RetargetFrame(st: State, self: ObjId)
    requires Valid(st) && self in st.objs
    ensures Frame(st, Retarget(st, self).0, self)
  {
    if !IsInstanceOf(st, ObjArg(self), ExtendedId) {
      MoveFrame(st, self);
    }
  }

  /** Changing only own members stays within the frame. */
  lemma OwnOnlyFrame(st: State, st': State, self: ObjId)
    requires OwnOnly(st, st', self)
    ensures Frame(st, st', self)
  {
  }

  /** Growing a class's ancestors stays within the frame. */
  lemma GrowFrame(st: State, st': State, c: ClassId, self: ObjId)
    requires OnlyParentsGrow(st, st', c) && self in st.objs
    ensures Frame(st, st', self)
  {
  }

  /** The definitions of an instance `extend` call: its last argument when that is an array. */
  function DefsOf(args: seq<Arg>): seq<Def> {
    if |args| > 0 && args[|args| - 1].DefsArg? then args[|args| - 1].defs else []
  }

  /**
    `obj.extend(interfaces..., [defs])`: move the instance to its private
    subclass if needed, add the definitions, then the interfaces; the
    instance itself is the result.
   */
  function ExtendInstance(st: State, self: ObjId, args: seq<Arg>): (o: Out<ObjId>)
    requires Valid(st) && self in st.objs
    ensures Valid(o.st) && Frame(st, o.st, self)
    ensures IsInstanceOf(o.st, ObjArg(self), ExtendedId)
    // memoised: an instance already extended gets no new class
    ensures IsInstanceOf(st, ObjArg(self), ExtendedId) ==>
      o.st.nextClass == st.nextClass && o.st.objs[self].cls == st.objs[self].cls
    ensures !IsInstanceOf(st, ObjArg(self), ExtendedId) ==>
      o.st.nextClass == st.nextClass + 1 && o.st.objs[self].cls == st.nextClass
    ensures o.r.Ok? ==> o.r.value == self
  {
    var rt := Retarget(st, self);
    RetargetFrame(st, self);
    var c := rt.1;
    var l := if |args| > 0 && args[|args| - 1].DefsArg? then |args| - 1 else |args|;
    var added := AddDefs(rt.0, self, c, DefsOf(args));
    OwnOnlyValid(rt.0, added.st, self);
    OwnOnlyFrame(rt.0, added.st, self);
    FrameTrans(st, rt.0, added.st, self);
    InstanceOfAncestorKept(rt.0, added.st, self);
    if added.r.Err? then Out(added.st, Err(added.r.error))
    else
      var ifs := AddInterfaces(added.st, c, args, 0, l);
      GrowFrame(added.st, ifs.st, c, self);
      FrameTrans(st, added.st, ifs.st, self);
      ParentsGrowth(added.st, ifs.st, c, ObjArg(self), ExtendedId);
      Out(ifs.st, if ifs.r.Err? then Err(ifs.r.error) else Ok(self))
  }

  /**
    The instances after `extend` are those after its definitions: the
    interfaces that follow change only ancestor sets, and an error in the
    definitions stops the call there.
   */
  lemma ExtendOwn(st: State, self: ObjId, args: seq<Arg>)
    requires Valid(st) && self in st.objs
    ensures var rt := Retarget(st, self);
      var added := AddDefs(rt.0, self, rt.1, DefsOf(args));
      var o := ExtendInstance(st, self, args);
      && o.st.objs == added.st.objs && o.st.objs[self].cls == rt.1
      && (o.r.Ok? ==> added.r.Ok?)
      && (added.r.Err? ==> o == Out(added.st, Err(added.r.error)))
      // with no interfaces the call is its definitions
      && (|args| == 1 && args[0].DefsArg? ==> o.st == added.st && (o.r.Ok? <==> added.r.Ok?))
  {
    var rt := Retarget(st, self);
    var added := AddDefs(rt.0, self, rt.1, DefsOf(args));
    OwnOnlyValid(rt.0, added.st, self);
    var l := if |args| > 0 && args[|args| - 1].DefsArg? then |args| - 1 else |args|;
    ExtendUnfold(st, self, args);
    if added.r.Ok? {
      var ifs := AddInterfaces(added.st, rt.1, args, 0, l);
      assert ifs.st.objs == added.st.objs;
      if |args| == 1 && args[0].DefsArg? {
        assert ifs == Out(added.st, Ok(()));
      }
    }
  }

  /** `ExtendInstance` spelled out in terms of its three stages. */
  lemma ExtendUnfold(st: State, self: ObjId, args: seq<Arg>)
    requires Valid(st) && self in st.objs
    ensures var rt := Retarget(st, self);
      var added := AddDefs(rt.0, self, rt.1, DefsOf(args));
      var l := if |args| > 0 && args[|args| - 1].DefsArg? then |args| - 1 else |args|;
      Valid(added.st) && rt.1 in added.st.classes &&
      ExtendInstance(st, self, args) ==
        if added.r.Err? then Out(added.st, Err(added.r.error))
        else
          var ifs := AddInterfaces(added.st, rt.1, args, 0, l);
          Out(ifs.st, if ifs.r.Err? then Err(ifs.r.error) else Ok(self))
  {
    var rt := Retarget(st, self);
    OwnOnlyValid(rt.0, AddDefs(rt.0, self, rt.1, DefsOf(args)).st, self);
  }

  /** Changing an instance's own members keeps every `instanceOf` about it. */
  lemma InstanceOfAncestorKept(st: State, st': State, self: ObjId)
    requires self in st.objs && self in st'.objs && st'.classes == st.classes
    requires st'.objs[self].cls == st.objs[self].cls
    ensures IsInstanceOf(st, ObjArg(self), ExtendedId) ==> IsInstanceOf(st', ObjArg(self), ExtendedId)
  {
  }
}

=== FILE: extend_properties.dfy ===
/**
  Properties of per-instance `extend`: definitions end up callable on the
  instance, earlier ones survive later calls, constructors run instead of
  being stored, and inherited tables are copied rather than changed.
 */
module InstanceExtendProperties {
  import opened Wrappers
  import opened Model
  import opened Dispatch
  import opened Classes
  import opened InstanceExtend

  /** The instance's own table under `n` holds `impl` at arity `a`. */
  predicate Installed(st: State, self: ObjId, n: string, a: nat, impl: Impl) {
    && self in st.objs && n in st.objs[self].own && st.objs[self].own[n].Table?
    && a in st.objs[self].own[n].methods && st.objs[self].own[n].methods[a] == impl
  }

  /** The own slot a non-constructor definition targets. */
  predicate Targets(d: Def, n: string, a: nat) {
    Normalize(d.name) != CNAME && Normalize(d.name) == n && d.arity == a
  }

  /** A non-constructor definition that went through is installed at its slot, bound to `c`. */
  lemma AddDefInstalls(st: State, self: ObjId, c: ClassId, d: Def)
    requires self in st.objs
    requires AddDef(st, self, c, d).r.Ok? && Normalize(d.name) != CNAME
    ensures Installed(AddDef(st, self, c, d).st, self, Normalize(d.name), d.arity,
                      Impl(d.body, d.arity, c, Normalize(d.name)))
  {
  }

  /** One step of a batch: the first definition, then the rest unless the first threw. */
  lemma AddDefsStep(st: State, self: ObjId, c: ClassId, defs: seq<Def>)
    requires self in st.objs && |defs| > 0
    ensures var first := AddDef(st, self, c, defs[0]);
      AddDefs(st, self, c, defs) == if first.r.Err? then first else AddDefs(first.st, self, c, defs[1..])
  {
  }

  /** A definition that does not target `(n, a)` leaves an installed entry there. */
  lemma AddDefKeeps(st: State, self: ObjId, c: ClassId, d: Def, n: string, a: nat, impl: Impl)
    requires self in st.objs
    requires Installed(st, self, n, a, impl) && !Targets(d, n, a)
    ensures Installed(AddDef(st, self, c, d).st, self, n, a, impl)
  {
    var m := Normalize(d.name);
    if m != CNAME && m == n {
      assert TableToExtend(st, self, c, n).Ok? ==> TableToExtend(st, self, c, n).value.methods == st.objs[self].own[n].methods;
    }
  }

  /** No definition of `defs` targets the slot `(n, a)`. */
  predicate NoneTarget(defs: seq<Def>, n: string, a: nat) {
    forall j :: 0 <= j < |defs| ==> !Targets(defs[j], n, a)
  }

  /** The definitions after position `i` that target nothing at `(n, a)`, as a suffix. */
  lemma NoneTargetSuffix(defs: seq<Def>, i: int, n: string, a: nat)
    requires -1 <= i < |defs|
    requires forall j :: i < j < |defs| ==> !Targets(defs[j], n, a)
    ensures NoneTarget(defs[i + 1..], n, a)
  {
    var s := defs[i + 1..];
    assert forall j :: 0 <= j < |s| ==> s[j] == defs[j + i + 1];
  }

  /** A batch without a definition for `(n, a)` leaves an installed entry there. */
  lemma {:induction false} AddDefsKeeps(st: State, self: ObjId, c: ClassId, defs: seq<Def>, n: string, a: nat, impl: Impl)
    requires self in st.objs
    requires Installed(st, self, n, a, impl) && NoneTarget(defs, n, a)
    ensures Installed(AddDefs(st, self, c, defs).st, self, n, a, impl)
    decreases |defs|
  {
    if |defs| > 0 {
      AddDefsStep(st, self, c, defs);
      AddDefKeeps(st, self, c, defs[0], n, a, impl);
      var first := AddDef(st, self, c, defs[0]);
      if first.r.Ok? {
        NoneTargetSuffix(defs, 0, n, a);
        AddDefsKeeps(first.st, self, c, defs[1..], n, a, impl);
      }
    }
  }

  /** The first definition of a batch, when nothing after it targets its slot, stays installed. */
  lemma AddDefsInstalledHead(st: State, self: ObjId, c: ClassId, defs: seq<Def>)
    requires self in st.objs && |defs| > 0
    requires AddDefs(st, self, c, defs).r.Ok? && Normalize(defs[0].name) != CNAME
    requires NoneTarget(defs[1..], Normalize(defs[0].name), defs[0].arity)
    ensures Installed(AddDefs(st, self, c, defs).st, self,
                      Normalize(defs[0].name), defs[0].arity,
                      Impl(defs[0].body, defs[0].arity, c, Normalize(defs[0].name)))
  {
    AddDefsStep(st, self, c, defs);
    AddDefInstalls(st, self, c, defs[0]);
    AddDefsKeeps(AddDef(st, self, c, defs[0]).st, self, c, defs[1..], Normalize(defs[0].name), defs[0].arity,
                 Impl(defs[0].body, defs[0].arity, c, Normalize(defs[0].name)));
  }

  /** A batch that went through ends where the rest of it, run after its first definition, ends. */
  lemma AddDefsNext(st: State, self: ObjId, c: ClassId, defs: seq<Def>) returns (st1: State)
    requires self in st.objs && |defs| > 0 && AddDefs(st, self, c, defs).r.Ok?
    ensures self in st1.objs && AddDefs(st1, self, c, defs[1..]).r.Ok?
    ensures AddDefs(st, self, c, defs).st == AddDefs(st1, self, c, defs[1..]).st
  {
    AddDefsStep(st, self, c, defs);
    st1 := AddDef(st, self, c, defs[0]).st;
  }

  /**
    After a batch that went through, each non-constructor definition that
    is the last one for its name and arity is callable on the instance,
    bound to the class `c`.
   */
  lemma {:induction false} AddDefsInstalled(st: State, self: ObjId, c: ClassId, defs: seq<Def>, i: nat)
    requires self in st.objs
    requires AddDefs(st, self, c, defs).r.Ok?
    requires i < |defs| && Normalize(defs[i].name) != CNAME
    requires NoneTarget(defs[i + 1..], Normalize(defs[i].name), defs[i].arity)
    ensures Installed(AddDefs(st, self, c, defs).st, self, Normalize(defs[i].name), defs[i].arity,
                      Impl(defs[i].body, defs[i].arity, c, Normalize(defs[i].name)))
    decreases |defs|
  {
    var n := Normalize(defs[i].name);
    var impl := Impl(defs[i].body, defs[i].arity, c, n);
    if i == 0 {
      AddDefsInstalledHead(st, self, c, defs);
    } else {
      var st1 := AddDefsNext(st, self, c, defs);
      var rest := defs[1..];
      var j := i - 1;
      assert rest[j] == defs[i];
      assert rest[j + 1..] == defs[i + 1..];
      AddDefsInstalled(st1, self, c, rest, j);
    }
  }

  /** An `extend` call with one definition and nothing else is that definition on the retargeted instance. */
  lemma ExtendSingle(st: State, self: ObjId, d: Def)
    requires Valid(st) && self in st.objs
    ensures var rt := Retarget(st, self);
      var o := ExtendInstance(st, self, [DefsArg([d])]);
      var first := AddDef(rt.0, self, rt.1, d);
      o.st == first.st && (o.r.Ok? <==> first.r.Ok?)
  {
    var rt := Retarget(st, self);
    ExtendOwn(st, self, [DefsArg([d])]);
    AddDefsOne(rt.0, self, rt.1, d);
  }

  /** A batch of one definition is that definition. */
  lemma AddDefsOne(st: State, self: ObjId, c: ClassId, d: Def)
    requires self in st.objs
    ensures AddDefs(st, self, c, [d]) == AddDef(st, self, c, d)
  {
    AddDefsStep(st, self, c, [d]);
    assert [d][1..] == [];
  }

  /**
    An `extend` call that went through leaves each of its (last-per-slot,
    non-constructor) definitions callable on the instance, bound to the
    instance's class.
   */
  lemma ExtendInstalls(st: State, self: ObjId, args: seq<Arg>, i: nat)
    requires Valid(st) && self in st.objs
    requires ExtendInstance(st, self, args).r.Ok?
    requires i < |DefsOf(args)| && Normalize(DefsOf(args)[i].name) != CNAME
    requires NoneTarget(DefsOf(args)[i + 1..], Normalize(DefsOf(args)[i].name), DefsOf(args)[i].arity)
    ensures var o := ExtendInstance(st, self, args);
      var d := DefsOf(args)[i];
      Installed(o.st, self, Normalize(d.name), d.arity, Impl(d.body, d.arity, o.st.objs[self].cls, Normalize(d.name)))
  {
    var rt := Retarget(st, self);
    ExtendOwn(st, self, args);
    AddDefsInstalled(rt.0, self, rt.1, DefsOf(args), i);
  }

  /** An `extend` call without a definition for `(n, a)` keeps an installed entry there. */
  lemma ExtendKeeps(st: State, self: ObjId, args: seq<Arg>, n: string, a: nat, impl: Impl)
    requires Valid(st) && self in st.objs && Installed(st, self, n, a, impl)
    requires NoneTarget(DefsOf(args), n, a)
    ensures Installed(ExtendInstance(st, self, args).st, self, n, a, impl)
  {
    var rt := Retarget(st, self);
    ExtendOwn(st, self, args);
    AddDefsKeeps(rt.0, self, rt.1, DefsOf(args), n, a, impl);
  }

  /**
    Two `extend` calls that add the same name at two arities leave both
    callable on the instance, both bound to the instance's one private class.
   */
  lemma ExtendTwiceCoexist(st: State, self: ObjId, d1: Def, d2: Def)
    requires Valid(st) && self in st.objs
    requires Normalize(d1.name) != CNAME && Normalize(d1.name) == Normalize(d2.name) && d1.arity != d2.arity
    requires ExtendInstance(st, self, [DefsArg([d1])]).r.Ok?
    requires ExtendInstance(ExtendInstance(st, self, [DefsArg([d1])]).st, self, [DefsArg([d2])]).r.Ok?
    ensures var o1 := ExtendInstance(st, self, [DefsArg([d1])]);
      var o2 := ExtendInstance(o1.st, self, [DefsArg([d2])]);
      var n := Normalize(d1.name);
      var c := o2.st.objs[self].cls;
      && c == o1.st.objs[self].cls
      && Installed(o2.st, self, n, d1.arity, Impl(d1.body, d1.arity, c, n))
      && Installed(o2.st, self, n, d2.arity, Impl(d2.body, d2.arity, c, n))
  {
    var o1 := ExtendInstance(st, self, [DefsArg([d1])]);
    var n := Normalize(d1.name);
    ExtendInstallsOne(st, self, d1);
    ExtendKeepsOne(o1.st, self, d2, n, d1.arity, Impl(d1.body, d1.arity, o1.st.objs[self].cls, n));
    ExtendInstallsOne(o1.st, self, d2);
  }

  /** A single definition given to `extend` that went through is installed, bound to the instance's class. */
  lemma ExtendInstallsOne(st: State, self: ObjId, d: Def)
    requires Valid(st) && self in st.objs && Normalize(d.name) != CNAME
    ensures var o := ExtendInstance(st, self, [DefsArg([d])]);
      var n := Normalize(d.name);
      o.r.Ok? ==> Installed(o.st, self, n, d.arity, Impl(d.body, d.arity, o.st.objs[self].cls, n))
  {
    var rt := Retarget(st, self);
    ExtendSingle(st, self, d);
    if AddDef(rt.0, self, rt.1, d).r.Ok? {
      AddDefInstalls(rt.0, self, rt.1, d);
    }
  }

  /** A single definition given to `extend` keeps an installed entry at any other slot. */
  lemma ExtendKeepsOne(st: State, self: ObjId, d: Def, n: string, a: nat, impl: Impl)
    requires Valid(st) && self in st.objs && Installed(st, self, n, a, impl) && !Targets(d, n, a)
    ensures Installed(ExtendInstance(st, self, [DefsArg([d])]).st, self, n, a, impl)
  {
    var rt := Retarget(st, self);
    ExtendSingle(st, self, d);
    AddDefKeeps(rt.0, self, rt.1, d, n, a, impl);
  }

  /**
    A constructor given to `extend` is run once on the instance with no
    arguments, under the current caller slot, and is not stored.
   */
  lemma ExtendRunsConstructor(st: State, self: ObjId, d: Def)
    requires Valid(st) && self in st.objs && Normalize(d.name) == CNAME
    ensures var o := ExtendInstance(st, self, [DefsArg([d])]);
      && o.st.objs[self].own == st.objs[self].own
      && o.st.log == st.log + [Run(self, d.body, st.caller, 0)]
      && (o.r.Err? <==> d.body in st.failing)
  {
    var rt := Retarget(st, self);
    assert rt.0.objs[self].own == st.objs[self].own;
    ExtendSingle(st, self, d);
  }

  /** `AddDef` on a name the instance inherits as a table keeps the table's other arities. */
  lemma AddDefCopiesInherited(st: State, self: ObjId, c: ClassId, d: Def, a: nat)
    requires self in st.objs
    requires var n := Normalize(d.name);
      && n != CNAME && n !in st.objs[self].own
      && Lookup(st, self, n).Some? && Lookup(st, self, n).value.Table?
    requires AddDef(st, self, c, d).r.Ok?
    requires a in Lookup(st, self, Normalize(d.name)).value.methods && a != d.arity
    ensures Installed(AddDef(st, self, c, d).st, self, Normalize(d.name), a,
                      Lookup(st, self, Normalize(d.name)).value.methods[a])
  {
  }

  /**
    Adding an arity to an inherited overload table works on a copy: the
    instance's new own table keeps every other inherited arity, while the
    prototype that holds the original is left as it was.
   */
  lemma ExtendCopiesInherited(st: State, self: ObjId, d: Def, a: nat)
    requires Valid(st) && self in st.objs
    requires var n := Normalize(d.name);
      && n != CNAME && n !in st.objs[self].own
      && Lookup(st, self, n).Some? && Lookup(st, self, n).value.Table?
    requires ExtendInstance(st, self, [DefsArg([d])]).r.Ok?
    requires a in Lookup(st, self, Normalize(d.name)).value.methods && a != d.arity
    ensures var o := ExtendInstance(st, self, [DefsArg([d])]);
      var n := Normalize(d.name);
      var p := st.objs[self].protoOf;
      && Installed(o.st, self, n, a, Lookup(st, self, n).value.methods[a])
      && o.st.classes[p].proto == st.classes[p].proto
  {
    var n := Normalize(d.name);
    var rt := Retarget(st, self);
    assert Lookup(rt.0, self, n) == Lookup(st, self, n);
    ExtendSingle(st, self, d);
    AddDefCopiesInherited(rt.0, self, rt.1, d, a);
  }

  /**
    A non-interface argument before the definitions makes `extend` throw
    "Invalid argument" naming it; when `extend` goes through, every such
    argument is an interface and every template among them is now an
    ancestor of the instance's class.
   */
  lemma ExtendInterfaces(st: State, self: ObjId, args: seq<Arg>)
    requires Valid(st) && self in st.objs && !(|args| > 0 && args[|args| - 1].DefsArg?)
    ensures var o := ExtendInstance(st, self, args);
      var c := o.st.objs[self].cls;
      && (o.r.Err? ==> exists j :: 0 <= j < |args| && o.r.error == InvalidArgument(j)
                                 && !IsInstanceOf(o.st, args[j], InterfaceMeta))
      && (o.r.Ok? ==> forall j :: 0 <= j < |args| && args[j].ClassArg? ==> args[j].id in o.st.classes[c].parents)
  {
    var rt := Retarget(st, self);
    var ifs := AddInterfaces(rt.0, rt.1, args, 0, |args|);
    assert ExtendInstance(st, self, args).st == ifs.st;
    if ifs.r.Ok? {
      assert AllAdded(ifs.st, rt.1, args, 0, |args|);
    }
  }
}

=== FILE: model.dfy ===
/**
  Data model of zebra's easy-OOP runtime (lib/zebra/easyoop.js).

  A class is a record held in a class table under a numeric id (the source
  gives every template a unique `$hash$`); ids 0 and 1 are the two metaclasses
  `Class` and `Interface`, id 2 is the `$Extended` marker interface that
  per-instance extension attaches. An instance records the class its `$clazz`
  points at and, separately, the class whose prototype it was created from:
  per-instance extension retargets the first but never the second.
 */
module Model {
  import opened Wrappers

  type ClassId = nat
  type ObjId = nat

  /** The metaclass `Class`; every ordinary class template has it as `$clazz`. */
  const ClassMeta: ClassId := 0
  /** The metaclass `Interface`; every interface template has it as `$clazz`. */
  const InterfaceMeta: ClassId := 1
  /** The `$Extended` interface, created when the library loads. */
  const ExtendedId: ClassId := 2

  /** Internal member name of constructors. */
  const CNAME: string := "$"
  /** The name a user-declared constructor (an anonymous function) reports. */
  const CDNAME: string := ""

  /** A user-declared constructor name maps to the internal constructor name. */
  function Normalize(name: string): (n: string)
    ensures n == CNAME <==> name == CDNAME || name == CNAME
    ensures n != name ==> name == CDNAME
  {
    if name == CDNAME then CNAME else name
  }

  /**
    One bound implementation: an opaque body, its declared arity
    (`Function.length`), the class it is bound to (`boundTo`) and the
    method name it was registered under (`methodName`).
   */
  datatype Impl = Impl(body: nat, arity: nat, boundTo: ClassId, methodName: string)

  /** A plain JavaScript value; only its truthiness and null-ness matter here. */
  datatype Value = Null | Falsy | Truthy(token: nat)

  /**
    A prototype slot: an overload table (a `ProxyMethod` without `f`, keyed by
    arity), a plain function installed by the `$prototype` directive, or a
    plain field.
   */
  datatype Member =
    | Table(methodName: string, methods: map<nat, Impl>)
    | Func(f: Impl)
    | Field(v: Value)
  {
    /** JavaScript truthiness of the slot's value. */
    predicate IsTruthy() {
      !Field? || v.Truthy?
    }
  }

  type Proto = map<string, Member>

  /**
    A class or interface template: its `$clazz` (`meta`), its `$parent`, its
    `$parents` ancestor set, its prototype members and its display `$name`.
   */
  datatype ClassDesc = ClassDesc(
    meta: Option<ClassId>,
    parent: Option<ClassId>,
    parents: set<ClassId>,
    proto: Proto,
    name: Option<string>)

  /**
    An instance: `cls` is its `$clazz`, `protoOf` the class whose prototype it
    delegates to, `own` its own (per-instance) members.
   */
  datatype Obj = Obj(cls: ClassId, protoOf: ClassId, own: Proto)

  /**
    One execution of an opaque body on `self` with `argc` arguments, with the
    caller slot as it was during the run.
   */
  datatype Run = Run(self: ObjId, body: nat, caller: Option<Impl>, argc: nat)

  /**
    The whole runtime: class table, instance heap, the `$caller` slot, the
    log of body executions, the bodies that throw when run, and the id
    counters.
   */
  datatype State = State(
    classes: map<ClassId, ClassDesc>,
    objs: map<ObjId, Obj>,
    caller: Option<Impl>,
    log: seq<Run>,
    failing: set<nat>,
    nextClass: ClassId,
    nextObj: ObjId)

  /** The errors the runtime throws. */
  datatype Error =
    | NoClassDefinition                   // "No class definition was found"
    | InvalidClassDefinition              // "Invalid class definition was found"
    | WrongDefinitionFormat               // "Wrong class definition format ..., array is expected"
    | InvalidParentClass                  // ReferenceError "Invalid parent class"
    | UndefinedParent(index: nat)         // ReferenceError "Undefined parent class or interface [i]"
    | MethodNotFound(className: Option<string>, name: string, argc: nat)
    | DuplicatedMethod(name: string, arity: nat)
    | ConflictsToProperty(name: string)
    | OutsideClassContext                 // "$super is called outside of class context"
    | InvalidArgument(index: nat)         // instance extend: "Invalid argument"
    | UnknownClass                        // "instanceOf(): unknown class"
    | NotAFunction(name: string)          // host TypeError calling a non-function
    | NoMethodTable(name: string)         // host TypeError writing into a missing `methods`
    | BodyThrew(body: nat)                // an opaque body threw

  /** A definition in a class body: a named function with its arity and opaque body. */
  datatype ProtoVal = PFunc(body: nat, arity: nat) | PValue(v: Value)

  /**
    A function in a definition array. `fields` is what the body produces when
    it is the `$prototype` directive; it is ignored for every other name.
   */
  datatype Def = Def(name: string, arity: nat, body: nat, fields: seq<(string, ProtoVal)>)

  /** An argument passed to `Class`, to a constructor, to `extend` or to `$super`. */
  datatype Arg =
    | NullArg
    | ValueArg                 // any non-function, non-array value
    | FuncArg(f: Impl)         // a function that is not a template
    | ClassArg(id: ClassId)    // a class, interface or metaclass template
    | ObjArg(obj: ObjId)       // an instance
    | DefsArg(defs: seq<Def>)  // an array of functions

  /** An operation's final state together with its value or the error it threw. */
  datatype Out<+T> = Out(st: State, r: Result<T, Error>)

  /** `typeof a === "function"`. */
  predicate IsFunctionArg(a: Arg) {
    a.FuncArg? || a.ClassArg?
  }

  /** Every class's parent was created before it, so `$parent` chains end. */
  predicate ParentsDecrease(classes: map<ClassId, ClassDesc>) {
    forall c :: c in classes && classes[c].parent.Some? ==> classes[c].parent.value < c
  }

  /** The invariant every reachable state keeps. */
  predicate Valid(st: State) {
    && ClassMeta in st.classes && InterfaceMeta in st.classes && ExtendedId in st.classes
    && ParentsDecrease(st.classes)
    && (forall c :: c in st.classes ==> c < st.nextClass)
    && (forall c :: c in st.classes && st.classes[c].parent.Some? ==> st.classes[c].parent.value in st.classes)
    && (forall c :: c in st.classes && st.classes[c].meta.Some? ==> st.classes[c].meta.value in st.classes)
    && (forall o :: o in st.objs ==> o < st.nextObj)
    && (forall o :: o in st.objs ==> st.objs[o].cls in st.classes && st.objs[o].protoOf in st.classes)
  }

  /** Editing the prototypes or names of existing classes keeps the invariant. */
  lemma ValidAfterClassEdit(st: State, st': State)
    requires Valid(st)
    requires st'.classes.Keys == st.classes.Keys
    requires forall c :: c in st.classes ==>
      st'.classes[c].parent == st.classes[c].parent && st'.classes[c].meta == st.classes[c].meta
    requires st'.objs == st.objs && st'.nextClass == st.nextClass && st'.nextObj == st.nextObj
    ensures Valid(st')
  {
  }

  /** The state right after the library has loaded: the two metaclasses and `$Extended`. */
  function Init(failing: set<nat>): (st: State)
    ensures Valid(st)
    ensures st.caller.None? && st.objs == map[]
  {
    var meta := ClassDesc(None, None, {}, map[], None);
    State(map[ClassMeta := meta, InterfaceMeta := meta,
              ExtendedId := ClassDesc(Some(InterfaceMeta), None, {}, map[], None)],
          map[], None, [], failing, 3, 0)
  }

  /** The `$clazz` of an argument, if it has one. */
  function ClazzOf(st: State, a: Arg): Option<ClassId> {
    match a
    case ClassArg(id) => if id in st.classes then st.classes[id].meta else None
    case ObjArg(o) => if o in st.objs then Some(st.objs[o].cls) else None
    case _ => None
  }

  /** The ancestor set of a class, empty when it has none. */
  function ParentsOf(st: State, c: ClassId): set<ClassId> {
    if c in st.classes then st.classes[c].parents else {}
  }

  /** The membership test of `instanceOf` for a non-null class argument. */
  predicate IsInstanceOf(st: State, a: Arg, target: ClassId) {
    var c := ClazzOf(st, a);
    c.Some? && (c.value == target || target in ParentsOf(st, c.value))
  }

  /** `this[name]` on an instance: its own member, else its prototype's. */
  function Lookup(st: State, self: ObjId, name: string): (r: Option<Member>)
    ensures r.Some? ==> self in st.objs
    ensures self in st.objs && name in st.objs[self].own ==> r == Some(st.objs[self].own[name])
    // a name the instance does not hold itself comes from its prototype, if that has it
    ensures self in st.objs && name !in st.objs[self].own ==>
      var c := st.objs[self].protoOf;
      r == (if c in st.classes && name in st.classes[c].proto then Some(st.classes[c].proto[name]) else None)
  {
    if self !in st.objs then None
    else
      var o := st.objs[self];
      if name in o.own then Some(o.own[name])
      else if o.protoOf in st.classes && name in st.classes[o.protoOf].proto then
        Some(st.classes[o.protoOf].proto[name])
      else None
  }

  /** The `$name` of an instance's class, as `mnf` prefixes it. */
  function ClassNameOf(st: State, self: ObjId): Option<string> {
    if self in st.objs && st.objs[self].cls in st.classes then st.classes[st.objs[self].cls].name
    else None
  }
}

=== FILE: namespace_properties.dfy ===
/**
  What a package request `f(name)` does to a namespace
  (lib/zebra/easyoop.js:126-166): every segment of the dotted path ends up a
  package, new packages are registered under their dotted keys, nothing that
  already existed is lost, a conflict leaves the path unresolvable, and a
  second identical request changes nothing.
 */
module NamespaceProperties {
  import opened Wrappers
  import opened Paths
  import opened Namespaces

  /** The walk's standing assumptions: single segments, and the namespace function only at the start. */
  ghost predicate WalkPre(sp: Space, names: seq<string>, i: nat, t: Target) {
    i <= |names| && Segments(names) && ValidSpace(sp) && ValidTarget(sp, t) &&
    (t == Root <==> i == 0)
  }

  lemma GrowsTrans(a: Space, b: Space, c: Space)
    requires Grows(a, b) && Grows(b, c)
    ensures Grows(a, c)
  {
  }

  /** The first key the walk registers is the first segment itself. */
  lemma JoinFirst(names: seq<string>)
    requires |names| >= 1
    ensures Join(names[..1]) == names[0]
  {
  }

  /** A field `Grows` keeps: any package field, and a namespace field whose name is a single segment. */
  lemma FieldKept(sp: Space, sp': Space, t: Target, n: string)
    requires Grows(sp, sp') && ValidTarget(sp, t) && n in Fields(sp, t) && (t == Root ==> '.' !in n)
    ensures n in Fields(sp', t) && Fields(sp', t)[n] == Fields(sp, t)[n]
  {
  }

  /**
    One pass of the loop keeps the space valid and everything a path steps
    through; afterwards the segment is a field of `t` holding the value the
    pass reports. A missing segment becomes a new package holding the
    namespace's initial package fields, registered under the key of the path so far, and that key is the only namespace
    field the pass writes.
   */
  lemma StepFacts(sp: Space, names: seq<string>, i: nat, t: Target)
    requires WalkPre(sp, names, i, t) && i < |names|
    ensures var s := Step(sp, names, i, t);
      var n := names[i];
      Grows(sp, s.0) && ValidSpace(s.0) && ValidTarget(s.0, t) &&
      n in Fields(s.0, t) && Fields(s.0, t)[n] == s.1 &&
      (s.1.Pkg? ==> WalkPre(s.0, names, i + 1, Package(s.1.id))) &&
      (n in Fields(sp, t) ==> s.0 == sp) &&
      (n !in Fields(sp, t) ==>
        s.1 == Pkg(|sp.pkgs|) && Fields(s.0, Package(|sp.pkgs|)) == sp.seed &&
        RootAt(s.0, Join(names[..i + 1])) == Some(s.1)) &&
      Dots(Join(names[..i + 1])) == i &&
      (forall key :: key != Join(names[..i + 1]) ==> RootAt(s.0, key) == RootAt(sp, key))
  {
    var pre := names[..i + 1];
    assert Segments(pre) by {
      forall j | 0 <= j < |pre| ensures '.' !in pre[j] {
        assert pre[j] == names[j];
      }
    }
    JoinDots(pre);
    var key := Join(pre);
    if i == 0 {
      JoinFirst(names);
    } else if '.' !in key {
      DotsNone(key);
    }
    var n := names[i];
    if n !in Fields(sp, t) {
      var id := |sp.pkgs|;
      var made := sp.(pkgs := sp.pkgs + [sp.seed]);
      var stored := SetField(made, t, n, Pkg(id));
      AddPackage(sp);
      SetFieldKeeps(made, t, n, Pkg(id));
      SetFieldKeeps(stored, Root, key, Pkg(id));
      GrowsTrans(sp, made, stored);
      GrowsTrans(sp, stored, SetField(stored, Root, key, Pkg(id)));
    }
  }

  /** Adding a package with the namespace's initial fields keeps the space valid. */
  lemma AddPackage(sp: Space)
    requires ValidSpace(sp)
    ensures var made := sp.(pkgs := sp.pkgs + [sp.seed]);
      ValidSpace(made) && Grows(sp, made) && Fields(made, Package(|sp.pkgs|)) == sp.seed
  {
    var made := sp.(pkgs := sp.pkgs + [sp.seed]);
    forall j | 0 <= j < |sp.pkgs| ensures made.pkgs[j] == sp.pkgs[j] {
    }
    assert made.pkgs[|sp.pkgs|] == sp.seed;
  }

  /**
    Writing a field that refers only to existing packages keeps the space
    valid, and keeps everything a path steps through unless it overwrites a
    field with a different value.
   */
  lemma SetFieldKeeps(sp: Space, t: Target, n: string, v: Value)
    requires ValidSpace(sp) && ValidTarget(sp, t) && (v.Pkg? ==> v.id < |sp.pkgs|)
    ensures var r := SetField(sp, t, n, v);
      ValidSpace(r) && Fields(r, t) == Fields(sp, t)[n := v] &&
      ((n !in Fields(sp, t) || Fields(sp, t)[n] == v || (t == Root && '.' in n)) ==> Grows(sp, r))
  {
  }

  /** Walking on: a later pass never writes a namespace key with fewer than `i` dots. */
  lemma {:induction false} WalkRootFrame(sp: Space, name: string, names: seq<string>, i: nat, t: Target, key: string)
    requires i <= |names| && Segments(names) && (t == Root <==> i == 0) && Dots(key) < i
    ensures RootAt(Walk(sp, name, names, i, t).sp, key) == RootAt(sp, key)
    decreases |names| - i
  {
    if i < |names| {
      var s := Step(sp, names, i, t);
      StepRoot(sp, names, i, t);
      WalkUnfold(sp, name, names, i, t);
      JoinDots(names[..i + 1]);
      if s.1.Pkg? {
        WalkRootFrame(s.0, name, names, i + 1, Package(s.1.id), key);
      }
    }
  }

  /**
    The walk keeps the space valid, keeps everything a path can step through,
    and either reaches the package the rest of the path names in the resulting
    space or stops at a segment that leaves the path unresolvable.
   */
  lemma {:induction false} WalkOutcome(sp: Space, name: string, names: seq<string>, i: nat, t: Target)
    requires WalkPre(sp, names, i, t)
    ensures var o := Walk(sp, name, names, i, t);
      ValidSpace(o.sp) && Grows(sp, o.sp) &&
      (o.r.Ok? ==> Resolve(o.sp, t, names[i..]) == Some(o.r.value) && ValidTarget(o.sp, o.r.value)) &&
      (o.r.Err? ==> (Resolve(o.sp, t, names[i..]) == None && o.r.error.Conflict? &&
         o.r.error.name == name && o.r.error.segment in names[i..]))
    decreases |names| - i
  {
    WalkKeeps(sp, name, names, i, t);
    var o := Walk(sp, name, names, i, t);
    var rest := names[i..];
    if i < |names| {
      var n := names[i];
      assert rest[0] == n && rest[1..] == names[i + 1..];
      var sp1, v := WalkNext(sp, name, names, i, t);
      ResolveHead(o.sp, t, rest);
      if v.Pkg? {
        var o1 := Walk(sp1, name, names, i + 1, Package(v.id));
        WalkOutcome(sp1, name, names, i + 1, Package(v.id));
        FieldKept(sp1, o1.sp, t, n);
        assert o == o1;
        assert Resolve(o.sp, t, rest) == Resolve(o1.sp, Package(v.id), names[i + 1..]);
      } else {
        assert o == NsOut(sp1, Err(Conflict(name, n)));
      }
    } else {
      assert rest == [];
      assert o == NsOut(sp, Ok(t));
    }
  }

  /** Following a non-empty path: one step through the first segment, if it is a package. */
  lemma ResolveHead(sp: Space, t: Target, path: seq<string>)
    requires |path| > 0
    ensures var fs := Fields(sp, t);
      Resolve(sp, t, path) ==
        if path[0] in fs && fs[path[0]].Pkg? then Resolve(sp, Package(fs[path[0]].id), path[1..]) else None
  {
  }

  /** The walk keeps the space valid and everything a path can step through. */
  lemma {:induction false} WalkKeeps(sp: Space, name: string, names: seq<string>, i: nat, t: Target)
    requires WalkPre(sp, names, i, t)
    ensures var o := Walk(sp, name, names, i, t);
      ValidSpace(o.sp) && Grows(sp, o.sp)
    decreases |names| - i
  {
    var o := Walk(sp, name, names, i, t);
    if i < |names| {
      var sp1, v := WalkNext(sp, name, names, i, t);
      if v.Pkg? {
        var o1 := Walk(sp1, name, names, i + 1, Package(v.id));
        WalkKeeps(sp1, name, names, i + 1, Package(v.id));
        GrowsTrans(sp, sp1, o1.sp);
        ValidSame(o1.sp, o.sp);
      } else {
        ValidSame(sp1, o.sp);
      }
    } else {
      ValidSame(sp, o.sp);
    }
  }

  lemma ValidSame(a: Space, b: Space)
    requires ValidSpace(a) && a == b
    ensures ValidSpace(b)
  {
  }

  /** One pass of the walk, as the space and value it leaves for the rest of the walk. */
  lemma WalkNext(sp: Space, name: string, names: seq<string>, i: nat, t: Target) returns (sp1: Space, v: Value)
    requires WalkPre(sp, names, i, t) && i < |names|
    ensures Grows(sp, sp1) && ValidSpace(sp1) && ValidTarget(sp1, t)
    ensures names[i] in Fields(sp1, t) && Fields(sp1, t)[names[i]] == v
    ensures v.Pkg? ==> WalkPre(sp1, names, i + 1, Package(v.id))
    ensures names[i] in Fields(sp, t) ==> sp1 == sp
    ensures Walk(sp, name, names, i, t) ==
      if v.Plain? then NsOut(sp1, Err(Conflict(name, names[i])))
      else Walk(sp1, name, names, i + 1, Package(v.id))
  {
    StepFacts(sp, names, i, t);
    WalkUnfold(sp, name, names, i, t);
    sp1, v := Step(sp, names, i, t).0, Step(sp, names, i, t).1;
  }

  /** Following a path only reads fields `Grows` keeps. */
  lemma {:induction false} ResolveGrows(sp: Space, sp': Space, t: Target, path: seq<string>)
    requires Grows(sp, sp') && Segments(path) && Resolve(sp, t, path).Some?
    ensures Resolve(sp', t, path) == Resolve(sp, t, path)
    decreases |path|
  {
    if |path| > 0 {
      var fs := Fields(sp, t);
      var tail := path[1..];
      assert Segments(tail) by {
        forall j | 0 <= j < |tail| ensures '.' !in tail[j] {
          assert tail[j] == path[j + 1];
        }
      }
      assert '.' !in path[0];
      ResolveGrows(sp, sp', Package(fs[path[0]].id), tail);
    }
  }

  /** A path that already resolves is walked without any change. */
  lemma {:induction false} WalkResolved(sp: Space, name: string, names: seq<string>, i: nat, t: Target)
    requires i <= |names| && Resolve(sp, t, names[i..]).Some?
    ensures Walk(sp, name, names, i, t) == NsOut(sp, Ok(Resolve(sp, t, names[i..]).value))
    decreases |names| - i
  {
    if i < |names| {
      var rest := names[i..];
      assert rest[0] == names[i] && rest[1..] == names[i + 1..];
      WalkResolved(sp, name, names, i + 1, Package(Fields(sp, t)[names[i]].id));
    }
  }

  /**
    A segment that was missing before the walk is registered on the
    namespace under the dotted key of the path up to it, pointing at the
    package that path now reaches.
   */
  lemma {:induction false} WalkRegisters(sp: Space, name: string, names: seq<string>, i: nat, t: Target, j: nat)
    requires WalkPre(sp, names, i, t) && i <= j < |names|
    requires Walk(sp, name, names, i, t).r.Ok?
    requires Resolve(sp, t, names[i..j + 1]).None?
    ensures var o := Walk(sp, name, names, i, t);
      Resolve(o.sp, t, names[i..j + 1]).Some? &&
      RootAt(o.sp, Join(names[..j + 1])) == Some(Stored(Resolve(o.sp, t, names[i..j + 1]).value))
    decreases |names| - i
  {
    var n := names[i];
    var s := Step(sp, names, i, t);
    StepFacts(sp, names, i, t);
    var x := s.1.id;
    var o := Walk(s.0, name, names, i + 1, Package(x));
    var path := names[i..j + 1];
    assert path[0] == n && path[1..] == names[i + 1..j + 1];
    WalkOutcome(s.0, name, names, i + 1, Package(x));
    FieldKept(s.0, o.sp, t, n);
    if j == i {
      WalkRootFrame(s.0, name, names, i + 1, Package(x), Join(names[..i + 1]));
    } else {
      if n !in Fields(sp, t) {
        FreshResolvesNothing(s.0, x, names[i + 1..j + 1]);
      }
      WalkRegisters(s.0, name, names, i + 1, Package(x), j);
    }
  }

  /** Whatever a path reaches, each prefix of that path reaches something too. */
  lemma {:induction false} ResolvePrefix(sp: Space, t: Target, path: seq<string>, m: nat)
    requires m <= |path| && Resolve(sp, t, path).Some?
    ensures Resolve(sp, t, path[..m]).Some?
    decreases m
  {
    if m > 0 {
      var fs := Fields(sp, t);
      assert path[..m][0] == path[0] && path[..m][1..] == path[1..][..m - 1];
      ResolvePrefix(sp, Package(fs[path[0]].id), path[1..], m - 1);
    }
  }

  /** A new package holds no package field, so no non-empty path leads out of it. */
  lemma FreshResolvesNothing(sp: Space, id: nat, path: seq<string>)
    requires ValidSpace(sp) && Fields(sp, Package(id)) == sp.seed && |path| >= 1
    ensures Resolve(sp, Package(id), path).None?
  {
  }

  /**
    `f(name)`: a whole name registered as a package is answered directly with
    no change; otherwise the request succeeds exactly when, afterwards, the
    dotted path resolves from the namespace, and it answers the package the
    path reaches. Either way nothing a path steps through is lost, including
    the packages created before a conflict.
   */
  lemma RequireOutcome(sp: Space, name: string)
    requires ValidSpace(sp)
    ensures var o := Require(sp, name);
      ValidSpace(o.sp) && Grows(sp, o.sp) &&
      (name in sp.root && sp.root[name].Pkg? ==> o == NsOut(sp, Ok(Package(sp.root[name].id)))) &&
      (!(name in sp.root && sp.root[name].Pkg?) ==>
        (o.r.Ok? <==> Resolve(o.sp, Root, Split(name)).Some?) &&
        (o.r.Ok? ==> Some(o.r.value) == Resolve(o.sp, Root, Split(name))) &&
        (o.r.Err? ==> o.r.error.Conflict? && o.r.error.segment in Split(name)))
  {
    if !(name in sp.root && sp.root[name].Pkg?) {
      var names := Split(name);
      assert names[0..] == names;
      WalkOutcome(sp, name, names, 0, Root);
    }
  }

  /** After `f("a.b.c")` succeeds, each of `a`, `a.b`, `a.b.c` that was missing is registered on `f`. */
  lemma RequireRegisters(sp: Space, name: string, j: nat)
    requires ValidSpace(sp) && !(name in sp.root && sp.root[name].Pkg?)
    requires j < |Split(name)| && Resolve(sp, Root, Split(name)[..j + 1]).None?
    requires Require(sp, name).r.Ok?
    ensures var o := Require(sp, name);
      var prefix := Split(name)[..j + 1];
      Resolve(o.sp, Root, prefix).Some? &&
      RootAt(o.sp, Join(prefix)) == Some(Stored(Resolve(o.sp, Root, prefix).value))
  {
    var names := Split(name);
    assert names[0..j + 1] == names[..j + 1];
    WalkRegisters(sp, name, names, 0, Root, j);
  }

  /** A package path that already resolves is reused, not recreated. */
  lemma RequireReuses(sp: Space, name: string, j: nat)
    requires ValidSpace(sp) && j < |Split(name)| && Resolve(sp, Root, Split(name)[..j + 1]).Some?
    ensures Resolve(Require(sp, name).sp, Root, Split(name)[..j + 1]) == Resolve(sp, Root, Split(name)[..j + 1])
  {
    var names := Split(name);
    var prefix := names[..j + 1];
    assert Segments(prefix) by {
      forall m | 0 <= m < |prefix| ensures '.' !in prefix[m] {
        assert prefix[m] == names[m];
      }
    }
    RequireOutcome(sp, name);
    ResolveGrows(sp, Require(sp, name).sp, Root, prefix);
  }

  /**
    What one pass writes on the namespace function: a missing segment is
    registered under the key of the path so far, and no other key changes.
    This holds in any space.
   */
  lemma StepRoot(sp: Space, names: seq<string>, i: nat, t: Target)
    requires i < |names| && Segments(names) && (t == Root <==> i == 0)
    ensures var s := Step(sp, names, i, t);
      var n := names[i];
      (n in Fields(sp, t) ==> s.0 == sp) &&
      (n !in Fields(sp, t) ==> s.1 == Pkg(|sp.pkgs|) && RootAt(s.0, Join(names[..i + 1])) == Some(s.1)) &&
      (forall key :: key != Join(names[..i + 1]) ==> RootAt(s.0, key) == RootAt(sp, key))
  {
    if i == 0 {
      JoinFirst(names);
    }
  }

  /** The key of the whole name is registered by the walk, or left as it was. */
  lemma {:induction false} WalkRootLast(sp: Space, name: string, names: seq<string>, i: nat, t: Target)
    requires i <= |names| && Segments(names) && (t == Root <==> i == 0) && |names| >= 1
    ensures var o := Walk(sp, name, names, i, t);
      RootAt(o.sp, Join(names)) == RootAt(sp, Join(names)) ||
      (o.r.Ok? && RootAt(o.sp, Join(names)) == Some(Stored(o.r.value)))
    decreases |names| - i
  {
    if i < |names| {
      var key := Join(names);
      var s := Step(sp, names, i, t);
      StepRoot(sp, names, i, t);
      WalkUnfold(sp, name, names, i, t);
      if s.1.Pkg? {
        var o := Walk(s.0, name, names, i + 1, Package(s.1.id));
        WalkRootLast(s.0, name, names, i + 1, Package(s.1.id));
        if names[i] !in Fields(sp, t) && i + 1 < |names| {
          JoinPrefixesDiffer(names, i + 1, |names|);
          assert names[..|names|] == names;
          assert RootAt(s.0, key) == RootAt(sp, key);
        } else if names[i] !in Fields(sp, t) {
          assert names[..i + 1] == names;
          assert o == NsOut(s.0, Ok(Package(s.1.id)));
        }
      }
    }
  }

  /** One pass of the package loop, as an equation. */
  lemma WalkUnfold(sp: Space, name: string, names: seq<string>, i: nat, t: Target)
    requires i < |names|
    ensures var s := Step(sp, names, i, t);
      Walk(sp, name, names, i, t) ==
        if s.1.Plain? then NsOut(s.0, Err(Conflict(name, names[i])))
        else Walk(s.0, name, names, i + 1, Package(s.1.id))
  {
  }

  /** Asking for the same package twice: the second request changes nothing and answers the same package. */
  lemma RequireIdempotent(sp: Space, name: string)
    requires ValidSpace(sp) && Require(sp, name).r.Ok?
    ensures var o := Require(sp, name);
      Require(o.sp, name) == o
  {
    var o := Require(sp, name);
    if !(name in sp.root && sp.root[name].Pkg?) {
      var names := Split(name);
      assert names[0..] == names;
      JoinSplit(name);
      WalkOutcome(sp, name, names, 0, Root);
      WalkRootLast(sp, name, names, 0, Root);
      if !(name in o.sp.root && o.sp.root[name].Pkg?) {
        WalkResolved(o.sp, name, names, 0, Root);
      }
    }
  }

  /** No name a package inherits contains a dot. */
  lemma ObjectNamesUndotted(k: string)
    requires k in ObjectBuiltIns
    ensures '.' !in k
  {
  }

  /** No field name a new package starts with contains a dot. */
  lemma PackageNamesUndotted(k: string)
    requires k in NewPackage()
    ensures '.' !in k
  {
    if k in ObjectBuiltIns {
      ObjectNamesUndotted(k);
    }
  }

  /** No built-in name of a function object contains a dot. */
  lemma FunctionNamesUndotted(k: string)
    requires k in FunctionBuiltIns
    ensures '.' !in k
  {
    if k in ObjectBuiltIns {
      ObjectNamesUndotted(k);
    } else {
      FunctionOwnNamesUndotted(k);
    }
  }

  lemma FunctionOwnNamesUndotted(k: string)
    requires k in FunctionOwnBuiltIns
    ensures '.' !in k
  {
  }

  /**
    In a fresh namespace, a request for one of the function's built-in
    names (`f("length")`, `f("prototype")`, ...) finds a value that is not a
    package and raises the conflict, changing nothing.
   */
  lemma BuiltInNameConflicts(n: string)
    requires n in FunctionBuiltIns
    ensures Require(EmptySpace(), n) == NsOut(EmptySpace(), Err(Conflict(n, n)))
  {
    FunctionNamesUndotted(n);
    SplitSegment(n);
  }

  /**
    `f("p.m")` for a segment `p` the namespace does not hold and a name `m`
    every package carries (`f("a.constructor")`, `f("a.$url")`, ...)
    creates the package `p` and then raises the conflict at `m`. In a
    namespace as `Namespace` builds it those names are `NewPackage()`'s,
    none of which holds a dot (`PackageNamesUndotted`).
   */
  lemma InheritedNameConflicts(sp: Space, p: string, m: string)
    requires '.' !in p && p !in sp.root
    requires !(p + "." + m in sp.root && sp.root[p + "." + m].Pkg?)
    requires '.' !in m && m in sp.seed && sp.seed[m].Plain?
    ensures var o := Require(sp, p + "." + m);
      o.r == Err(Conflict(p + "." + m, m)) && Resolve(o.sp, Root, [p]) == Some(Package(|sp.pkgs|))
  {
    var name := p + "." + m;
    SplitAfterSegment(p, m);
    SplitSegment(m);
    var names := [p, m];
    assert Split(name) == names;
    var s0 := Step(sp, names, 0, Root);
    assert s0.1 == Pkg(|sp.pkgs|);
    assert Fields(s0.0, Package(|sp.pkgs|)) == sp.seed;
    var s1 := Step(s0.0, names, 1, Package(|sp.pkgs|));
    assert s1 == (s0.0, Plain);
    assert Walk(s0.0, name, names, 1, Package(|sp.pkgs|)) == NsOut(s0.0, Err(Conflict(name, m)));
    assert Walk(sp, name, names, 0, Root) == Walk(s0.0, name, names, 1, Package(|sp.pkgs|));
  }

  /**
    `namespace(name)` a second time, with or without `dontCreate`, finds the
    namespace the first call answered and changes nothing.
   */
  lemma NamespaceAgain(reg: Registry, name: NameArg, dontCreate: bool, again: bool)
    requires Namespace(reg, name, dontCreate).r.Ok?
    ensures var o := Namespace(reg, name, dontCreate);
      Namespace(o.reg, name, again) == RegOut(o.reg, o.r)
  {
  }
}

=== FILE: namespaces.dfy ===
/**
  Namespaces and their package trees (lib/zebra/easyoop.js:97-166, 190-192).

  A namespace is a function object `f` whose fields hold packages; a package
  is an object whose fields hold sub-packages (and, once user code has run,
  anything else). Calling `f("a.b.c")` walks the dotted path from `f`,
  creating every missing package on the way and registering each new one on
  `f` under the dotted key of the path reaching it.
 */
module Namespaces {
  import opened Wrappers
  import opened Paths

  /** A field value: a package, or any other JavaScript value. */
  datatype Value = Pkg(id: nat) | Plain

  /** The object a path step starts from: the namespace function or a package. */
  datatype Target = Root | Package(id: nat)

  /**
    One namespace: the fields of the namespace function, the field maps of
    the packages created in it, indexed by creation order, and the fields a
    new package starts with (every namespace declares its own `Package`).
   */
  datatype Space = Space(root: map<string, Value>, pkgs: seq<map<string, Value>>, seed: map<string, Value>)

  datatype NsError =
    | InvalidName                            // a non-string namespace name
    | Missing(name: string)                  // `dontCreate` and no such namespace
    | Conflict(name: string, segment: string) // a path segment holds a non-package

  datatype NsOut = NsOut(sp: Space, r: Result<Target, NsError>)

  /**
    The names every object reads through `Object.prototype` (section 15.2.4
    of ECMAScript 5.1, with the widely implemented `__proto__` accessors).
   */
  const ObjectBuiltIns: set<string> := {
    "constructor", "toString", "toLocaleString", "valueOf", "hasOwnProperty",
    "isPrototypeOf", "propertyIsEnumerable", "__proto__", "__defineGetter__",
    "__defineSetter__", "__lookupGetter__", "__lookupSetter__"}

  /**
    The names a function object holds itself (`length`, `name`,
    `prototype`, and `arguments`/`caller` while it runs) or reads through
    `Function.prototype` (section 15.3.4 of ECMAScript 5.1).
   */
  const FunctionOwnBuiltIns: set<string> :=
    {"length", "name", "prototype", "arguments", "caller", "apply", "bind", "call"}

  /** Every name a function object answers before anything is stored on it. */
  const FunctionBuiltIns: set<string> := ObjectBuiltIns + FunctionOwnBuiltIns

  /** Fields for built-in names: each holds something that is not a package. */
  function BuiltIns(names: set<string>): (m: map<string, Value>)
    ensures m.Keys == names && forall k :: k in m ==> m[k] == Plain
  {
    map k | k in names :: Plain
  }

  /**
    A fresh `Package`: its `$url` field (null outside a browser page) and
    what it inherits from `Object.prototype`; none of them is a package.
   */
  function NewPackage(): (m: map<string, Value>)
    ensures m.Keys == ObjectBuiltIns + {"$url"}
    ensures forall k :: k in m ==> m[k] == Plain
  {
    BuiltIns(ObjectBuiltIns + {"$url"})
  }

  /** The fields of an object; a package id the space does not hold has none. */
  function Fields(sp: Space, t: Target): map<string, Value> {
    match t
    case Root => sp.root
    case Package(id) => if id < |sp.pkgs| then sp.pkgs[id] else map[]
  }

  function SetField(sp: Space, t: Target, n: string, v: Value): (r: Space)
    ensures Fields(r, t) == Fields(sp, t)[n := v] || (t.Package? && t.id >= |sp.pkgs| && r == sp)
    ensures |r.pkgs| == |sp.pkgs| && r.seed == sp.seed
    // no other object changes
    ensures forall t' :: t' != t ==> Fields(r, t') == Fields(sp, t')
  {
    match t
    case Root => sp.(root := sp.root[n := v])
    case Package(id) =>
      if id < |sp.pkgs| then sp.(pkgs := sp.pkgs[id := sp.pkgs[id][n := v]]) else sp
  }

  /** Every package the fields `m` refer to is one of the first `n`. */
  ghost predicate RefsBelow(m: map<string, Value>, n: nat) {
    forall k :: k in m && m[k].Pkg? ==> m[k].id < n
  }

  /** A new package holds no package, and every package a field refers to exists. */
  ghost predicate ValidSpace(sp: Space) {
    RefsBelow(sp.seed, 0) && RefsBelow(sp.root, |sp.pkgs|) &&
    (forall i :: 0 <= i < |sp.pkgs| ==> RefsBelow(sp.pkgs[i], |sp.pkgs|))
  }

  ghost predicate ValidTarget(sp: Space, t: Target) {
    t.Package? ==> t.id < |sp.pkgs|
  }

  /** The object reached from `t` by following `path`, if every step is a package. */
  function Resolve(sp: Space, t: Target, path: seq<string>): Option<Target>
    decreases |path|
  {
    if |path| == 0 then Some(t)
    else
      var fs := Fields(sp, t);
      if path[0] in fs && fs[path[0]].Pkg? then Resolve(sp, Package(fs[path[0]].id), path[1..])
      else None
  }

  /**
    One pass of the package loop at segment `i`, standing at `t`: the space
    afterwards and the segment's value. A missing segment gets a new package,
    stored on `t` and registered on the namespace under the key of the path
    so far; a present one is read as it is.
   */
  function Step(sp: Space, names: seq<string>, i: nat, t: Target): (Space, Value)
    requires i < |names|
  {
    var n := names[i];
    var fs := Fields(sp, t);
    if n !in fs then
      var id := |sp.pkgs|;
      var made := sp.(pkgs := sp.pkgs + [sp.seed]);
      var stored := SetField(made, t, n, Pkg(id));
      (SetField(stored, Root, Join(names[..i + 1]), Pkg(id)), Pkg(id))
    else (sp, fs[n])
  }

  /**
    The package loop of `f(name)` from segment `i` on: a package segment is
    entered; anything else is a conflict, which leaves the packages made so
    far in place.
   */
  function Walk(sp: Space, name: string, names: seq<string>, i: nat, t: Target): NsOut
    requires i <= |names|
    decreases |names| - i
  {
    if i == |names| then NsOut(sp, Ok(t))
    else
      var s := Step(sp, names, i, t);
      if s.1.Plain? then NsOut(s.0, Err(Conflict(name, names[i])))
      else Walk(s.0, name, names, i + 1, Package(s.1.id))
  }

  /**
    `f(name)` for a string name: a package already registered under the whole
    name is returned as it is; otherwise the dotted path is walked.
   */
  function Require(sp: Space, name: string): NsOut {
    if name in sp.root && sp.root[name].Pkg? then NsOut(sp, Ok(Package(sp.root[name].id)))
    else Walk(sp, name, Split(name), 0, Root)
  }

  /** `sp'` keeps every package of `sp` and every field a path can step through. */
  ghost predicate Grows(sp: Space, sp': Space) {
    |sp.pkgs| <= |sp'.pkgs| &&
    (forall k :: k in sp.root && '.' !in k ==> k in sp'.root && sp'.root[k] == sp.root[k]) &&
    (forall i :: 0 <= i < |sp.pkgs| ==> Extends(sp.pkgs[i], sp'.pkgs[i]))
  }

  /** `m'` holds every field of `m`, unchanged. */
  ghost predicate Extends(m: map<string, Value>, m': map<string, Value>) {
    forall k :: k in m ==> k in m' && m'[k] == m[k]
  }

  /** The field value that refers to a target: packages are stored as such, the namespace function is not. */
  function Stored(t: Target): Value {
    if t.Package? then Pkg(t.id) else Plain
  }

  /** The value under `key` on the namespace function, if any. */
  function RootAt(sp: Space, key: string): Option<Value> {
    if key in sp.root then Some(sp.root[key]) else None
  }

  /** The namespace registry `namespaces` and the `namespace(nsname, dontCreate)` call. */
  datatype Registry = Registry(spaces: map<string, Space>)

  /** The name argument: a string, or any other JavaScript value. */
  datatype NameArg = Text(s: string) | NonText

  datatype RegOut = RegOut(reg: Registry, r: Result<string, NsError>)

  /**
    A new namespace function carries its `Import` helper, an empty `$env`
    and the built-in names of a function; none of them is a package.
   */
  function EmptySpace(): (sp: Space)
    ensures ValidSpace(sp) && sp.pkgs == [] && sp.seed == NewPackage()
    ensures sp.root.Keys == FunctionBuiltIns + {"Import", "$env"}
    ensures forall k :: k in sp.root ==> sp.root[k] == Plain
  {
    Space(BuiltIns(FunctionBuiltIns + {"Import", "$env"}), [], NewPackage())
  }

  /**
    Looks a namespace up, creating it unless `dontCreate`. A namespace, once
    registered, is never replaced; the second "already exists" test of the
    source (lines 122-124) repeats the first with nothing in between and cannot fire.
   */
  function Namespace(reg: Registry, name: NameArg, dontCreate: bool): (o: RegOut)
    ensures o.r.Ok? <==> name.Text? && (name.s in reg.spaces || !dontCreate)
    ensures name.NonText? ==> o.r == Err(InvalidName)
    ensures name.Text? && name.s !in reg.spaces && dontCreate ==> o.r == Err(Missing(name.s))
    ensures o.r.Ok? ==> o.r.value == name.s && o.r.value in o.reg.spaces
    ensures o.r.Err? ==> o.reg == reg
    ensures forall k :: k in reg.spaces ==> k in o.reg.spaces && o.reg.spaces[k] == reg.spaces[k]
    ensures forall k :: k in o.reg.spaces && k !in reg.spaces ==>
      name == Text(k) && o.reg.spaces[k] == EmptySpace()
  {
    match name
    case NonText => RegOut(reg, Err(InvalidName))
    case Text(s) =>
      if s in reg.spaces then RegOut(reg, Ok(s))
      else if dontCreate then RegOut(reg, Err(Missing(s)))
      else RegOut(Registry(reg.spaces[s := EmptySpace()]), Ok(s))
  }
}

=== FILE: paths.dfy ===
/**
  Dotted package names (lib/zebra/easyoop.js:149-150): a name is cut into
  segments at every '.', exactly as `String.prototype.split('.')` does
  (empty segments included), and the running key `k` of the package loop is
  the segments seen so far joined back with '.'.
 */
module Paths {

  /** The segments of `s` between its dots; never empty, as `split` never is. */
  function Split(s: string): (r: seq<string>)
    ensures |r| >= 1
    ensures Segments(r)
  {
    if |s| == 0 then [""]
    else
      var rest := Split(s[1..]);
      if s[0] == '.' then [""] + rest
      else [[s[0]] + rest[0]] + rest[1..]
  }

  /** Every part is free of dots, so it is a single segment. */
  ghost predicate Segments(parts: seq<string>) {
    forall j :: 0 <= j < |parts| ==> '.' !in parts[j]
  }

  /** The parts glued back together with '.' between neighbours. */
  function Join(parts: seq<string>): string
    requires |parts| >= 1
  {
    if |parts| == 1 then parts[0] else parts[0] + "." + Join(parts[1..])
  }

  /** Number of dots in a string. */
  function Dots(s: string): nat {
    if |s| == 0 then 0 else (if s[0] == '.' then 1 else 0) + Dots(s[1..])
  }

  lemma {:induction false} DotsAppend(a: string, b: string)
    ensures Dots(a + b) == Dots(a) + Dots(b)
    decreases |a|
  {
    if |a| == 0 {
      assert a + b == b;
    } else {
      assert (a + b)[1..] == a[1..] + b;
      DotsAppend(a[1..], b);
    }
  }

  /** A string with no dot counts none. */
  lemma {:induction false} DotsNone(s: string)
    requires '.' !in s
    ensures Dots(s) == 0
    decreases |s|
  {
    if |s| > 0 {
      assert '.' !in s[1..] by {
        forall c | c in s[1..] ensures c != '.' {
          var j :| 0 <= j < |s[1..]| && s[1..][j] == c;
          assert s[j + 1] == c;
        }
      }
      DotsNone(s[1..]);
    }
  }

  /** Joining n single segments puts exactly n - 1 dots into the key. */
  lemma {:induction false} JoinDots(parts: seq<string>)
    requires |parts| >= 1 && Segments(parts)
    ensures Dots(Join(parts)) == |parts| - 1
    decreases |parts|
  {
    DotsNone(parts[0]);
    if |parts| > 1 {
      var tail := parts[1..];
      assert Segments(tail) by {
        forall j | 0 <= j < |tail| ensures '.' !in tail[j] {
          assert tail[j] == parts[j + 1];
        }
      }
      JoinDots(tail);
      DotsAppend(parts[0], ".");
      DotsAppend(parts[0] + ".", Join(tail));
    }
  }

  /** Keys of different lengths never coincide: `k` takes a new value at every step. */
  lemma JoinPrefixesDiffer(names: seq<string>, a: nat, b: nat)
    requires Segments(names) && 1 <= a < b <= |names|
    ensures Join(names[..a]) != Join(names[..b])
  {
    var pa, pb := names[..a], names[..b];
    assert Segments(pa) by {
      forall j | 0 <= j < |pa| ensures '.' !in pa[j] {
        assert pa[j] == names[j];
      }
    }
    assert Segments(pb) by {
      forall j | 0 <= j < |pb| ensures '.' !in pb[j] {
        assert pb[j] == names[j];
      }
    }
    JoinDots(pa);
    JoinDots(pb);
  }

  /** Splitting and joining again gives back the original name. */
  lemma {:induction false} JoinSplit(s: string)
    ensures Join(Split(s)) == s
    decreases |s|
  {
    if |s| > 0 {
      var rest := Split(s[1..]);
      JoinSplit(s[1..]);
      if s[0] == '.' {
        var r := [""] + rest;
        assert r[1..] == rest;
        assert s == "." + s[1..];
      } else if |rest| == 1 {
        assert s == [s[0]] + s[1..];
      } else {
        var r := [[s[0]] + rest[0]] + rest[1..];
        assert r[1..] == rest[1..];
        assert s == [s[0]] + s[1..];
      }
    }
  }

  /** A single segment splits to itself. */
  lemma {:induction false} SplitSegment(p: string)
    requires '.' !in p
    ensures Split(p) == [p]
    decreases |p|
  {
    if |p| > 0 {
      assert '.' !in p[1..] by {
        forall c | c in p[1..] ensures c != '.' {
          var j :| 0 <= j < |p[1..]| && p[1..][j] == c;
          assert p[j + 1] == c;
        }
      }
      SplitSegment(p[1..]);
      assert p == [p[0]] + p[1..];
    }
  }

  /** A dot after a single segment ends that segment. */
  lemma {:induction false} SplitAfterSegment(p: string, t: string)
    requires '.' !in p
    ensures Split(p + "." + t) == [p] + Split(t)
    decreases |p|
  {
    if |p| == 0 {
      assert p + "." + t == "." + t;
      assert ("." + t)[1..] == t;
    } else {
      assert '.' !in p[1..] by {
        forall c | c in p[1..] ensures c != '.' {
          var j :| 0 <= j < |p[1..]| && p[1..][j] == c;
          assert p[j + 1] == c;
        }
      }
      SplitAfterSegment(p[1..], t);
      assert (p + "." + t)[1..] == p[1..] + "." + t;
      assert p == [p[0]] + p[1..];
    }
  }

  /** Joining single segments and splitting again gives back the segments. */
  lemma {:induction false} SplitJoin(parts: seq<string>)
    requires |parts| >= 1 && Segments(parts)
    ensures Split(Join(parts)) == parts
    decreases |parts|
  {
    if |parts| == 1 {
      SplitSegment(parts[0]);
    } else {
      var tail := parts[1..];
      assert Segments(tail) by {
        forall j | 0 <= j < |tail| ensures '.' !in tail[j] {
          assert tail[j] == parts[j + 1];
        }
      }
      SplitJoin(tail);
      SplitAfterSegment(parts[0], Join(tail));
      assert parts == [parts[0]] + tail;
    }
  }
}

=== FILE: readiness.dfy ===
/**
  The readiness gate of lib/zebra/easyoop.js:829-830, 899-916: `ready(f...)`
  queues callbacks until the library is no longer busy, `busy()` holds the
  gate closed one more time and `ready()` with no argument releases one hold.
  Callbacks are opaque and return normally; running one appends it to a log.
 */
module Readiness {

  /** A callback handed to `ready`. */
  type Callback = nat

  /** `$busy`, the waiting list `$f`, and the callbacks run so far, oldest first. */
  datatype Gate = Gate(busy: nat, waiting: seq<Callback>, ran: seq<Callback>)

  /** Nothing is left waiting while the gate is open. */
  predicate Settled(g: Gate) {
    g.busy == 0 ==> g.waiting == []
  }

  /** Every callback the gate has accepted, in the order accepted: those run, then those waiting. */
  function Accepted(g: Gate): seq<Callback> {
    g.ran + g.waiting
  }

  /** The state the library loads in: held once (until the page has loaded), nothing waiting. */
  function Initial(): (g: Gate)
    ensures Settled(g) && g.busy > 0 && Accepted(g) == []
  {
    Gate(1, [], [])
  }

  /** `busy()`: one more hold; nothing runs and nothing is dropped. */
  function Busy(g: Gate): (r: Gate)
    ensures r.busy == g.busy + 1 && r.ran == g.ran && Accepted(r) == Accepted(g)
    ensures Settled(r)
  {
    g.(busy := g.busy + 1)
  }

  /**
    What one `ready(fs...)` call amounts to: a call with no callback releases
    one hold (never going below zero); the callbacks are accepted after those
    already waiting; if the gate is then open, everything waiting runs.
   */
  function ReadyStep(g: Gate, fs: seq<Callback>): (r: Gate)
    ensures r.busy == (if |fs| == 0 && g.busy > 0 then g.busy - 1 else g.busy)
    ensures Accepted(r) == Accepted(g) + fs
    ensures Settled(r)
    ensures r.busy > 0 ==> r.ran == g.ran
  {
    var b := if |fs| == 0 && g.busy > 0 then g.busy - 1 else g.busy;
    if b == 0 then Gate(0, [], g.ran + g.waiting + fs) else Gate(b, g.waiting + fs, g.ran)
  }

  /** The `while` loop of `ready`: runs waiting callbacks front first for as long as the gate is open. */
  method Drain(g: Gate) returns (r: Gate)
    ensures r.busy == g.busy && Accepted(r) == Accepted(g)
    ensures g.busy == 0 ==> r.waiting == []
    ensures g.busy != 0 ==> r == g
  {
    r := g;
    while r.busy == 0 && |r.waiting| > 0
      invariant r.busy == g.busy && Accepted(r) == Accepted(g)
      invariant g.busy != 0 ==> r == g
      decreases |r.waiting|
    {
      assert r.ran + r.waiting == (r.ran + [r.waiting[0]]) + r.waiting[1..];
      r := Gate(r.busy, r.waiting[1..], r.ran + [r.waiting[0]]);
    }
  }

  /**
    `ready(fs...)` as written: with no argument it releases a hold; a single
    callback meeting an open, empty gate runs at once; otherwise the callbacks
    are queued and the queue is drained. The shortcut changes nothing: the
    result is always the one `ReadyStep` describes.
   */
  method Ready(g: Gate, fs: seq<Callback>) returns (r: Gate)
    ensures Accepted(r) == Accepted(g) + fs
    ensures r.busy == 0 ==> r.waiting == []
    ensures r.busy > 0 ==> r.ran == g.ran
    ensures r == ReadyStep(g, fs)
  {
    var busy := g.busy;
    if |fs| == 0 {
      if busy > 0 {
        busy := busy - 1;
      }
    } else if |fs| == 1 && busy == 0 && |g.waiting| == 0 {
      r := Gate(g.busy, g.waiting, g.ran + [fs[0]]);
      return;
    }
    r := Drain(Gate(busy, g.waiting + fs, g.ran));
  }

  /** `n` calls of `ready()` with no argument. */
  function Releases(g: Gate, n: nat): Gate
    decreases n
  {
    if n == 0 then g else Releases(ReadyStep(g, []), n - 1)
  }

  /**
    Releasing fewer holds than the gate has runs nothing; releasing all of
    them (or more) opens the gate and runs everything waiting, in the order
    it was accepted.
   */
  lemma {:induction false} ReleasesRun(g: Gate, n: nat)
    requires Settled(g)
    ensures var r := Releases(g, n);
      Accepted(r) == Accepted(g) &&
      (n < g.busy ==> r.busy == g.busy - n && r.ran == g.ran) &&
      (n >= g.busy ==> r.busy == 0 && r.waiting == [] && r.ran == Accepted(g))
    decreases n
  {
    if n > 0 {
      var g' := ReadyStep(g, []);
      assert Accepted(g) + [] == Accepted(g);
      ReleasesRun(g', n - 1);
    }
  }

  /** In a settled gate, `busy()` followed by `ready()` changes nothing. */
  lemma BusyThenReady(g: Gate)
    requires Settled(g)
    ensures ReadyStep(Busy(g), []) == g
  {
  }

  /** One call on the gate: `busy()`, or `ready` with its callbacks. */
  datatype Call = BusyCall | ReadyCall(fs: seq<Callback>)

  /** The gate after a sequence of calls, in order. */
  function Run(g: Gate, calls: seq<Call>): Gate
    decreases |calls|
  {
    if |calls| == 0 then g
    else
      var g' := match calls[0] case BusyCall => Busy(g) case ReadyCall(fs) => ReadyStep(g, fs);
      Run(g', calls[1..])
  }

  /** The callbacks accepted along a sequence of calls, in call order. */
  function Offered(calls: seq<Call>): seq<Callback>
    decreases |calls|
  {
    if |calls| == 0 then []
    else (match calls[0] case BusyCall => [] case ReadyCall(fs) => fs) + Offered(calls[1..])
  }

  /**
    Over any sequence of calls (so in every state reachable from `Initial`)
    the gate stays settled, never loses or
    reorders a callback, and what it has run is always a prefix of what it
    has accepted.
   */
  lemma {:induction false} RunKeepsOrder(g: Gate, calls: seq<Call>)
    requires Settled(g)
    ensures var r := Run(g, calls);
      Settled(r) && Accepted(r) == Accepted(g) + Offered(calls) && g.ran <= r.ran
    decreases |calls|
  {
    if |calls| > 0 {
      var g' := match calls[0] case BusyCall => Busy(g) case ReadyCall(fs) => ReadyStep(g, fs);
      RunKeepsOrder(g', calls[1..]);
      var head := match calls[0] case BusyCall => [] case ReadyCall(fs) => fs;
      assert Accepted(g) + Offered(calls) == Accepted(g) + head + Offered(calls[1..]);
      assert g.ran <= g'.ran;
    }
  }
}

=== FILE: super.dfy ===
/**
  `$super`: calling the implementation an ancestor class provides for the
  method that is running now.
 */
module Super {
  import opened Wrappers
  import opened Model
  import opened Dispatch

  /** The name a template passed as the leading function argument reports (it has no `methodName`). */
  const UNDEFINED_NAME: string := "undefined"

  /**
    Whether `$super` takes member `m` for a call with `argc` arguments: it is
    truthy, and when it is an overload table it holds that arity.
   */
  predicate Accepts(m: Member, argc: nat) {
    m.IsTruthy() && (!m.Table? || argc in m.methods)
  }

  /** Whether class `c` exists and its prototype holds an acceptable member `name`. */
  predicate AcceptsAt(classes: map<ClassId, ClassDesc>, c: ClassId, name: string, argc: nat) {
    c in classes && name in classes[c].proto && Accepts(classes[c].proto[name], argc)
  }

  /** The class `d` steps up the `$parent` chain from `s`, if the chain is that long. */
  function Chain(classes: map<ClassId, ClassDesc>, s: Option<ClassId>, d: nat): (r: Option<ClassId>)
    ensures r.Some? ==> r.value in classes
    decreases d
  {
    if s.None? || s.value !in classes then None
    else if d == 0 then s
    else Chain(classes, classes[s.value].parent, d - 1)
  }

  /** The search up the `$parent` chain from `s`: the first class whose member `name` is acceptable. */
  function FindSuper(classes: map<ClassId, ClassDesc>, s: Option<ClassId>, name: string, argc: nat): (r: Option<(ClassId, Member)>)
    requires ParentsDecrease(classes)
    ensures r.Some? ==> AcceptsAt(classes, r.value.0, name, argc) && r.value.1 == classes[r.value.0].proto[name]
    decreases if s.Some? then s.value + 1 else 0
  {
    if s.None? || s.value !in classes then None
    else
      var c := classes[s.value];
      if name in c.proto && Accepts(c.proto[name], argc) then Some((s.value, c.proto[name]))
      else FindSuper(classes, c.parent, name, argc)
  }

  /** The class `FindSuper` picks is the nearest acceptable one on the chain. */
  lemma {:induction false} FindSuperNearest(classes: map<ClassId, ClassDesc>, s: Option<ClassId>, name: string, argc: nat)
    returns (d: nat)
    requires ParentsDecrease(classes)
    requires FindSuper(classes, s, name, argc).Some?
    ensures Chain(classes, s, d) == Some(FindSuper(classes, s, name, argc).value.0)
    ensures forall e :: 0 <= e < d ==>
      Chain(classes, s, e).Some? && !AcceptsAt(classes, Chain(classes, s, e).value, name, argc)
    decreases if s.Some? then s.value + 1 else 0
  {
    var c := classes[s.value];
    if name in c.proto && Accepts(c.proto[name], argc) {
      d := 0;
    } else {
      var d' := FindSuperNearest(classes, c.parent, name, argc);
      d := d' + 1;
      forall e | 0 <= e < d
        ensures Chain(classes, s, e).Some? && !AcceptsAt(classes, Chain(classes, s, e).value, name, argc)
      {
        if e > 0 {
          assert Chain(classes, s, e) == Chain(classes, c.parent, e - 1);
        }
      }
    }
  }

  /** When `FindSuper` finds nothing, no class on the chain has an acceptable member. */
  lemma {:induction false} FindSuperExhausted(classes: map<ClassId, ClassDesc>, s: Option<ClassId>, name: string, argc: nat, d: nat)
    requires ParentsDecrease(classes)
    requires FindSuper(classes, s, name, argc).None?
    requires Chain(classes, s, d).Some?
    ensures !AcceptsAt(classes, Chain(classes, s, d).value, name, argc)
    decreases d
  {
    if d > 0 {
      FindSuperExhausted(classes, classes[s.value].parent, name, argc, d - 1);
    }
  }

  /** The name and argument count `$super` searches for. */
  function SuperTarget(caller: Impl, args: seq<Arg>): (r: (string, nat))
    ensures |args| > 0 && args[0].FuncArg? ==> r == (args[0].f.methodName, |args| - 1)
    ensures |args| > 0 && args[0].ClassArg? ==> r == (UNDEFINED_NAME, |args| - 1)
    ensures !(|args| > 0 && IsFunctionArg(args[0])) ==> r == (caller.methodName, |args|)
  {
    if |args| > 0 && args[0].FuncArg? then (args[0].f.methodName, |args| - 1)
    else if |args| > 0 && args[0].ClassArg? then (UNDEFINED_NAME, |args| - 1)
    else (caller.methodName, |args|)
  }

  /** Where the search starts: the parent of the class the running method is bound to. */
  function SuperStart(st: State, caller: Impl): Option<ClassId> {
    if caller.boundTo in st.classes then st.classes[caller.boundTo].parent else None
  }

  /**
    `this.$super(args...)`: outside a method it throws; otherwise it invokes
    the nearest ancestor member that accepts the call, or throws not-found.
   */
  function Super(st: State, self: ObjId, args: seq<Arg>): (o: Out<()>)
    requires Valid(st)
    ensures st.caller.None? ==> o == Out(st, Err(OutsideClassContext))
    ensures o.st.caller == st.caller && o.st.classes == st.classes && o.st.objs == st.objs
    ensures st.caller.Some? ==>
      var t := SuperTarget(st.caller.value, args);
      var found := FindSuper(st.classes, SuperStart(st, st.caller.value), t.0, t.1);
      && (found.None? ==>
            o == Out(st, Err(MethodNotFound(ClassNameOf(st, self), DisplayName(t.0), t.1))))
      && (found.Some? && found.value.1.Table? ==>
            var impl := found.value.1.methods[t.1];
            o.st.log == st.log + [Run(self, impl.body, Some(impl), t.1)]
            && (o.r.Err? <==> impl.body in st.failing))
      && (found.Some? && found.value.1.Func? ==>
            o.st.log == st.log + [Run(self, found.value.1.f.body, st.caller, t.1)])
  {
    if st.caller.None? then Out(st, Err(OutsideClassContext))
    else
      var t := SuperTarget(st.caller.value, args);
      match FindSuper(st.classes, SuperStart(st, st.caller.value), t.0, t.1)
      case None => NotFound(st, self, t.0, t.1)
      case Some((_, m)) => Invoke(st, self, m, t.1, t.0)
  }
}

=== FILE: wrappers.dfy ===
/** Failure-compatible wrappers shared by every module of the model. */
module Wrappers {

  /** A value that may be absent; stands for JavaScript's null/undefined slots. */
  datatype Option<+T> = None | Some(value: T)

  /** The outcome of an operation that may throw. */
  datatype Result<+T, +E> = Ok(value: T) | Err(error: E) {

    predicate IsFailure() {
      Err?
    }

    function PropagateFailure<U>(): Result<U, E>
      requires Err?
    {
      Err(error)
    }

    function Extract(): T
      requires Ok?
    {
      value
    }
  }
}
